=== FILE: README.md ===
# flask-profiler-modern in Dafny

This project models the core of flask-profiler-modern. That is a Flask extension which times every view call and stores one measurement per call in SQLite. It serves a single-page dashboard for browsing the stored measurements.

The model covers both halves of the system.

- **Server side** (`flask_profiler.py`, `storage/sqlite.py`):
  - how the profiler finds its configuration;
  - how it checks the basic-auth password;
  - how it decides whether to record a call, through ignore patterns and sampling;
  - how it wraps view functions exactly once;
  - how it resolves which profiler state applies;
  - how the SQLite backend turns request arguments into filters;
  - how it sanitises the sort against an allow-list;
  - how it builds a parameterised `SELECT`, and how it turns a row back into a measurement.
- **Browser side** (`static/src/js`):
  - the server-backed table state machine (`ServerSideTable`), which asks for one row more than a page to learn whether a next page exists;
  - the filtering page that drives the table;
  - the accessible dropdown, both the standalone helper and the filtering page's inline copy;
  - the tab manager with lazily imported tab modules;
  - the API helpers: method colours, badge labels, JSON escaping, and query building and status handling.

Modules (one file each):

| module | file | what it holds |
|---|---|---|
| `Results` | results.dfy | `Option` and `Result` |
| `Text` | text.dfy | splitting and joining, ASCII case mapping, `strip` as `str.strip()` and as `int()` and `float()` read it, decimal digits |
| `Js` | js.dfy | JavaScript values, truthiness, `String(v)`, objects as ordered property lists, the null/undefined query filter, `slice`, `%` |
| `TableView` | table_view.dfy | body cells, header cells and sort indicators, the pager |
| `Table` | table.dfy | `ServerSideTable`: construction, sort, paginate, page size, filter, request, load |
| `SqliteStorage` | sqlite_storage.dfy | table-name check, `getFilters`, `_sanitize_sort`, the `filter` and `getSummary` queries as token sequences, the LIMIT/OFFSET window, `jsonify_row` |
| `Profiler` | profiler.dfy | config, auth, ignore, sampling, recording, wrapping, state resolution |
| `Dropdown` | dropdown.dfy | `enhanceDropdown`: selection, open/close, focus movement, keys, destroy |
| `Tabs` | tabs.dfy | `TabManager`: hash and link handling, prefetch, switch, stale-switch guard |
| `Filtering` | filtering.dfy | `applyFilters`, `resetFilters`, `handleFilterEndpoint`, the date-range guard, the inline method dropdown |
| `Utils` | utils.dfy | `getMethodColor`, `createMethodBadge`'s label, `escapeJSON`, `APIService` requests and status check |
| `OverFetch` | over_fetch.dfy | the table's over-fetching request answered by the backend's window |

## Model

| member | source | states |
|---|---|---|
| Table.New | flask_profiler/static/src/js/table.js:5-53 | Construction fails exactly when the initial `sort` is a truthy non-string. It starts on page 0 with no next page, and the page size is among the offered sizes. The current sort field and direction are the parsed `sort` parameter. |
| Table.PageSizeOptions | flask_profiler/static/src/js/table.js:10-16 | The offered sizes are ascending and contain the page size. They are the caller's (or default) sizes plus the page size exactly when it was missing, as a multiset. |
| Table.ParseSort | flask_profiler/static/src/js/table.js:45-50 | A falsy sort gives no field or direction. A truthy non-string throws. A non-empty string gives a comma-free field, and the direction is undefined exactly when there is no comma. |
| Table.ParseSortPair | flask_profiler/static/src/js/table.js:45-50 | `field,dir` parses back into exactly that field and direction. |
| Table.NewSort | flask_profiler/static/src/js/table.js:23-50 | Without `sort` in the initial filters, construction fails only for a truthy non-string default. With no default, it sorts by `endedAt` descending. |
| Table.NewInSync | flask_profiler/static/src/js/table.js:23-37 | A new table's `skip` matches its page and its `limit` matches its page size, unless the initial filters override them. |
| Table.Sort | flask_profiler/static/src/js/table.js:229-246 | Re-sorting the ascending current field flips it to descending, and anything else sorts ascending. The `sort` parameter is `field,dir`, `skip` and the page reset to 0, and every other parameter is kept. |
| Table.SortToggles | flask_profiler/static/src/js/table.js:229-235 | Sorting the same field twice reverses the direction, and a third time restores it. |
| Table.SortParamParses | flask_profiler/static/src/js/table.js:45-50 | The `sort` parameter written by `sort` parses back to the field and direction the table shows. |
| Table.Paginate | flask_profiler/static/src/js/table.js:248-252 | Page `p` sets `skip` to `p * pageSize` and the current page to `p`. Every other parameter, the page size, the sort, the rendered rows, pager and count, and the page-size choices stay as they were. |
| Table.ChangePageSize | flask_profiler/static/src/js/table.js:254-261 | The same size is a no-op without reload. A new size sets `limit`, resets `skip` and the page, and keeps filters, sort, the rendered rows, pager and count, and the page-size choices. |
| Table.ChangePageSizeTwice | flask_profiler/static/src/js/table.js:254-255 | Changing to the same size again does nothing. |
| Table.Filter | flask_profiler/static/src/js/table.js:263-270 | Every given key takes its last given value, with `undefined` stored as `null`. Every other key keeps its value, and `skip` and the page go back to 0. Page size, sort, the rendered rows, pager and count, and the page-size choices are unchanged. |
| Table.MergeValues | flask_profiler/static/src/js/table.js:264-266 | Merging the entries sets each mentioned key to its last value and keeps every unmentioned key. |
| Table.HeaderClick | flask_profiler/static/src/js/table.js:164-175 | Only a column whose `sortable` is not literally `false` sorts on click. |
| Table.Request | flask_profiler/static/src/js/table.js:62-69 | The query holds every non-null parameter, with `limit` replaced by `limit + 1`. |
| Table.Load | flask_profiler/static/src/js/table.js:60-93 | A failed fetch or parse changes nothing, and the status code is never examined. A JSON `null` body throws at `.measurements` and changes nothing. A list of rows sets `hasNextPage` to "more rows than a page" and renders at most a page. A string body is counted and cut like a list: an empty cut shows "No data available" and clears the pager, a non-empty one empties the rows and throws before the pager is updated. Any other body empties the rows, sets the count to `undefined` and keeps the pager. |
| Table.LoadedRowsMatchCount | flask_profiler/static/src/js/table.js:79-88 | After rows arrive, the body has exactly as many rows as the displayed count, each the rendering of the received row at that position. "No data available" appears exactly when the count is 0, with no pager; otherwise the pager range spans exactly the rendered rows. |
| Table.LoadShowsAtMostPageSize | flask_profiler/static/src/js/table.js:79-86 | At most a page is shown, and a next page is announced exactly when rows were cut off. |
| Table.OverFetchRoundTrip | flask_profiler/static/src/js/table.js:79-86 | `pageSize + 1` rows mean a next page with a full page shown. `pageSize` rows mean no next page. |
| Table.LoadIgnoresStatus | flask_profiler/static/src/js/table.js:74-77 | Two responses that differ only in status load identically. |
| Table.RunKeepsSync | flask_profiler/static/src/js/table.js:229-270 | Over any sequence of actions and loads, `skip` stays equal to `currentPage * pageSize`. `limit` stays equal to the page size unless the caller filters on `limit`. |
| Table.ScenarioFirstPageOfTwo | flask_profiler/static/src/js/table.js:60-93 | 26 rows on a 25-row first page show rows 1-25 with a Next control. The next request asks for `skip=25`, `limit=26`. |
| Table.ScenarioFilterKeepsSort | flask_profiler/static/src/js/table.js:263-270 | A method filter after a sort keeps the sort in the parameters. |
| TableView.RenderBody | flask_profiler/static/src/js/table.js:182-227 | No rows gives one "No data available" cell spanning every column. Otherwise each cell is the column's rendered node or text, or the field's text with `null`/`undefined` as empty. |
| TableView.RenderHeaders | flask_profiler/static/src/js/table.js:156-180 | A header is sortable exactly when its column is. It carries the sort indicator exactly when it is the current sort field. |
| TableView.RemarkMatchesRender | flask_profiler/static/src/js/table.js:237-243 | With lower-case directions, re-marking headers after a sort gives the headers a fresh render would draw. |
| TableView.StaleIndicatorSurvives | flask_profiler/static/src/js/table.js:237-243 | An indicator class for a direction other than `asc`/`desc` is never removed by a later sort. |
| TableView.PagerFor | flask_profiler/static/src/js/table.js:272-319 | The range is `page*size+1` to `page*size+count`, or empty with no rows. Controls appear only off the first page or with a next page. Previous exists off the first page and Next exactly with a next page. |
| TableView.PagesTile | flask_profiler/static/src/js/table.js:274-276 | The next page's range starts right after a full page's range ends. |
| Js.SearchParams | flask_profiler/static/src/js/table.js:66-69 | The query keeps exactly the entries whose value is neither `null` nor `undefined`. A single property is kept or dropped on its own. |
| Js.SearchParamsConcat | flask_profiler/static/src/js/table.js:66-69 | The parameters of two runs of properties are those of the first followed by those of the second, so the filter keeps property order. |
| Js.Rem | flask_profiler/static/src/js/enhancedDropdown.js:167 | JavaScript `%`: the remainder has the magnitude of `|a| mod |b|` and the sign of the dividend, for either sign of the divisor. It agrees with the mathematical remainder for non-negative operands. |
| SqliteStorage.Open | flask_profiler/storage/sqlite.py:20-27 | The backend opens exactly when the table name (default `measurements`) is an identifier, and otherwise raises `ValueError`. This is the corrected check; see Findings. |
| SqliteStorage.CheckTableName | flask_profiler/storage/sqlite.py:26-27 | Scanning the name character by character accepts exactly identifiers. This is a second formulation of the predicate `Open` uses. |
| SqliteStorage.AsWrittenAcceptsTrailingNewline | flask_profiler/storage/sqlite.py:26 | The pattern as written, anchored with `$`, accepts `measurements\n`, which is not an identifier. |
| SqliteStorage.OpenAsWritten | flask_profiler/storage/sqlite.py:20-27 | With the pattern as written the backend opens exactly when the name is an identifier, optionally followed by one newline; otherwise `ValueError`. |
| SqliteStorage.OpenRefinesAsWritten | flask_profiler/storage/sqlite.py:26-27 | Wherever the corrected check opens the backend, the check as written opens the same one. The only names the check as written accepts beyond it end in a newline. |
| SqliteStorage.IdentifierIsInert | flask_profiler/storage/sqlite.py:82 | An accepted table name cannot close the quoted identifier, add a placeholder or start a new line. |
| SqliteStorage.GetFilters | flask_profiler/storage/sqlite.py:57-78 | Each argument has its default. The checks run in order: a non-text `sort` gives `AttributeError`, then `endedAt` and `startedAt` must parse as floats, then `args` must be a list, then `skip` and `limit` must parse as integers. The sort list is the comma split of the sort text: at least one piece, no piece holds a comma, and the pieces re-join to the text, so by `Text.SplitJoin` they are exactly its split. |
| SqliteStorage.GetFiltersDefaults | flask_profiler/storage/sqlite.py:60-77 | With no arguments the filters are `endedAt,desc`, clock bounds, no elapsed/method/name, skip 0 and limit 100. |
| SqliteStorage.ParseIntRoundTrip | flask_profiler/storage/sqlite.py:76-77 | `int(str(n)) == n` for every integer. |
| SqliteStorage.ToInt | flask_profiler/storage/sqlite.py:76-77 | An integer passes through, `None` raises `TypeError`, and text succeeds exactly when it parses. |
| SqliteStorage.IntegerTextIsFloat | flask_profiler/storage/sqlite.py:65-68 | Every decimal integer text is accepted by `float()`. |
| SqliteStorage.WordIsNotFloat | flask_profiler/storage/sqlite.py:65-68 | `float("abc")` is refused. |
| SqliteStorage.SanitizeSort | flask_profiler/storage/sqlite.py:48-55 | The stripped field is kept exactly when it is allowed, else the default. The stripped, upper-cased direction is kept exactly when it is `ASC`/`DESC`, else the default. With no pieces the field is the default field. Without a direction piece the upper-cased default direction is used when it is `ASC`/`DESC`, and the default direction as given otherwise. |
| SqliteStorage.SanitizeStripsSeparators | flask_profiler/storage/sqlite.py:49-50 | `strip()` also removes the separators U+001C to U+001F, so `elapsed` and `asc` followed by any run of them still sort by elapsed ascending. |
| SqliteStorage.IntRefusesSeparator | flask_profiler/storage/sqlite.py:76-77 | `int()` does not strip those separators: digits followed by one are refused. |
| SqliteStorage.SanitizeAcceptsSpacedLowerCase | flask_profiler/storage/sqlite.py:48-55 | `elapsed, asc` sanitises to `elapsed ASC`. |
| SqliteStorage.MainConditions | flask_profiler/storage/sqlite.py:186-200 | `filter` always bounds `endedAt` and then `startedAt`. It adds `elapsed` exactly when it is not `None`/empty, and method and name exactly when they are truthy. |
| SqliteStorage.SummaryConditions | flask_profiler/storage/sqlite.py:266-274 | `getSummary` bounds `startedAt` then `endedAt`, adds `elapsed` under the same rule, and never filters by method or name. |
| SqliteStorage.FilterQuery | flask_profiler/storage/sqlite.py:182-215 | The query exists exactly when the filters parse and `elapsed` converts. It orders by the sanitised sort and binds one parameter per condition plus limit and offset. |
| SqliteStorage.SummaryQuery | flask_profiler/storage/sqlite.py:262-288 | It is the grouped counterpart with no paging, using the summary allow-list and `count DESC` as default. |
| SqliteStorage.SqlPlaceholders | flask_profiler/storage/sqlite.py:202-215 | The statement has exactly as many `?` as bound parameters. |
| SqliteStorage.QueriesAreSafe | flask_profiler/storage/sqlite.py:202-215 | For both queries, only the checked table name and an allow-listed sort field are spliced into the text. The direction is `ASC`/`DESC` and the placeholders match the parameters. |
| SqliteStorage.Window | flask_profiler/storage/sqlite.py:213-215 | `LIMIT ? OFFSET ?` returns the rows from the offset on, at most `limit` of them. A negative offset counts as 0 and a negative limit means no limit. |
| SqliteStorage.SevenRows | tests/test_storage_backends.py:67-86 | Of seven rows, `limit=5` returns five and `skip=5` returns two. |
| SqliteStorage.WindowsTile | flask_profiler/storage/sqlite.py:213-215 | Two consecutive windows of one size make the window of twice that size. |
| SqliteStorage.JsonifyRow | flask_profiler/storage/sqlite.py:247-260 | A row of nine columns becomes the nine named fields in order. A shorter row raises `IndexError`. |
| SqliteStorage.JsonifyRowKeepsColumns | flask_profiler/storage/sqlite.py:247-260 | Every field's source is the column at its position: nothing is dropped or reordered. |
| Profiler.LoadConfig | flask_profiler/flask_profiler.py:113-123 | `flask_profiler` is preferred over `FLASK_PROFILER`. It fails exactly when both are missing. |
| Profiler.LoadConfigReadsOnlyItsKeys | flask_profiler/flask_profiler.py:113-123 | Other app-config entries never change the result. With `flask_profiler` present, `FLASK_PROFILER` is ignored; without it, `FLASK_PROFILER` is used. |
| Profiler.VerifyPassword | flask_profiler/flask_profiler.py:125-132 | Without enabled basic auth every login passes. Otherwise a login passes exactly when both the username and the password match. |
| Profiler.WrongPasswordRefused | flask_profiler/flask_profiler.py:125-132 | With auth enabled for a user, a guess passes exactly when it is the password. |
| Profiler.MissingUserRefusesAll | flask_profiler/flask_profiler.py:125-132 | Enabled auth without a configured username refuses everyone. |
| Profiler.IsIgnored | flask_profiler/flask_profiler.py:51-56 | A name is ignored exactly when some configured pattern matches it. |
| Profiler.NoPatternsIgnoreNothing | flask_profiler/flask_profiler.py:51-56 | Without patterns nothing is ignored. |
| Profiler.ShouldSample | flask_profiler/flask_profiler.py:210-219 | Without a sampling function every call is sampled. A non-callable one raises, and a callable one decides by the truthiness of its result. |
| Profiler.RecordCall | flask_profiler/flask_profiler.py:221-234 | Ignored or unsampled calls run unchanged. A sampled call keeps its outcome, raised or returned, and inserts one measurement after whatever the call inserted. |
| Profiler.RecordCallAddsAtMostOne | flask_profiler/flask_profiler.py:221-234 | A call adds exactly one measurement when it is neither ignored nor unsampled, and none otherwise. |
| Profiler.WrapHttpEndpoint | flask_profiler/flask_profiler.py:254-265 | The result is flagged and keeps the function's name. An already flagged function comes back unchanged. |
| Profiler.Profile | flask_profiler/flask_profiler.py:308-323 | Same as the HTTP wrapper, for the decorator. |
| Profiler.WrappingIsIdempotent | flask_profiler/flask_profiler.py:255-256 | Wrapping twice, in either order and by either wrapper, wraps once. |
| Profiler.Measure | flask_profiler/flask_profiler.py:267-275 | A disabled profiler returns the function itself. An enabled one wraps it under the given name and keeps its attributes. |
| Profiler.WrapAppEndpoints | flask_profiler/flask_profiler.py:134-138 | Every view except the profiler's own (`flask-profiler.` prefix) is wrapped, and the endpoint set is unchanged. |
| Profiler.WrapAppEndpointsIdempotent | flask_profiler/flask_profiler.py:134-138 | Wrapping the app's views a second time changes nothing. |
| Profiler.NewState | flask_profiler/flask_profiler.py:96-111 | A missing configuration fails first. A disabled state never opens storage, keeps no collection and leaves views alone. An enabled one fails with the storage's exception when `getCollection` raises, and otherwise holds the collection and wraps the views. |
| Profiler.BadTableNameStopsInit | flask_profiler/flask_profiler.py:104-106 | With the corrected table-name check (see Findings), an enabled profiler whose SQLite table name is not an identifier fails to initialise with `ValueError`. A disabled one initialises whatever its storage settings are. |
| Profiler.AsWrittenNewlineTableInitialises | flask_profiler/flask_profiler.py:104-106 | With the table-name check as written, a profiler whose table name is `measurements` plus a newline initialises. With the corrected check it initialises only when disabled. |
| Profiler.InitApp | flask_profiler/flask_profiler.py:283-288 | Initialisation fails exactly when building the state fails, and then changes nothing. Otherwise the new state becomes both the app's and the last initialised state. |
| Profiler.ResolveState | flask_profiler/flask_profiler.py:40-48 | The app's state comes first, then the last initialised one. With neither it gives `None` when silent and raises otherwise. |
| Profiler.MeasureIn | flask_profiler/flask_profiler.py:298-300 | The module-level `measure` raises without any state, else measures with the resolved state. |
| Profiler.WrapHttpEndpointIn | flask_profiler/flask_profiler.py:303-305 | The module-level `wrapHttpEndpoint` behaves the same way. |
| Profiler.HttpRecord | flask_profiler/flask_profiler.py:239-252 | The measurement is named by the URL rule when there is one, else by the function's name, and carries the request method and context. |
| Profiler.Invoke | flask_profiler/flask_profiler.py:236-265 | A view has its own outcome. A disabled HTTP wrapper calls through. An enabled one raises `UnicodeDecodeError` for a body that is not UTF-8 before anything else, and otherwise records as `_record_call` does. A `measure` wrapper always records under its own name. |
| Profiler.UndecodableBodyRaisesEvenIfIgnored | flask_profiler/flask_profiler.py:236-252 | With a body that is not UTF-8 an enabled HTTP wrapper raises and records nothing, whatever the ignore patterns say. |
| Profiler.DisabledWrapperIsTransparent | flask_profiler/flask_profiler.py:259-261 | A disabled profiler's wrappers behave exactly like the wrapped function. |
| Profiler.ProfileWithoutStateIsTransparent | flask_profiler/flask_profiler.py:314-317 | Without any profiler state, a `@profile()` function behaves like the function itself. |
| Profiler.ServedEndpointRecordsOnce | flask_profiler/flask_profiler.py:134-138 | A served view that is not ignored and is sampled records one measurement under its rule, even after being wrapped twice, when its body decodes. A body that is not UTF-8 raises `UnicodeDecodeError` and records nothing. |
| Profiler.MeasureOverHttpRecordsTwice | flask_profiler/flask_profiler.py:267-275 | `measure` around an HTTP-wrapped view records two measurements per call, because the flag does not stop `measure`. With a body that is not UTF-8 only `measure` records and the call raises. |
| Dropdown.SetSelected | flask_profiler/static/src/js/enhancedDropdown.js:114-130 | Exactly the first option with the value is marked, else the first option. The label is its text, or empty with no options. |
| Dropdown.SetSelectedMarksOne | flask_profiler/static/src/js/enhancedDropdown.js:114-130 | Exactly one option is marked when there are options, and it carries the value or is the fallback. |
| Dropdown.SetSelectedIdempotent | flask_profiler/static/src/js/enhancedDropdown.js:114-130 | Selecting the same value twice changes nothing more. |
| Dropdown.Open | flask_profiler/static/src/js/enhancedDropdown.js:137-142 | It opens and focuses the marked option, else the first option. |
| Dropdown.Close | flask_profiler/static/src/js/enhancedDropdown.js:132-135 | The menu closes and `aria-expanded` becomes `false`. Marks, label and focus stay. |
| Dropdown.Toggle | flask_profiler/static/src/js/enhancedDropdown.js:144-150 | It flips openness, and `aria-expanded` follows. Marks and label stay. |
| Dropdown.ToggleTwice | flask_profiler/static/src/js/enhancedDropdown.js:144-150 | Toggling twice restores openness and marks. |
| Dropdown.FocusByOffset | flask_profiler/static/src/js/enhancedDropdown.js:157-169 | Focus moves to `(i + offset + n) % n`. It does nothing without a current option of this menu. |
| Dropdown.FocusWraps | flask_profiler/static/src/js/enhancedDropdown.js:167 | Down from the last option goes to the first, and up from the first goes to the last. |
| Dropdown.FocusDownUp | flask_profiler/static/src/js/enhancedDropdown.js:157-169 | Down then up returns focus to where it was. |
| Dropdown.TriggerKey | flask_profiler/static/src/js/enhancedDropdown.js:171-192 | An arrow opens a closed menu or moves focus in an open one. Enter or Space toggles, Escape closes and focuses the trigger, and other keys do nothing. Marks and label stay, and the menu class keeps agreeing with `aria-expanded`. |
| Dropdown.OptionKey | flask_profiler/static/src/js/enhancedDropdown.js:194-209 | Arrows move focus with wrap-around, Enter or Space choose the option, and Escape closes. |
| Dropdown.Choose | flask_profiler/static/src/js/enhancedDropdown.js:211-219 | The select takes the option's value, one `change` is dispatched and the option (or an earlier one with that value) is marked. The menu closes and the trigger is focused. |
| Dropdown.DocumentClick | flask_profiler/static/src/js/enhancedDropdown.js:242-246 | A click outside the widget closes it, and a click inside does nothing. |
| Dropdown.Handle | flask_profiler/static/src/js/enhancedDropdown.js:152-246 | Each widget event runs its handler: a click or key on the trigger, a key or click on an option, a click in the document, and the select's `change`. Options never change. A trigger click flips openness and keeps the marks; when it bubbles to the document it lands inside the widget and changes nothing more. |
| Dropdown.HandleKeepsWellMarked | flask_profiler/static/src/js/enhancedDropdown.js:152-246 | Every trigger click, key, option click, document click and `change` event keeps the menu class and `aria-expanded` in agreement and exactly one option marked when there are options. |
| Dropdown.EnhanceIsWellMarked | flask_profiler/static/src/js/enhancedDropdown.js:31-58 | A freshly enhanced widget starts with the menu class and `aria-expanded` in agreement and exactly one option marked when there are options. |
| Dropdown.SelectChanged | flask_profiler/static/src/js/enhancedDropdown.js:236-238 | A `change` on the select re-synchronises the selection to its value. |
| Dropdown.Enhance | flask_profiler/static/src/js/enhancedDropdown.js:31-58 | A missing select gives nothing, and an already enhanced select returns its controller. Without a container it gives nothing. Otherwise it builds a flagged, closed widget synchronised to the select's value. |
| Dropdown.EnhanceIdempotent | flask_profiler/static/src/js/enhancedDropdown.js:36-38 | Enhancing twice returns the same controller. |
| Dropdown.Destroy | flask_profiler/static/src/js/enhancedDropdown.js:250-270 | The flag and controller go, and options and value stay. |
| Dropdown.DestroyThenEnhanceRebuilds | flask_profiler/static/src/js/enhancedDropdown.js:250-270 | After `destroy`, enhancing builds a fresh closed widget. |
| Tabs.TabIdFromLink | flask_profiler/static/src/js/main.js:97-103 | A link gives a tab id exactly when its `href` starts with `#`, and the id is the rest. |
| Tabs.TabFromHash | flask_profiler/static/src/js/main.js:90-91 | The hash without `#` names the tab, and an empty hash means the dashboard. |
| Tabs.LoadTabFromHash | flask_profiler/static/src/js/main.js:90-95 | A hash naming a tab, or a property every object inherits (such as `constructor`), is switched to without changing the hash. Any other hash is ignored. |
| Tabs.Prefetch | flask_profiler/static/src/js/main.js:105-128 | A loaded module is returned and a pending import is shared. Only a tab with neither starts an import. |
| Tabs.PrefetchShared | flask_profiler/static/src/js/main.js:115-127 | Prefetching twice starts at most one import. |
| Tabs.Settle | flask_profiler/static/src/js/main.js:116-124 | A finished import stores the module. A failed one drops the promise, so the tab can be loaded again. |
| Tabs.FailedLoadRetries | flask_profiler/static/src/js/main.js:121-124 | After a failed import, the next prefetch starts a new import. |
| Tabs.BeginSwitch | flask_profiler/static/src/js/main.js:134-196 | Switching to the current tab, or to a name `this.tabs` does not hold, does nothing. Otherwise it cleans up the tab being left, updates the hash (when asked), link and content marks, and makes the name current. For a real tab it then starts or shares its import. An inherited name such as `constructor` loads nothing, because its load throws and is caught. |
| Tabs.InheritedNameHidesEveryTab | flask_profiler/static/src/js/main.js:134-196 | Switching to an inherited name such as `#constructor` makes it current and leaves no content shown and no link marked. |
| Tabs.FinishSwitch | flask_profiler/static/src/js/main.js:182-192 | A tab is initialised and marked loaded only if it is still current and its module has an initializer. |
| Tabs.HashChangeAfterSwitchIsNoOp | flask_profiler/static/src/js/main.js:140 | The `hashchange` caused by a switch does not switch again. |
| Tabs.Next | flask_profiler/static/src/js/main.js:50-88 | Every event (link click, hover prefetch, hash change, import settling, init) keeps the manager well formed and only appends to the event log. |
| Tabs.NewManager | flask_profiler/static/src/js/main.js:34-47 | A new manager is well formed, with no current tab and no events. |
| Tabs.RunKeepsLoadedAfterInit | flask_profiler/static/src/js/main.js:186-189 | Over any run, a tab is marked loaded only after its initializer ran. |
| Tabs.StaleSwitchSkipsInit | flask_profiler/static/src/js/main.js:183-185 | Switching away while a tab's module is still loading means that tab is never initialised by the stale switch. |
| Utils.MethodColor | flask_profiler/static/src/js/utils.js:128-146 | A truthy method's upper-cased text picks its palette colour. Anything else gets the default grey, which no method uses. |
| Utils.MethodColorIgnoresCase | flask_profiler/static/src/js/utils.js:144 | Case does not change the colour. |
| Utils.BadgeLabel | flask_profiler/static/src/js/utils.js:150 | The label is the upper-cased method text, or `UNKNOWN` for a falsy method. |
| Utils.BadgeColorMatchesMethod | flask_profiler/static/src/js/utils.js:148-155 | The badge coloured by its label gets the same colour as the method itself. |
| Utils.EscapeJson | flask_profiler/static/src/js/utils.js:84-89 | The escaped text holds no `<`, `>` or `&`, and every other character of the input survives. |
| Utils.EscapeJsonIsOnePass | flask_profiler/static/src/js/utils.js:84-89 | The three chained replacements equal escaping each character once: the `&` pass never touches the text the earlier passes wrote. |
| Utils.EscapeJsonIsSafe | flask_profiler/static/src/js/utils.js:84-89 | The output has no `<`, `>` or `&`. Text without them is unchanged. |
| Utils.FetchRequest | flask_profiler/static/src/js/utils.js:7-13 | The URL path is the endpoint's, and the query keeps exactly the non-null parameters. |
| Utils.FetchResult | flask_profiler/static/src/js/utils.js:15-17 | A status outside 200-299 throws `HTTP <status>`, else the body itself is handed on for parsing. Success depends on the status alone. |
| Utils.FetchResultReportsStatus | flask_profiler/static/src/js/utils.js:15-17 | Two failures with the same message had the same status, and two successes with the same text had the same body. |
| Utils.NullParamsDropped | flask_profiler/static/src/js/utils.js:9-13 | Adding a `null` or `undefined` parameter does not change the request. |
| Filtering.FormFilters | flask_profiler/static/src/js/filtering.js:337-348 | The filter object has `method`, `name` and `elapsed` entries exactly for the filled inputs, with distinct keys. |
| Filtering.ApplyFilters | flask_profiler/static/src/js/filtering.js:337-350 | Each filled input sets its table parameter (elapsed through `parseFloat`). An empty or missing input keeps the table's previous value, and other parameters are untouched. |
| Filtering.ClearedNameKeepsOldFilter | flask_profiler/static/src/js/filtering.js:343-344 | Clearing the name input and applying leaves the table filtered by the old name. |
| Filtering.ResetFilters | flask_profiler/static/src/js/filtering.js:352-382 | The inputs are emptied and the table gets the whole-second bounds from a week ago to now. Method, name and elapsed parameters are unchanged. |
| Filtering.ClearSelect | flask_profiler/static/src/js/filtering.js:354-364 | A select is emptied. An inline widget is re-synchronised to `''` and closed, and any other binding is kept. |
| Filtering.ResetKeepsMethodFilter | flask_profiler/static/src/js/filtering.js:378-382 | After a reset the form shows no method, but the table still filters by the old one, even after applying the form. |
| Filtering.DateRangeChange | flask_profiler/static/src/js/filtering.js:71-77 | Only a two-date selection filters, and the bounds are `floor(ms / 1000)`. |
| Filtering.DateWindow | flask_profiler/static/src/js/filtering.js:71-77 | The table's `startedAt` and `endedAt` become the whole seconds containing the two instants. It reloads from the first page, and every other parameter except `skip` is kept. |
| Filtering.ResetMatchesPicker | flask_profiler/static/src/js/filtering.js:371-382 | Resetting filters the table exactly as picking the same range would. |
| Filtering.MethodFromEvent | flask_profiler/static/src/js/filtering.js:323 | A falsy method gives `''` and a string gives its upper case. A truthy non-string throws `TypeError`. |
| Filtering.AssignSelect | flask_profiler/static/src/js/filtering.js:323 | A select takes the assigned value only if an option has it, else it becomes `''`. |
| Filtering.InputText | flask_profiler/static/src/js/filtering.js:320 | Assigning `null` to an input empties it, and a string is shown as is. |
| Filtering.Changed | flask_profiler/static/src/js/filtering.js:295-297 | A `change` event counts once and re-synchronises an inline widget to the select's value. |
| Filtering.HandleFilterEndpoint | flask_profiler/static/src/js/filtering.js:315-328 | The name input takes the name, also when the method then throws. The method select takes the upper-cased method and dispatches `change`, which applies the filters. Without a method select the filters are applied directly. A truthy non-string method throws `TypeError` and leaves the select alone. |
| Filtering.ClickToFilterSetsMethodAndName | flask_profiler/static/src/js/filtering.js:315-328 | A dashboard click on a row whose method the select offers filters the table by that method and name. |
| Filtering.UnknownMethodKeepsOldFilter | flask_profiler/static/src/js/filtering.js:322-324 | A method the select does not offer leaves the table's method filter unchanged. |
| Filtering.ChooseMethod | flask_profiler/static/src/js/filtering.js:266-275 | Choosing an option in the inline dropdown sets the select and applies its value as the method filter. The "all" option (`''`) keeps the old one. |
| Filtering.EnhanceMethodDropdown | flask_profiler/static/src/js/filtering.js:118-129 | It does nothing for a missing, already flagged or parentless select. Otherwise it builds a flagged, closed inline widget. |
| Filtering.InlineMatchesStandalone | flask_profiler/static/src/js/filtering.js:187-221 | The inline widget starts with the same marks, label, openness and focus as the standalone helper would build. |
| Filtering.EnhanceMethodDropdownIdempotent | flask_profiler/static/src/js/filtering.js:120-122 | Running the inline enhancement twice changes nothing. |
| Filtering.StandaloneRewrapsInline | flask_profiler/static/src/js/enhancedDropdown.js:36-38 | The standalone helper does not recognise the inline widget (it stores no controller), so it would build a second one. |
| Filtering.PageTable | flask_profiler/static/src/js/filtering.js:20-56 | The filtering table shows 25 rows sorted by `endedAt` descending. |
| OverFetch.RequestAsksForWindow | flask_profiler/static/src/js/table.js:62-69 | A table in sync asks for `skip = page * size` and `limit = size + 1`. |
| OverFetch.LoadShowsPage | flask_profiler/static/src/js/table.js:79-86 | Loading what the backend serves for that request shows exactly the current page of the stored rows. It announces a next page exactly when rows exist beyond it. |
| OverFetch.PagesTile | flask_profiler/storage/sqlite.py:213-215 | Consecutive pages neither skip nor repeat a row. |
| OverFetch.LastPage | flask_profiler/static/src/js/table.js:79-86 | On the last page there is no next page and the remaining rows are shown. |

## Left out

- **Database and I/O**
  - Database I/O, the connection lock and commits are not modelled. The SQLite table is a sequence of rows already filtered and ordered, and the SQL statement is a token sequence, not text.
  - `insert`, `get`, `truncate`, `delete`, `getTimeseries` and `getMethodDistribution` are not modelled. They are outside the filtering and summary core.
- **Profiler internals**
  - Timing, `Measurement` rounding, `verbose` printing and the JSON encoding of `args`, `kwargs` and `context` are not modelled. Only the check that `args` is list-like is kept.
  - The collection is the SQLite backend as `SqliteStorage.Open` builds it. Any other storage engine is not modelled.
  - The request body is either valid UTF-8 or not. Which bytes fail, and the decoded text, are not modelled.
  - The profiler's own routes, the blueprint and the dashboard authentication integrations are not modelled.
  - `re.search` for ignore patterns and the user's sampling function are parameters, not implementations.
  - An explicit `None` for `basicAuth` or `ignore` is not modelled. Missing keys are.
- **Number parsing**
  - SqliteStorage.GetFilters: Python `float()` and `int()` accept digit-group underscores, non-ASCII decimal digits (such as `٣`) and non-ASCII whitespace around the number (such as U+00A0). The model reads ASCII only, so such text is refused here.
  - SqliteStorage.ToInt: it takes its text to be ASCII. Python `int()` also accepts non-ASCII digits and whitespace, so for such text the model raises where Python returns a number.
  - Floating point is not modelled. JavaScript numbers are integers in the model, and `parseFloat` is a parameter.
- **Text outside ASCII**
  - SqliteStorage.SanitizeSort: it strips what `str.isspace()` accepts in ASCII (the six whitespace characters and the separators U+001C to U+001F) and upper-cases ASCII letters only. Python's `strip()` and `upper()` are Unicode-aware, so `elapsed\u00a0` is kept as `elapsed` and `aſc` is read as `ASC` there, while the model falls back to the defaults.
  - Utils.MethodColor: it upper-cases ASCII letters only. JavaScript's `toUpperCase` maps `poſt` to `POST`, which gets the POST colour, while the model gives the default grey.
  - Utils.BadgeLabel: it upper-cases ASCII letters one for one. JavaScript's `toUpperCase` can lengthen text (`ß` becomes `SS`), so the length and per-character clauses hold only for text without such letters.
  - Filtering.MethodFromEvent: it upper-cases ASCII letters only, where JavaScript also maps letters such as `ſ` and `ß`.
- **Browser environment**
  - The modal JSON viewer, `highlightJSON`, charts, the dashboard and settings pages, and element creation, ids and class names are not modelled.
  - Focus is tracked only as "which option or trigger".
  - Tabs.BeginSwitch: the await on a pending import of the tab being left is taken as one atomic step. Its result is the parameter `pendingPrevious`, and interleavings during that await are not modelled. Init functions run atomically.
  - The filter form markup is not part of this model. The method select is taken to carry the `filter-input` class, so its `change` event runs `applyFilters`.
  - The rows-per-page select also carries that class, so `resetFilters` blanks it too. Whether it exists depends on that markup, so this is not modelled.
  - Clock readings (`Date.now()`, a week ago, `time.time()`) are parameters.
  - Table.Load: a JSON array is taken to hold objects, and a JSON object to have no `length` property of its own. A `null` element, or an object body with a numeric `length`, is not modelled.

## Findings

| source | as written | input that shows it | evidently intended | confidence | as-written member | corrected member |
|---|---|---|---|---|---|---|
| flask_profiler/storage/sqlite.py:26 | `re.match(r'^[a-zA-Z_][a-zA-Z0-9_]*$', name)`: `$` also matches before a final newline | table name `"measurements\n"` is accepted and spliced into the quoted SQL identifier | accept identifiers only (`re.fullmatch` or `\Z`) | high for the regex semantics; not executed | SqliteStorage.AsWrittenAcceptsTrailingNewline | SqliteStorage.Open |

=== FILE: dropdown.dfy ===
/** The accessible dropdown that replaces a native `<select>`
    (flask_profiler/static/src/js/enhancedDropdown.js): which option is
    marked selected and shown on the trigger, whether the menu is open,
    where keyboard focus goes, and how the widget is attached to and
    detached from its select. Element creation, class names and ids are
    not modelled. */
module Dropdown {
  import opened Results
  import Js

  /** A menu option: its `data-value` and its text. */
  datatype Opt = Opt(value: string, text: string)

  /** Where keyboard focus is, as far as the widget can tell: not on it, on
      its trigger button, or on an element with the option class, given by
      its index among this widget's options (an index outside them is an
      option of some other dropdown). */
  datatype Focus = Elsewhere | OnTrigger | OnOption(index: int)

  /** The widget's own state: the `aria-selected` mark of every option, the
      trigger label, the menu's open class and the trigger's
      `aria-expanded` text, and the focus. */
  datatype Ui = Ui(marks: seq<bool>, caption: string, openClass: bool, expanded: string, focus: Focus)

  /** How the select is enhanced: not at all, by `enhanceDropdown` (which
      stores its controller on the select), or by the filtering page's
      inline copy (which stores only `sync` and `close`). */
  datatype Binding = Plain | Controller(ui: Ui) | Inline(ui: Ui)

  /** The native select: its options, current value, whether its
      `dropdownEnhanced` flag is "true", its binding, whether it has a parent
      element, and how many `change` events have been dispatched on it. */
  datatype Select = Select(options: seq<Opt>, value: string, flagged: bool, binding: Binding,
                           hasParent: bool, changes: nat)

  /** An enhanced select whose marks line up with its options. */
  predicate Bound(s: Select)
  {
    !s.binding.Plain? && |s.binding.ui.marks| == |s.options|
  }

  function UiOf(s: Select): Ui
    requires Bound(s)
  {
    s.binding.ui
  }

  function WithUi(s: Select, ui: Ui): (r: Select)
    requires Bound(s) && |ui.marks| == |s.options|
    ensures Bound(r) && UiOf(r) == ui
    ensures r.options == s.options && r.value == s.value && r.flagged == s.flagged
    ensures r.binding.Controller? <==> s.binding.Controller?
    ensures r.hasParent == s.hasParent && r.changes == s.changes
  {
    var b := if s.binding.Controller? then Controller(ui) else Inline(ui);
    s.(binding := b)
  }

  // ---------------------------------------------------------------------
  // Selection

  /** The first option with the given value. */
  function Find(options: seq<Opt>, value: string): (r: Option<nat>)
    ensures r.Some? ==> r.value < |options| && options[r.value].value == value
    ensures r.Some? ==> forall j :: 0 <= j < r.value ==> options[j].value != value
    ensures r.None? ==> forall j :: 0 <= j < |options| ==> options[j].value != value
  {
    if |options| == 0 then None
    else if options[0].value == value then Some(0)
    else match Find(options[1..], value)
      case None => None
      case Some(k) => Some(k + 1)
  }

  /** The option `setSelected(value)` settles on: the first with that value,
      else the first option, else none. */
  function Target(options: seq<Opt>, value: string): (r: Option<nat>)
    ensures r.Some? <==> |options| > 0
    ensures r.Some? ==> r.value < |options|
  {
    var found := Find(options, value);
    if found.Some? then found else if |options| > 0 then Some(0) else None
  }

  /** Number of options marked selected. */
  function CountMarks(marks: seq<bool>): nat
  {
    if |marks| == 0 then 0 else (if marks[0] then 1 else 0) + CountMarks(marks[1..])
  }

  /** `setSelected(value)`: clear every mark, mark the target and show its
      text, or show '' when there are no options. */
  function SetSelected(ui: Ui, options: seq<Opt>, value: string): (r: Ui)
    ensures |r.marks| == |options|
    ensures forall i :: 0 <= i < |options| ==> (r.marks[i] <==> Target(options, value) == Some(i))
    ensures |options| > 0 ==> r.caption == options[Target(options, value).value].text
    ensures |options| == 0 ==> r.caption == ""
    ensures r.openClass == ui.openClass && r.expanded == ui.expanded && r.focus == ui.focus
  {
    var t := Target(options, value);
    var marks := seq(|options|, i requires 0 <= i < |options| => t == Some(i));
    ui.(marks := marks, caption := if t.Some? then options[t.value].text else "")
  }

  lemma {:induction false} CountSingleMark(marks: seq<bool>, k: nat)
    requires k < |marks|
    requires forall i :: 0 <= i < |marks| ==> (marks[i] <==> i == k)
    ensures CountMarks(marks) == 1
    decreases |marks|
  {
    if k == 0 {
      NoMarks(marks[1..]);
    } else {
      CountSingleMark(marks[1..], k - 1);
    }
  }

  lemma {:induction false} NoMarks(marks: seq<bool>)
    requires forall i :: 0 <= i < |marks| ==> !marks[i]
    ensures CountMarks(marks) == 0
    decreases |marks|
  {
    if |marks| > 0 {
      NoMarks(marks[1..]);
    }
  }

  /** After `setSelected` exactly one option is marked when there are options
      (none otherwise), it is the first option with the value if any has it,
      and the label is its text. */
  lemma SetSelectedMarksOne(ui: Ui, options: seq<Opt>, value: string)
    ensures var r := SetSelected(ui, options, value);
            CountMarks(r.marks) == (if |options| > 0 then 1 else 0)
    ensures var r := SetSelected(ui, options, value);
            forall i :: 0 <= i < |options| && r.marks[i] ==>
              r.caption == options[i].text
              && (options[i].value == value || (i == 0 && forall j :: 0 <= j < |options| ==> options[j].value != value))
  {
    var r := SetSelected(ui, options, value);
    if |options| > 0 {
      CountSingleMark(r.marks, Target(options, value).value);
    } else {
      NoMarks(r.marks);
    }
  }

  /** Selecting is idempotent. */
  lemma SetSelectedIdempotent(ui: Ui, options: seq<Opt>, value: string)
    ensures SetSelected(SetSelected(ui, options, value), options, value) == SetSelected(ui, options, value)
  {
  }

  // ---------------------------------------------------------------------
  // Opening, closing and focus

  /** The first option marked selected. */
  function FirstMarked(marks: seq<bool>): (r: Option<nat>)
    ensures r.Some? ==> r.value < |marks| && marks[r.value]
    ensures r.Some? ==> forall j :: 0 <= j < r.value ==> !marks[j]
    ensures r.None? ==> forall j :: 0 <= j < |marks| ==> !marks[j]
  {
    if |marks| == 0 then None
    else if marks[0] then Some(0)
    else match FirstMarked(marks[1..])
      case None => None
      case Some(k) => Some(k + 1)
  }

  /** `closeMenu`. */
  function Close(ui: Ui): (r: Ui)
    ensures !r.openClass && r.expanded == "false"
    ensures r.marks == ui.marks && r.caption == ui.caption && r.focus == ui.focus
  {
    ui.(openClass := false, expanded := "false")
  }

  /** `openMenu`: open, and focus the marked option, else the first one
      (focus stays put when there is no option). */
  function Open(ui: Ui): (r: Ui)
    ensures r.openClass && r.expanded == "true"
    ensures r.marks == ui.marks && r.caption == ui.caption
    ensures FirstMarked(ui.marks).Some? ==> r.focus == OnOption(FirstMarked(ui.marks).value)
    ensures FirstMarked(ui.marks).None? && |ui.marks| > 0 ==> r.focus == OnOption(0)
    ensures |ui.marks| == 0 ==> r.focus == ui.focus
  {
    var active := FirstMarked(ui.marks);
    var focus := if active.Some? then OnOption(active.value)
                 else if |ui.marks| > 0 then OnOption(0) else ui.focus;
    ui.(openClass := true, expanded := "true", focus := focus)
  }

  /** `toggleMenu`. */
  function Toggle(ui: Ui): (r: Ui)
    ensures r.openClass == !ui.openClass
    ensures r.expanded == (if r.openClass then "true" else "false")
    ensures r.marks == ui.marks && r.caption == ui.caption
  {
    if ui.openClass then Close(ui) else Open(ui)
  }

  /** The open class and `aria-expanded` agree. */
  predicate Consistent(ui: Ui)
  {
    ui.expanded == (if ui.openClass then "true" else "false")
  }

  /** Toggling twice from a consistent state restores openness and marks. */
  lemma ToggleTwice(ui: Ui)
    requires Consistent(ui)
    ensures Toggle(Toggle(ui)).openClass == ui.openClass
    ensures Toggle(Toggle(ui)).expanded == ui.expanded
    ensures Toggle(Toggle(ui)).marks == ui.marks
  {
  }

  /** `focusOptionByOffset(current, offset)`: from option `i` of `n` move to
      `(i + offset + n) % n`; nothing happens without a current element or
      when it is not one of this menu's options. */
  function FocusByOffset(ui: Ui, n: nat, current: Option<int>, offset: int): (r: Ui)
    ensures current.None? ==> r == ui
    ensures current.Some? && !(0 <= current.value < n) ==> r == ui
    ensures current.Some? && 0 <= current.value < n && 0 <= current.value + offset + n ==>
              r == ui.(focus := OnOption((current.value + offset + n) % n))
  {
    if current.None? then ui
    else
      var i := current.value;
      if !(0 <= i < n) then ui
      else
        var next := Js.Rem(i + offset + n, n);
        if 0 <= next < n then ui.(focus := OnOption(next)) else ui
  }

  /** Moving down from the last option wraps to the first, and up from the
      first wraps to the last. */
  lemma FocusWraps(ui: Ui, n: nat)
    requires n > 0
    ensures FocusByOffset(ui, n, Some(n - 1), 1).focus == OnOption(0)
    ensures FocusByOffset(ui, n, Some(0), -1).focus == OnOption(n - 1)
  {
    ModWrap(n - 1 + 1 + n, n);
    ModWrap(0 - 1 + n, n);
  }

  /** A step down then a step up returns focus to where it was. */
  lemma FocusDownUp(ui: Ui, n: nat, i: nat)
    requires i < n
    ensures var down := FocusByOffset(ui, n, Some(i), 1);
            FocusByOffset(down, n, Some(down.focus.index), -1).focus == OnOption(i)
  {
    ModWrap(i + 1 + n, n);
    var down := FocusByOffset(ui, n, Some(i), 1);
    var j := down.focus.index;
    assert j == if i == n - 1 then 0 else i + 1;
    ModWrap(j - 1 + n, n);
  }

  /** The remainder of a value between 0 and twice the modulus. */
  lemma ModWrap(a: int, n: int)
    requires n > 0 && 0 <= a <= 2 * n
    ensures a % n == if a < n then a else if a < 2 * n then a - n else 0
  {
    if a < n {
      assert a == n * 0 + a;
    } else if a < 2 * n {
      assert a == n * 1 + (a - n);
    } else {
      assert a == n * 2 + 0;
    }
  }

  /** The element a key press on the trigger moves from: the focused option,
      or else the marked one. */
  function CurrentForTrigger(ui: Ui): Option<int>
  {
    if ui.focus.OnOption? then Some(ui.focus.index)
    else
      var marked := FirstMarked(ui.marks);
      if marked.Some? then Some(marked.value) else None
  }

  // ---------------------------------------------------------------------
  // Events

  /** Key names the widget reacts to. */
  const ArrowDown := "ArrowDown"
  const ArrowUp := "ArrowUp"
  const Enter := "Enter"
  const Space := " "
  const Escape := "Escape"

  /** Keydown on the trigger: an arrow on a closed menu only opens it, on an
      open menu it moves focus; Enter or Space toggles; Escape closes and
      focuses the trigger; other keys do nothing. */
  function TriggerKey(ui: Ui, n: nat, key: string): (r: Ui)
    ensures r.marks == ui.marks && r.caption == ui.caption
    ensures Consistent(ui) ==> Consistent(r)
    ensures (key == ArrowDown || key == ArrowUp) && !ui.openClass ==> r == Open(ui)
    ensures (key == ArrowDown || key == ArrowUp) && ui.openClass ==>
              r.openClass && r.marks == ui.marks && r.caption == ui.caption && r.expanded == ui.expanded
    ensures key == Enter || key == Space ==> r == Toggle(ui)
    ensures key == Escape ==> r == Close(ui).(focus := OnTrigger)
    ensures key !in {ArrowDown, ArrowUp, Enter, Space, Escape} ==> r == ui
  {
    if key == ArrowDown || key == ArrowUp then
      if !ui.openClass then Open(ui)
      else FocusByOffset(ui, n, CurrentForTrigger(ui), if key == ArrowDown then 1 else -1)
    else if key == Enter || key == Space then Toggle(ui)
    else if key == Escape then Close(ui).(focus := OnTrigger)
    else ui
  }

  /** Choosing option `i` (click, or Enter/Space on it): the select takes its
      value, the selection follows, one `change` event is dispatched (whose
      handler re-syncs the selection to the same value), the menu closes and
      the trigger gets focus. */
  function Choose(s: Select, i: nat): (r: Select)
    requires Bound(s) && i < |s.options|
    ensures Bound(r) && r.options == s.options && r.binding.Controller? == s.binding.Controller?
    ensures r.value == s.options[i].value
    ensures r.changes == s.changes + 1
    ensures UiOf(r).marks == SetSelected(UiOf(s), s.options, s.options[i].value).marks
    ensures UiOf(r).marks[i] || exists j :: 0 <= j < i && s.options[j].value == s.options[i].value && UiOf(r).marks[j]
    ensures !UiOf(r).openClass && UiOf(r).expanded == "false" && UiOf(r).focus == OnTrigger
  {
    var value := s.options[i].value;
    var selected := SetSelected(UiOf(s), s.options, value);
    var synced := SetSelected(selected, s.options, value);
    var t := Target(s.options, value);
    assert t.Some? && s.options[t.value].value == value;
    var r := WithUi(s, Close(synced).(focus := OnTrigger)).(value := value, changes := s.changes + 1);
    assert UiOf(r).marks[t.value];
    r
  }

  /** Keydown on option `i`: arrows move focus with wrap-around, Enter or
      Space choose it, Escape closes and focuses the trigger. */
  function OptionKey(s: Select, i: nat, key: string): (r: Select)
    requires Bound(s) && i < |s.options|
    ensures Bound(r)
    ensures key == ArrowDown ==> r == WithUi(s, FocusByOffset(UiOf(s), |s.options|, Some(i), 1))
    ensures key == ArrowUp ==> r == WithUi(s, FocusByOffset(UiOf(s), |s.options|, Some(i), -1))
    ensures key == Enter || key == Space ==> r == Choose(s, i)
    ensures key == Escape ==> r == WithUi(s, Close(UiOf(s)).(focus := OnTrigger))
    ensures key !in {ArrowDown, ArrowUp, Enter, Space, Escape} ==> r == s
  {
    var n := |s.options|;
    if key == ArrowDown then WithUi(s, FocusByOffset(UiOf(s), n, Some(i), 1))
    else if key == ArrowUp then WithUi(s, FocusByOffset(UiOf(s), n, Some(i), -1))
    else if key == Enter || key == Space then Choose(s, i)
    else if key == Escape then WithUi(s, Close(UiOf(s)).(focus := OnTrigger))
    else s
  }

  /** What can happen to an enhanced select: a click or a key on the
      trigger, a key on or a click on option `index` (only this widget's
      options receive these, so an index past them is no event of this
      widget), a click in the document, or the select's own `change` event. */
  datatype UiEvent =
    | TriggerClicked
    | TriggerKeyDown(key: string)
    | OptionKeyDown(index: nat, key: string)
    | OptionClick(index: nat)
    | DocumentClicked(inside: bool)
    | SelectChange

  /** A widget whose menu class and `aria-expanded` agree and that marks
      exactly one option when it has options (none otherwise). */
  predicate WellMarked(s: Select)
  {
    Bound(s) && Consistent(UiOf(s)) && CountMarks(UiOf(s).marks) == (if |s.options| > 0 then 1 else 0)
  }

  /** The handler an event runs. A click on the trigger toggles the menu;
      it then bubbles to the document, where it lands inside the widget and
      changes nothing more. */
  function Handle(s: Select, e: UiEvent): (r: Select)
    requires Bound(s)
    ensures Bound(r) && r.options == s.options
    ensures e.TriggerClicked? ==> UiOf(r).openClass == !UiOf(s).openClass && UiOf(r).marks == UiOf(s).marks
  {
    match e
    case TriggerClicked => WithUi(s, DocumentClick(Toggle(UiOf(s)), true))
    case TriggerKeyDown(key) => WithUi(s, TriggerKey(UiOf(s), |s.options|, key))
    case OptionKeyDown(i, key) => if i < |s.options| then OptionKey(s, i, key) else s
    case OptionClick(i) => if i < |s.options| then Choose(s, i) else s
    case DocumentClicked(inside) => WithUi(s, DocumentClick(UiOf(s), inside))
    case SelectChange => SelectChanged(s)
  }

  /** A freshly enhanced widget is well marked, and every event keeps it so. */
  lemma EnhanceIsWellMarked(select: Select, focus: Focus)
    requires select.flagged && select.binding.Controller? ==> WellMarked(select)
    ensures WellMarked(Enhance(Some(select), true, focus).value)
  {
    if !(select.flagged && select.binding.Controller?) {
      SetSelectedMarksOne(Fresh(select, focus), select.options, select.value);
    }
  }

  lemma HandleKeepsWellMarked(s: Select, e: UiEvent)
    requires WellMarked(s)
    ensures WellMarked(Handle(s, e))
  {
    match e
    case TriggerClicked =>
    case TriggerKeyDown(key) =>
    case OptionKeyDown(i, key) =>
      if i < |s.options| && (key == Enter || key == Space) {
        SetSelectedMarksOne(UiOf(s), s.options, s.options[i].value);
      }
    case OptionClick(i) =>
      if i < |s.options| {
        SetSelectedMarksOne(UiOf(s), s.options, s.options[i].value);
      }
    case DocumentClicked(inside) =>
    case SelectChange =>
      SetSelectedMarksOne(UiOf(s), s.options, s.value);
  }

  /** A click anywhere in the document closes the menu unless it landed
      inside the widget. */
  function DocumentClick(ui: Ui, inside: bool): (r: Ui)
    ensures inside ==> r == ui
    ensures !inside ==> r == Close(ui)
  {
    if inside then ui else Close(ui)
  }

  /** The select's own `change` handler. */
  function SelectChanged(s: Select): (r: Select)
    requires Bound(s)
    ensures Bound(r) && UiOf(r) == SetSelected(UiOf(s), s.options, s.value)
  {
    WithUi(s, SetSelected(UiOf(s), s.options, s.value))
  }

  // ---------------------------------------------------------------------
  // Attaching and detaching

  /** The widget state right after building: closed, nothing marked yet. */
  function Fresh(s: Select, focus: Focus): Ui
  {
    Ui(seq(|s.options|, _ => false), "", false, "false", focus)
  }

  /** `enhanceDropdown(select, config)`: `None` for a missing select or a
      missing container (`hasContainer` says whether `config.container` or
      the select's parent exists); the stored controller for a select already
      enhanced by this helper; else a new widget, synchronised to the
      select's value. */
  function Enhance(select: Option<Select>, hasContainer: bool, focus: Focus): (r: Option<Select>)
    ensures select.None? ==> r.None?
    ensures select.Some? && select.value.flagged && select.value.binding.Controller? ==> r == select
    ensures select.Some? && !(select.value.flagged && select.value.binding.Controller?) && !hasContainer ==> r.None?
    ensures r.Some? ==> r.value.binding.Controller? && r.value.flagged && r.value.options == select.value.options
    ensures r.Some? && r != select ==>
              Bound(r.value) && UiOf(r.value) == SetSelected(Fresh(select.value, focus), select.value.options, select.value.value)
  {
    if select.None? then None
    else
      var s := select.value;
      if s.flagged && s.binding.Controller? then select
      else if !hasContainer then None
      else
        var ui := SetSelected(Fresh(s, focus), s.options, s.value);
        Some(s.(flagged := true, binding := Controller(ui)))
  }

  /** `destroy`: the enhanced flag and the controller go, so the select is
      plain again. */
  function Destroy(s: Select): (r: Select)
    ensures !r.flagged && r.binding.Plain?
    ensures r.options == s.options && r.value == s.value && r.changes == s.changes
  {
    s.(flagged := false, binding := Plain)
  }

  /** Enhancing twice yields the same controller. */
  lemma EnhanceIdempotent(s: Select, hasContainer: bool, focus: Focus, focus2: Focus)
    requires Enhance(Some(s), hasContainer, focus).Some?
    ensures Enhance(Enhance(Some(s), hasContainer, focus), hasContainer, focus2) == Enhance(Some(s), hasContainer, focus)
  {
  }

  /** After `destroy`, enhancing builds a fresh controller rather than
      returning the old one. */
  lemma DestroyThenEnhanceRebuilds(s: Select, focus: Focus)
    requires s.flagged && s.binding.Controller? && |s.options| > 0
    ensures var r := Enhance(Some(Destroy(s)), true, focus);
            r.Some? && r.value.binding.Controller?
            && UiOf(r.value) == SetSelected(Fresh(s, focus), s.options, s.value)
            && !UiOf(r.value).openClass
  {
  }
}

=== FILE: filtering.dfy ===
/** The filtering page (flask_profiler/static/src/js/filtering.js): how the
    filter form, the date-range picker and the dashboard's click-to-filter
    event drive the page's server-side table, and the page's own inline
    copy of the enhanced method dropdown. The picker widget, the modal
    JSON viewer and element creation are not modelled; clock readings and
    `parseFloat` are parameters. */
module Filtering {
  import opened Results
  import opened Js
  import Text
  import Table
  import Dropdown

  /** The filter form as `applyFilters` reads it: the `filter-method`
      select and the `filter-name` and `filter-elapsed` text inputs, each
      `None` when the page has no such element. */
  datatype Form = Form(methodSelect: Option<Dropdown.Select>, name: Option<string>, elapsed: Option<string>)

  /** `document.getElementById('filter-method')?.value`. */
  function MethodText(form: Form): Option<string>
  {
    if form.methodSelect.Some? then Some(form.methodSelect.value.value) else None
  }

  /** The element exists and its value is a non-empty (truthy) string. */
  predicate Filled(text: Option<string>)
  {
    text.Some? && text.value != ""
  }

  /** The one-entry object part for a filled input, nothing otherwise. */
  function Include(key: string, text: Option<string>, v: Value): (f: seq<Entry>)
    ensures |f| <= 1
    ensures forall i :: 0 <= i < |f| ==> f[i] == Entry(key, v)
    ensures |f| == 1 <==> Filled(text)
  {
    if Filled(text) then [Entry(key, v)] else []
  }

  /** The object `applyFilters` hands to the table: `method`, `name` and
      `elapsed` (through `parseFloat`), each only when its input is filled. */
  function FormFilters(form: Form, parseFloat: string -> Value): (f: seq<Entry>)
    ensures DistinctKeys(f)
    ensures forall i :: 0 <= i < |f| ==> f[i].key != "skip"
    ensures Table.Mentions(f, "method") <==> Filled(MethodText(form))
    ensures Table.Mentions(f, "name") <==> Filled(form.name)
    ensures Table.Mentions(f, "elapsed") <==> Filled(form.elapsed)
    ensures forall i :: 0 <= i < |f| ==> f[i].key == "method" || f[i].key == "name" || f[i].key == "elapsed"
    ensures Filled(MethodText(form)) ==> Entry("method", Str(MethodText(form).value)) in f
    ensures Filled(form.name) ==> Entry("name", Str(form.name.value)) in f
    ensures Filled(form.elapsed) ==> Entry("elapsed", parseFloat(form.elapsed.value)) in f
  {
    var m := MethodText(form);
    var a := Include("method", m, if m.Some? then Str(m.value) else Undefined);
    var b := Include("name", form.name, if form.name.Some? then Str(form.name.value) else Undefined);
    var c := Include("elapsed", form.elapsed, if form.elapsed.Some? then parseFloat(form.elapsed.value) else Undefined);
    assert "method" != "name" && "name" != "elapsed" && "method" != "elapsed";
    assert "method" != "skip" && "name" != "skip" && "elapsed" != "skip";
    ThreeParts(a, b, c, Entry("method", if m.Some? then Str(m.value) else Undefined),
               Entry("name", if form.name.Some? then Str(form.name.value) else Undefined),
               Entry("elapsed", if form.elapsed.Some? then parseFloat(form.elapsed.value) else Undefined));
    a + b + c
  }

  /** Three parts of at most one entry each, under three different keys,
      make an object with distinct keys that mentions each key exactly when
      its part is non-empty. */
  lemma ThreeParts(a: seq<Entry>, b: seq<Entry>, c: seq<Entry>, ea: Entry, eb: Entry, ec: Entry)
    requires Parts(a, b, c, ea, eb, ec)
    ensures DistinctKeys(a + b + c)
    ensures forall i :: 0 <= i < |a + b + c| ==>
              (a + b + c)[i].key == ea.key || (a + b + c)[i].key == eb.key || (a + b + c)[i].key == ec.key
    ensures Table.Mentions(a + b + c, ea.key) <==> |a| == 1
    ensures Table.Mentions(a + b + c, eb.key) <==> |b| == 1
    ensures Table.Mentions(a + b + c, ec.key) <==> |c| == 1
    ensures |a| == 1 ==> ea in a + b + c
    ensures |b| == 1 ==> eb in a + b + c
    ensures |c| == 1 ==> ec in a + b + c
  {
    PartsKeys(a, b, c, ea, eb, ec);
    PartsDistinct(a, b, c, ea, eb, ec);
    PartsMentioned(a, b, c, ea, eb, ec);
  }

  /** Each part is empty or holds its one entry, and the three keys differ. */
  predicate Parts(a: seq<Entry>, b: seq<Entry>, c: seq<Entry>, ea: Entry, eb: Entry, ec: Entry)
  {
    && ea.key != eb.key && eb.key != ec.key && ea.key != ec.key
    && (a == [] || a == [ea]) && (b == [] || b == [eb]) && (c == [] || c == [ec])
  }

  lemma PartsKeys(a: seq<Entry>, b: seq<Entry>, c: seq<Entry>, ea: Entry, eb: Entry, ec: Entry)
    requires Parts(a, b, c, ea, eb, ec)
    ensures forall i :: 0 <= i < |a + b + c| ==>
              ((a + b + c)[i] == ea && |a| == 1) || ((a + b + c)[i] == eb && |b| == 1)
              || ((a + b + c)[i] == ec && |c| == 1)
  {
  }

  lemma PartsDistinct(a: seq<Entry>, b: seq<Entry>, c: seq<Entry>, ea: Entry, eb: Entry, ec: Entry)
    requires Parts(a, b, c, ea, eb, ec)
    ensures DistinctKeys(a + b + c)
  {
  }

  lemma PartsMentioned(a: seq<Entry>, b: seq<Entry>, c: seq<Entry>, ea: Entry, eb: Entry, ec: Entry)
    requires Parts(a, b, c, ea, eb, ec)
    ensures Table.Mentions(a + b + c, ea.key) <==> |a| == 1
    ensures Table.Mentions(a + b + c, eb.key) <==> |b| == 1
    ensures Table.Mentions(a + b + c, ec.key) <==> |c| == 1
    ensures |a| == 1 ==> ea in a + b + c
    ensures |b| == 1 ==> eb in a + b + c
    ensures |c| == 1 ==> ec in a + b + c
  {
    PartsKeys(a, b, c, ea, eb, ec);
    var f := a + b + c;
    assert |a| == 1 ==> f[0] == ea;
    assert |b| == 1 ==> f[|a|] == eb;
    assert |c| == 1 ==> f[|a| + |b|] == ec;
  }

  /** The table's value for key `f[i].key` after `filter(f)`, when `f` has
      no other entry for that key. */
  lemma FilterSets(t: Table.Table, f: seq<Entry>, e: Entry)
    requires DistinctKeys(f) && e in f && e.key != "skip"
    ensures Get(Table.Filter(t, f).table.params, e.key) == Table.NullForUndefined(e).value
  {
    var i :| 0 <= i < |f| && f[i] == e;
    assert Table.LastFor(f, i);
  }

  /** Where each entry of the form's filter object lands in the table. */
  lemma FormFiltersLand(t: Table.Table, form: Form, parseFloat: string -> Value)
    ensures var p := Table.Filter(t, FormFilters(form, parseFloat)).table.params;
            && (Filled(MethodText(form)) ==> Get(p, "method") == Str(MethodText(form).value))
            && (!Filled(MethodText(form)) ==> Get(p, "method") == Get(t.params, "method"))
            && (Filled(form.name) ==> Get(p, "name") == Str(form.name.value))
            && (!Filled(form.name) ==> Get(p, "name") == Get(t.params, "name"))
            && (Filled(form.elapsed) ==>
                  Get(p, "elapsed") == Table.NullForUndefined(Entry("elapsed", parseFloat(form.elapsed.value))).value)
            && (!Filled(form.elapsed) ==> Get(p, "elapsed") == Get(t.params, "elapsed"))
            && forall k :: k != "method" && k != "name" && k != "elapsed" && k != "skip" ==> Get(p, k) == Get(t.params, k)
  {
    var f := FormFilters(form, parseFloat);
    var m := MethodText(form);
    KeyLands(t, f, Entry("method", if m.Some? then Str(m.value) else Undefined), Filled(m));
    KeyLands(t, f, Entry("name", if form.name.Some? then Str(form.name.value) else Undefined), Filled(form.name));
    KeyLands(t, f, Entry("elapsed", if form.elapsed.Some? then parseFloat(form.elapsed.value) else Undefined),
             Filled(form.elapsed));
    forall k | k != "method" && k != "name" && k != "elapsed" && k != "skip"
      ensures Get(Table.Filter(t, f).table.params, k) == Get(t.params, k)
    {
      assert !Table.Mentions(f, k);
    }
  }

  /** One key of a filter object with distinct keys: set when present, kept
      when absent. */
  lemma KeyLands(t: Table.Table, f: seq<Entry>, e: Entry, present: bool)
    requires DistinctKeys(f) && e.key != "skip"
    requires present ==> e in f
    requires !present ==> !Table.Mentions(f, e.key)
    ensures Get(Table.Filter(t, f).table.params, e.key) ==
              if present then Table.NullForUndefined(e).value else Get(t.params, e.key)
  {
    if present {
      FilterSets(t, f, e);
    }
  }

  /** `applyFilters`: every filled input replaces the table's value for its
      key; an empty or missing input leaves the table's previous value for
      that key in place, because `filter` merges. */
  function ApplyFilters(t: Table.Table, form: Form, parseFloat: string -> Value): (s: Table.Step)
    ensures s.reload && s.table.currentPage == 0 && Get(s.table.params, "skip") == Num(0)
    ensures Get(s.table.params, "method") ==
              if Filled(MethodText(form)) then Str(MethodText(form).value) else Get(t.params, "method")
    ensures Get(s.table.params, "name") ==
              if Filled(form.name) then Str(form.name.value) else Get(t.params, "name")
    ensures Get(s.table.params, "elapsed") ==
              if Filled(form.elapsed) then Table.NullForUndefined(Entry("elapsed", parseFloat(form.elapsed.value))).value
              else Get(t.params, "elapsed")
    ensures forall k :: k != "method" && k != "name" && k != "elapsed" && k != "skip" ==>
              Get(s.table.params, k) == Get(t.params, k)
    ensures s.table.pageSize == t.pageSize && s.table.sortField == t.sortField && s.table.sortDir == t.sortDir
  {
    var f := FormFilters(form, parseFloat);
    var s := Table.Filter(t, f);
    FormFiltersLand(t, form, parseFloat);
    s
  }

  /** Clearing the name input and applying keeps filtering by the old name. */
  lemma ClearedNameKeepsOldFilter(t: Table.Table, form: Form, parseFloat: string -> Value)
    requires form.name == Some("")
    ensures Get(ApplyFilters(t, form, parseFloat).table.params, "name") == Get(t.params, "name")
  {
  }

  // ---------------------------------------------------------------------
  // Reset

  /** `Math.floor(ms / 1000)`: whole seconds of a millisecond clock reading. */
  function Seconds(ms: int): (s: int)
    ensures s * 1000 <= ms < s * 1000 + 1000
  {
    ms / 1000
  }

  /** `s` is the whole second containing the instant `ms`. */
  predicate WholeSecondOf(s: Value, ms: int)
  {
    s.Num? && s.n * 1000 <= ms < s.n * 1000 + 1000
  }

  /** `table.filter({startedAt, endedAt})` with both instants floored to
      whole seconds: the one date-window update the picker and the reset
      button share. */
  function DateWindow(t: Table.Table, fromMs: int, toMs: int): (s: Table.Step)
    ensures s.reload && s.table.currentPage == 0
    ensures WholeSecondOf(Get(s.table.params, "startedAt"), fromMs)
    ensures WholeSecondOf(Get(s.table.params, "endedAt"), toMs)
    ensures forall k :: k != "startedAt" && k != "endedAt" && k != "skip" ==>
              Get(s.table.params, k) == Get(t.params, k)
  {
    var f := [Entry("startedAt", Num(Seconds(fromMs))), Entry("endedAt", Num(Seconds(toMs)))];
    assert "startedAt" != "endedAt" && "startedAt" != "skip" && "endedAt" != "skip";
    assert forall k :: k != "startedAt" && k != "endedAt" ==> !Table.Mentions(f, k);
    FilterSets(t, f, f[0]);
    FilterSets(t, f, f[1]);
    Table.Filter(t, f)
  }

  /** The method select after the reset loop: value `''`; the inline widget,
      when there is one, re-synchronised to `''` and closed. A select
      enhanced by the standalone helper keeps its widget state, since that
      helper stores no `_enhancedDropdown`. */
  function ClearSelect(s: Dropdown.Select): (r: Dropdown.Select)
    ensures r.value == "" && r.options == s.options && r.flagged == s.flagged && r.changes == s.changes
    ensures r.binding.Inline? <==> s.binding.Inline?
    ensures !s.binding.Inline? ==> r.binding == s.binding
    ensures s.binding.Inline? ==>
              r.binding.ui == Dropdown.Close(Dropdown.SetSelected(s.binding.ui, s.options, ""))
  {
    var ui := if s.binding.Inline? then Dropdown.Close(Dropdown.SetSelected(s.binding.ui, s.options, ""))
              else Dropdown.Fresh(s, Dropdown.Elsewhere);
    var b := if s.binding.Inline? then Dropdown.Inline(ui) else s.binding;
    s.(value := "", binding := b)
  }

  /** `resetFilters`: every form input is emptied, then the table is given
      only a new date window, from `weekAgoMs` to `nowMs`. The table's
      method, name and elapsed values are left as they were. */
  function ResetFilters(t: Table.Table, form: Form, weekAgoMs: int, nowMs: int): (r: (Form, Table.Step))
    ensures MethodText(r.0) == (if form.methodSelect.Some? then Some("") else None)
    ensures r.0.name == (if form.name.Some? then Some("") else None)
    ensures r.0.elapsed == (if form.elapsed.Some? then Some("") else None)
    ensures r.1.reload && r.1.table.currentPage == 0
    ensures WholeSecondOf(Get(r.1.table.params, "startedAt"), weekAgoMs)
    ensures WholeSecondOf(Get(r.1.table.params, "endedAt"), nowMs)
    ensures forall k :: k != "startedAt" && k != "endedAt" && k != "skip" ==>
              Get(r.1.table.params, k) == Get(t.params, k)
  {
    var cleared := Form(if form.methodSelect.Some? then Some(ClearSelect(form.methodSelect.value)) else None,
                        if form.name.Some? then Some("") else None,
                        if form.elapsed.Some? then Some("") else None);
    (cleared, DateWindow(t, weekAgoMs, nowMs))
  }

  /** After a reset the form shows no method, yet the table still asks for
      the method it was filtered by, and applying the emptied form does not
      change that. */
  lemma ResetKeepsMethodFilter(t: Table.Table, form: Form, weekAgoMs: int, nowMs: int,
                               parseFloat: string -> Value, m: string)
    requires Get(t.params, "method") == Str(m)
    ensures var r := ResetFilters(t, form, weekAgoMs, nowMs);
            !Filled(MethodText(r.0))
            && Get(r.1.table.params, "method") == Str(m)
            && Get(ApplyFilters(r.1.table, r.0, parseFloat).table.params, "method") == Str(m)
  {
  }

  // ---------------------------------------------------------------------
  // Date range

  /** The picker's `onChange`: only a complete range of two dates filters
      the table, by whole seconds. */
  function DateRangeChange(t: Table.Table, datesMs: seq<int>): (r: Option<Table.Step>)
    ensures r.Some? <==> |datesMs| == 2
    ensures r.Some? ==>
              r.value.reload && r.value.table.currentPage == 0
              && WholeSecondOf(Get(r.value.table.params, "startedAt"), datesMs[0])
              && WholeSecondOf(Get(r.value.table.params, "endedAt"), datesMs[1])
    ensures r.Some? ==> forall k :: k != "startedAt" && k != "endedAt" && k != "skip" ==>
              Get(r.value.table.params, k) == Get(t.params, k)
  {
    if |datesMs| == 2 then Some(DateWindow(t, datesMs[0], datesMs[1])) else None
  }

  /** The picker and the reset button agree: a reset from a week ago to now
      filters the table exactly as picking that range does. */
  lemma ResetMatchesPicker(t: Table.Table, form: Form, weekAgoMs: int, nowMs: int)
    ensures DateRangeChange(t, [weekAgoMs, nowMs]) == Some(ResetFilters(t, form, weekAgoMs, nowMs).1)
  {
  }

  // ---------------------------------------------------------------------
  // Click-to-filter from the dashboard

  /** Assigning `v` to a text input's `value`: `null` clears it, anything
      else is converted to a string. */
  function InputText(v: Value): (s: string)
    ensures v == Null ==> s == ""
    ensures v.Str? ==> s == v.s
  {
    if v == Null then "" else ToString(v)
  }

  /** Assigning `text` to a select's `value`: it takes the value when some
      option has it, and becomes `''` otherwise. */
  function AssignSelect(s: Dropdown.Select, text: string): (r: Dropdown.Select)
    ensures r.value == text || (r.value == "" && forall j :: 0 <= j < |s.options| ==> s.options[j].value != text)
    ensures Dropdown.Find(s.options, text).Some? ==> r.value == text
    ensures r == s.(value := r.value)
  {
    if Dropdown.Find(s.options, text).Some? then s.(value := text) else s.(value := "")
  }

  /** A `change` event on the method select: the inline widget (if any)
      re-synchronises to the select's value. */
  function Changed(s: Dropdown.Select): (r: Dropdown.Select)
    ensures r.value == s.value && r.options == s.options && r.changes == s.changes + 1
    ensures Dropdown.Bound(s) ==> Dropdown.Bound(r) && Dropdown.UiOf(r) == Dropdown.SetSelected(Dropdown.UiOf(s), s.options, s.value)
  {
    var synced := if Dropdown.Bound(s) then Dropdown.SelectChanged(s) else s;
    synced.(changes := s.changes + 1)
  }

  /** The text `handleFilterEndpoint` puts into the method select: the
      upper-cased method, `''` for a missing (falsy) one, and a `TypeError`
      for a truthy value that is not a string. */
  function MethodFromEvent(httpMethod: Value): (r: Result<string>)
    ensures !Truthy(httpMethod) ==> r == Ok("")
    ensures httpMethod.Str? && httpMethod.s != "" ==> r.Ok? && r.value == Text.Upper(httpMethod.s)
    ensures r.Err? <==> Truthy(httpMethod) && !httpMethod.Str?
  {
    if !Truthy(httpMethod) then Ok("")
    else if httpMethod.Str? then Ok(Text.Upper(httpMethod.s))
    else Err("TypeError")
  }

  /** `handleFilterEndpoint({method, name})`: the name input takes the
      name; the method select takes the upper-cased method and a `change`
      event is dispatched, whose listener runs `applyFilters`; without a
      method select `applyFilters` runs directly. The result is the form
      afterwards and the table step, or the `TypeError` thrown for a truthy
      method that is not a string, by which time the name input has already
      been assigned. */
  function HandleFilterEndpoint(t: Table.Table, form: Form, httpMethod: Value, name: Value,
                                parseFloat: string -> Value): (r: (Form, Result<Table.Step>))
    ensures r.0.name == (if form.name.Some? then Some(InputText(name)) else None)
    ensures r.0.elapsed == form.elapsed
    ensures r.1.Err? <==> form.methodSelect.Some? && MethodFromEvent(httpMethod).Err?
    ensures r.1.Err? ==> r.1.error == "TypeError" && r.0.methodSelect == form.methodSelect
    ensures r.1.Ok? ==> r.1.value == ApplyFilters(t, r.0, parseFloat)
    ensures r.1.Ok? && form.methodSelect.Some? ==>
              r.0.methodSelect.Some?
              && r.0.methodSelect.value.changes == form.methodSelect.value.changes + 1
              && var text := MethodFromEvent(httpMethod).value;
                 (MethodText(r.0) == Some(text)
                  || (MethodText(r.0) == Some("") && Dropdown.Find(form.methodSelect.value.options, text).None?))
  {
    var named := form.(name := if form.name.Some? then Some(InputText(name)) else None);
    if form.methodSelect.Some? then
      match MethodFromEvent(httpMethod)
      case Err(e) => (named, Err(e))
      case Ok(text) =>
        var chosen := Changed(AssignSelect(form.methodSelect.value, text));
        var next := named.(methodSelect := Some(chosen));
        (next, Ok(ApplyFilters(t, next, parseFloat)))
    else
      (named, Ok(ApplyFilters(t, named, parseFloat)))
  }

  /** A click on a dashboard row for an endpoint whose method the select
      offers filters the table by that method and name. */
  lemma ClickToFilterSetsMethodAndName(t: Table.Table, form: Form, m: string, n: string,
                                       parseFloat: string -> Value)
    requires form.methodSelect.Some? && form.name.Some?
    requires m != "" && n != ""
    requires Dropdown.Find(form.methodSelect.value.options, Text.Upper(m)).Some?
    ensures var r := HandleFilterEndpoint(t, form, Str(m), Str(n), parseFloat);
            r.1.Ok? && Get(r.1.value.table.params, "method") == Str(Text.Upper(m))
            && Get(r.1.value.table.params, "name") == Str(n)
  {
    assert |Text.Upper(m)| == |m|;
  }

  /** When the select offers no option for the upper-cased method, the
      select falls back to `''` and the table keeps its previous method. */
  lemma UnknownMethodKeepsOldFilter(t: Table.Table, form: Form, m: string, name: Value,
                                    parseFloat: string -> Value)
    requires form.methodSelect.Some? && m != ""
    requires Dropdown.Find(form.methodSelect.value.options, Text.Upper(m)).None?
    ensures var r := HandleFilterEndpoint(t, form, Str(m), name, parseFloat);
            r.1.Ok? && Get(r.1.value.table.params, "method") == Get(t.params, "method")
  {
  }

  /** Choosing option `i` in the inline method dropdown: the select takes
      the option's value and its `change` event runs `applyFilters`. */
  function ChooseMethod(t: Table.Table, form: Form, i: nat, parseFloat: string -> Value): (r: (Form, Table.Step))
    requires form.methodSelect.Some? && Dropdown.Bound(form.methodSelect.value)
    requires i < |form.methodSelect.value.options|
    ensures MethodText(r.0) == Some(form.methodSelect.value.options[i].value)
    ensures r.0.name == form.name && r.0.elapsed == form.elapsed
    ensures var v := form.methodSelect.value.options[i].value;
            Get(r.1.table.params, "method") == if v != "" then Str(v) else Get(t.params, "method")
  {
    var chosen := Dropdown.Choose(form.methodSelect.value, i);
    var next := form.(methodSelect := Some(chosen));
    (next, ApplyFilters(t, next, parseFloat))
  }

  // ---------------------------------------------------------------------
  // The inline method dropdown

  /** `enhanceMethodDropdown`: nothing happens for a missing select, one
      whose enhanced flag is already set, or one without a parent element;
      otherwise the select is flagged and gets a closed widget synchronised
      to its current value. */
  function EnhanceMethodDropdown(select: Option<Dropdown.Select>, focus: Dropdown.Focus): (r: Option<Dropdown.Select>)
    ensures select.None? ==> r.None?
    ensures select.Some? && (select.value.flagged || !select.value.hasParent) ==> r == select
    ensures select.Some? && !select.value.flagged && select.value.hasParent ==>
              r.Some? && r.value.flagged && r.value.binding.Inline? && Dropdown.Bound(r.value)
              && r.value.options == select.value.options && r.value.value == select.value.value
              && !Dropdown.UiOf(r.value).openClass && Dropdown.UiOf(r.value).expanded == "false"
  {
    if select.None? then None
    else
      var s := select.value;
      if s.flagged || !s.hasParent then select
      else
        var ui := Dropdown.SetSelected(Dropdown.Fresh(s, focus), s.options, s.value);
        Some(s.(flagged := true, binding := Dropdown.Inline(ui)))
  }

  /** The inline widget starts in exactly the state the standalone helper
      builds for the same select: same marks, label, openness and focus. */
  lemma InlineMatchesStandalone(s: Dropdown.Select, focus: Dropdown.Focus)
    requires !s.flagged && s.hasParent
    ensures var inline := EnhanceMethodDropdown(Some(s), focus);
            var standalone := Dropdown.Enhance(Some(s), true, focus);
            inline.Some? && standalone.Some? && standalone != Some(s)
            && Dropdown.UiOf(inline.value) == Dropdown.UiOf(standalone.value)
  {
  }

  /** Running the inline enhancement twice changes nothing the second time. */
  lemma EnhanceMethodDropdownIdempotent(s: Dropdown.Select, focus: Dropdown.Focus, focus2: Dropdown.Focus)
    ensures EnhanceMethodDropdown(EnhanceMethodDropdown(Some(s), focus), focus2) == EnhanceMethodDropdown(Some(s), focus)
  {
  }

  /** The standalone helper does not recognise the inline widget (the flag
      is set but no controller is stored), so it would build a second one. */
  lemma StandaloneRewrapsInline(s: Dropdown.Select, focus: Dropdown.Focus)
    requires !s.flagged && s.hasParent
    ensures var inline := EnhanceMethodDropdown(Some(s), focus).value;
            var again := Dropdown.Enhance(Some(inline), true, focus);
            again.Some? && again.value.binding.Controller? && again != Some(inline)
  {
  }

  /** The table the page builds: 25 rows per page, newest first. */
  lemma PageTable()
    ensures var r := Table.New(Table.Options(Some(25), None, Str("endedAt,desc"), []));
            r.Ok? && r.value.pageSize == 25
            && r.value.sortField == Str("endedAt") && r.value.sortDir == Str("desc")
  {
    var base := Table.BaseParams(25, Str(Table.DefaultSort));
    assert Get(base, "sort") == Str(Table.DefaultSort) by {
      assert base[0].key != "sort" && base[1].key != "sort" && base[2].key == "sort";
      assert base[1..][1..] == base[2..];
    }
    assert PutAll(base, []) == base;
    Table.DefaultSortParses();
  }
}

=== FILE: js.dfy ===
/** The slice of JavaScript value semantics the browser code relies on:
    scalar values and their truthiness, `String(v)`, `v + 1`, plain objects
    as ordered property lists, the null/undefined filter applied before
    query parameters are appended to a URL, and `Array.prototype.slice`. */
module Js {
  import Text

  /** A scalar JavaScript value. Numbers are modelled as integers. */
  datatype Value = Undefined | Null | Bool(b: bool) | Num(n: int) | NaN | Str(s: string)

  predicate Truthy(v: Value)
  {
    match v
    case Undefined => false
    case Null => false
    case NaN => false
    case Bool(b) => b
    case Num(n) => n != 0
    case Str(s) => s != ""
  }

  /** `v === null || v === undefined` (also what `??` tests). */
  predicate Nullish(v: Value)
  {
    v == Undefined || v == Null
  }

  /** `String(v)`. */
  function ToString(v: Value): string
  {
    match v
    case Undefined => "undefined"
    case Null => "null"
    case NaN => "NaN"
    case Bool(b) => if b then "true" else "false"
    case Num(n) => Text.IntToString(n)
    case Str(s) => s
  }

  /** `v + 1`: numeric addition after coercion, or concatenation for a string. */
  function PlusOne(v: Value): (r: Value)
    ensures v.Num? ==> r == Num(v.n + 1)
    ensures v.Str? ==> r == Str(v.s + "1")
  {
    match v
    case Undefined => NaN
    case Null => Num(1)
    case NaN => NaN
    case Bool(b) => Num(if b then 2 else 1)
    case Num(n) => Num(n + 1)
    case Str(s) => Str(s + "1")
  }

  /** One own property of a plain object. */
  datatype Entry = Entry(key: string, value: Value)

  /** A plain object: its properties in insertion order. `Object.entries`
      reports integer-like keys first, in ascending order, and then the rest
      in insertion order; no key this model uses is integer-like, so for
      these objects both orders are the same. */
  type Object = seq<Entry>

  predicate HasKey(o: Object, k: string)
  {
    exists i :: 0 <= i < |o| && o[i].key == k
  }

  predicate DistinctKeys(o: Object)
  {
    forall i, j :: 0 <= i < j < |o| ==> o[i].key != o[j].key
  }

  /** `o[k]`, which is `undefined` for a missing property. */
  function Get(o: Object, k: string): (v: Value)
    ensures !HasKey(o, k) ==> v == Undefined
    ensures HasKey(o, k) ==> exists i :: 0 <= i < |o| && o[i] == Entry(k, v)
  {
    if |o| == 0 then Undefined
    else if o[0].key == k then o[0].value
    else Get(o[1..], k)
  }

  /** `o[k] = v`: an existing property keeps its position, a new one is appended. */
  function Put(o: Object, k: string, v: Value): (r: Object)
    ensures HasKey(o, k) ==> |r| == |o|
    ensures !HasKey(o, k) ==> r == o + [Entry(k, v)]
    ensures forall i :: 0 <= i < |o| && o[i].key != k ==> r[i] == o[i]
    ensures forall i :: 0 <= i < |o| ==> r[i].key == o[i].key
  {
    if |o| == 0 then [Entry(k, v)]
    else if o[0].key == k then [Entry(k, v)] + o[1..]
    else [o[0]] + Put(o[1..], k, v)
  }

  /** After `o[k] = v`, reading `k` gives `v` and every other property is as before. */
  lemma {:induction false} GetPut(o: Object, k: string, v: Value, k': string)
    ensures Get(Put(o, k, v), k') == if k' == k then v else Get(o, k')
    decreases |o|
  {
    if |o| > 0 && o[0].key != k {
      GetPut(o[1..], k, v, k');
    }
  }

  /** Which entries an assignment keeps, adds and replaces. */
  lemma PutEntries(o: Object, k: string, v: Value)
    ensures Entry(k, v) in Put(o, k, v)
    ensures forall e: Entry :: e.key != k ==> (e in Put(o, k, v) <==> e in o)
    ensures DistinctKeys(o) ==> forall e: Entry :: e in Put(o, k, v) && e.key == k ==> e.value == v
  {
    PutAdds(o, k, v);
    var r := Put(o, k, v);
    forall e: Entry | e.key != k
      ensures e in r <==> e in o
    {
      if e in r {
        var i :| 0 <= i < |r| && r[i] == e;
        assert i < |o|;
      }
      if e in o {
        var i :| 0 <= i < |o| && o[i] == e;
        assert r[i] == e;
      }
    }
    if DistinctKeys(o) {
      PutReplaces(o, k, v);
    }
  }

  lemma {:induction false} PutAdds(o: Object, k: string, v: Value)
    ensures Entry(k, v) in Put(o, k, v)
    decreases |o|
  {
    if |o| > 0 && o[0].key != k {
      PutAdds(o[1..], k, v);
    }
  }

  lemma {:induction false} PutReplaces(o: Object, k: string, v: Value)
    requires DistinctKeys(o)
    ensures forall e: Entry :: e in Put(o, k, v) && e.key == k ==> e.value == v
    decreases |o|
  {
    if |o| > 0 {
      var r := Put(o, k, v);
      if o[0].key == k {
        forall e: Entry | e in r && e.key == k
          ensures e.value == v
        {
          var i :| 0 <= i < |r| && r[i] == e;
          assert i == 0;
        }
      } else {
        PutReplaces(o[1..], k, v);
        assert r == [o[0]] + Put(o[1..], k, v);
      }
    }
  }

  /** Assignment never introduces a duplicate property. */
  lemma {:induction false} PutKeepsDistinct(o: Object, k: string, v: Value)
    requires DistinctKeys(o)
    ensures DistinctKeys(Put(o, k, v))
    ensures HasKey(Put(o, k, v), k)
  {
    var r := Put(o, k, v);
    if HasKey(o, k) {
      var i :| 0 <= i < |o| && o[i].key == k;
      assert r[i].key == k;
    } else {
      assert r[|o|].key == k;
    }
  }

  /** Assigning each entry of `entries` in turn, as `forEach` over `Object.entries` does. */
  function PutAll(o: Object, entries: seq<Entry>): Object
    decreases |entries|
  {
    if |entries| == 0 then o
    else PutAll(Put(o, entries[0].key, entries[0].value), entries[1..])
  }

  /** Keys that `PutAll` does not assign keep their values. */
  lemma {:induction false} PutAllOther(o: Object, entries: seq<Entry>, k: string)
    requires forall i :: 0 <= i < |entries| ==> entries[i].key != k
    ensures Get(PutAll(o, entries), k) == Get(o, k)
    decreases |entries|
  {
    if |entries| > 0 {
      GetPut(o, entries[0].key, entries[0].value, k);
      PutAllOther(Put(o, entries[0].key, entries[0].value), entries[1..], k);
    }
  }

  /** A key's final value is the one carried by its last entry. */
  lemma {:induction false} PutAllLast(o: Object, entries: seq<Entry>, i: int)
    requires 0 <= i < |entries|
    requires forall j :: i < j < |entries| ==> entries[j].key != entries[i].key
    ensures Get(PutAll(o, entries), entries[i].key) == entries[i].value
    decreases |entries|
  {
    var o' := Put(o, entries[0].key, entries[0].value);
    if i == 0 {
      GetPut(o, entries[0].key, entries[0].value, entries[0].key);
      PutAllOther(o', entries[1..], entries[0].key);
    } else {
      PutAllLast(o', entries[1..], i - 1);
    }
  }

  lemma {:induction false} PutAllKeepsDistinct(o: Object, entries: seq<Entry>)
    requires DistinctKeys(o)
    ensures DistinctKeys(PutAll(o, entries))
    decreases |entries|
  {
    if |entries| > 0 {
      PutKeepsDistinct(o, entries[0].key, entries[0].value);
      PutAllKeepsDistinct(Put(o, entries[0].key, entries[0].value), entries[1..]);
    }
  }

  /** The query parameters appended for an object: every property whose value
      is neither `null` nor `undefined`, in property order. */
  function SearchParams(o: Object): (q: seq<Entry>)
    ensures |q| <= |o|
    ensures forall e :: e in q <==> e in o && !Nullish(e.value)
    ensures |o| == 1 ==> q == (if Nullish(o[0].value) then [] else o)
  {
    if |o| == 0 then []
    else (if Nullish(o[0].value) then [] else [o[0]]) + SearchParams(o[1..])
  }

  /** The parameters of two property runs are those of the first followed
      by those of the second: the filter keeps property order. Together with
      the one-property case this pins the parameter list down entirely. */
  lemma {:induction false} SearchParamsConcat(a: Object, b: Object)
    ensures SearchParams(a + b) == SearchParams(a) + SearchParams(b)
    decreases |a|
  {
    if |a| == 0 {
      assert a + b == b;
    } else {
      assert (a + b)[1..] == a[1..] + b;
      SearchParamsConcat(a[1..], b);
    }
  }

  /** `a.slice(0, end)`: a negative `end` counts back from the end of the array. */
  function Slice<T>(a: seq<T>, end: int): (r: seq<T>)
    ensures 0 <= end ==> r == a[..if end < |a| then end else |a|]
    ensures end < 0 ==> r == a[..if |a| + end < 0 then 0 else |a| + end]
  {
    var stop := if end < 0 then (if |a| + end < 0 then 0 else |a| + end)
                else (if end < |a| then end else |a|);
    a[..stop]
  }

  /** JavaScript `%` on integers: the remainder takes the sign of the dividend. */
  function Rem(a: int, b: int): (r: int)
    requires b != 0
    ensures a >= 0 && b > 0 ==> r == a % b
    ensures a >= 0 && b < 0 ==> r == a % -b
    ensures a < 0 ==> r == -((-a) % (if b < 0 then -b else b))
    ensures b > 0 ==> -b < r < b
    ensures a >= 0 ==> r >= 0
    ensures a < 0 ==> r <= 0
  {
    if a >= 0 then a % (if b < 0 then -b else b)
    else -((-a) % (if b < 0 then -b else b))
  }
}

=== FILE: over_fetch.dfy ===
/** The two halves of pagination put together: the table asks for one
    row more than a page (flask_profiler/static/src/js/table.js) and the
    SQLite backend answers with the `LIMIT ... OFFSET ...` window of the
    matching rows (flask_profiler/storage/sqlite.py). The rows the server
    holds for the table's query are a parameter, already filtered and
    sorted. */
module OverFetch {
  import opened Js
  import TableView
  import Table
  import SqliteStorage

  /** What the backend returns for the table's current page: `limit` and
      `skip` as the table sends them. */
  function Served(t: Table.Table, all: seq<TableView.Row>): seq<TableView.Row>
  {
    SqliteStorage.Window(all, t.pageSize + 1, t.currentPage * t.pageSize)
  }

  /** The rows of page `page`, `size` rows per page. */
  function Page(all: seq<TableView.Row>, size: nat, page: nat): seq<TableView.Row>
  {
    SqliteStorage.Window(all, size, page * size)
  }

  /** The request of a table in sync carries exactly the window the
      backend serves: the current offset, and the page size plus one. */
  lemma RequestAsksForWindow(t: Table.Table)
    requires Table.SkipInSync(t) && Table.LimitInSync(t)
    ensures Entry("skip", Num(t.currentPage * t.pageSize)) in Table.Request(t)
    ensures Entry("limit", Num(t.pageSize + 1)) in Table.Request(t)
  {
    RequestAsksForOffset(t);
    RequestAsksForOneMore(t);
  }

  lemma RequestAsksForOffset(t: Table.Table)
    requires Table.SkipInSync(t)
    ensures Entry("skip", Num(t.currentPage * t.pageSize)) in Table.Request(t)
  {
    Table.LimitIsNotSortOrSkip();
    Table.RequestCarries(t, "skip");
  }

  lemma RequestAsksForOneMore(t: Table.Table)
    requires Table.LimitInSync(t)
    ensures Entry("limit", Num(t.pageSize + 1)) in Table.Request(t)
  {
    var v := Get(t.params, "limit");
    var q := Table.Request(t);
    assert Entry("limit", PlusOne(v)) in q;
    assert PlusOne(v) == Num(t.pageSize + 1);
  }

  /** Loading the served window shows exactly the current page of the
      matching rows, and announces a next page exactly when rows exist
      beyond it. */
  lemma {:induction false} LoadShowsPage(t: Table.Table, layout: TableView.Layout, status: int,
                                         all: seq<TableView.Row>)
    requires t.pageSize > 0 && t.currentPage >= 0
    ensures var t' := Table.Load(t, layout, Table.Http(status, Table.Envelope(Served(t, all))));
            && (t'.hasNextPage <==> |all| > (t.currentPage + 1) * t.pageSize)
            && (t'.hasNextPage <==> |Page(all, t.pageSize, t.currentPage + 1)| > 0)
            && t'.body == TableView.RenderBody(layout, Page(all, t.pageSize, t.currentPage))
            && t'.displayCount == Num(|Page(all, t.pageSize, t.currentPage)|)
  {
    var n := t.pageSize;
    var p := t.currentPage;
    var served := Served(t, all);
    var page := Page(all, n, p);
    assert p * n >= 0;
    assert (p + 1) * n == p * n + n;
    var shown := served[..Table.Min(|served|, n)];
    assert |shown| == |page|;
    assert shown == page;
  }

  /** Two consecutive pages are the rows of one window twice as long: paging
      neither skips nor repeats a row. */
  lemma PagesTile(all: seq<TableView.Row>, size: nat, page: nat)
    ensures Page(all, size, page) + Page(all, size, page + 1) == SqliteStorage.Window(all, 2 * size, page * size)
  {
    assert (page + 1) * size == page * size + size;
    SqliteStorage.WindowsTile(all, size, page * size);
  }

  /** On the last page the table offers no next page and shows what is
      left; on any earlier page it shows a full page. */
  lemma {:induction false} LastPage(t: Table.Table, layout: TableView.Layout, status: int, all: seq<TableView.Row>)
    requires t.pageSize > 0 && t.currentPage >= 0
    requires t.currentPage * t.pageSize < |all| <= (t.currentPage + 1) * t.pageSize
    ensures var t' := Table.Load(t, layout, Table.Http(status, Table.Envelope(Served(t, all))));
            !t'.hasNextPage && t'.displayCount == Num(|all| - t.currentPage * t.pageSize)
  {
    LoadShowsPage(t, layout, status, all);
    PageLength(all, t.pageSize, t.currentPage);
  }

  /** A page is full, or holds whatever is left after the pages before it. */
  lemma PageLength(all: seq<TableView.Row>, size: nat, page: nat)
    requires page * size < |all| <= (page + 1) * size
    ensures |Page(all, size, page)| == |all| - page * size
  {
    NextOffset(page, size);
  }

  lemma NextOffset(page: int, size: int)
    ensures (page + 1) * size == page * size + size
  {
  }
}

=== FILE: profiler.dfy ===
/** The profiler's decision logic (flask_profiler/flask_profiler.py):
    configuration lookup, the basic-auth password check, ignore patterns,
    sampling, recording one measurement per profiled call, idempotent
    wrapping of view functions, and resolving which profiler state applies.
    Functions are modelled as a tree of wrappers around views whose outcome
    is given; the regular-expression search and the user's sampling function
    are parameters. */
module Profiler {
  import opened Results
  import Text
  import SqliteStorage

  const InternalPrefix := "flask-profiler."

  /** The user's `sampling_function` setting: absent, present but not
      callable, or a callable whose result has the given truthiness. */
  datatype Sampler = NoSampler | NotCallable | Sampler(sample: bool)

  /** The `basicAuth` setting; `enabled` is the truthiness of its "enabled"
      entry, and missing entries are `None`. */
  datatype BasicAuth = BasicAuth(enabled: bool, username: Option<string>, password: Option<string>)

  /** The profiler configuration dictionary. `enabled` is the truthiness of
      its "enabled" entry (absent means false); `ignore` is `None` when the
      key is absent. */
  datatype Conf = Conf(enabled: bool, ignore: Option<seq<string>>, basicAuth: Option<BasicAuth>,
                       sampling: Sampler)

  /** `_load_config`: the "flask_profiler" entry of the app config if there
      is one, else the "FLASK_PROFILER" entry, else an exception. */
  function LoadConfig(appConfig: map<string, Conf>): (r: Result<Conf>)
    ensures "flask_profiler" in appConfig ==> r == Ok(appConfig["flask_profiler"])
    ensures "flask_profiler" !in appConfig && "FLASK_PROFILER" in appConfig ==> r == Ok(appConfig["FLASK_PROFILER"])
    ensures r.Err? <==> "flask_profiler" !in appConfig && "FLASK_PROFILER" !in appConfig
  {
    if "flask_profiler" in appConfig then Ok(appConfig["flask_profiler"])
    else if "FLASK_PROFILER" in appConfig then Ok(appConfig["FLASK_PROFILER"])
    else Err("Exception")
  }

  /** `_verify_password`: everyone passes unless basic auth is enabled; then
      both the user name and the password must equal the configured ones. */
  function VerifyPassword(conf: Conf, username: string, password: string): (ok: bool)
    ensures conf.basicAuth.None? || !conf.basicAuth.value.enabled ==> ok
    ensures conf.basicAuth.Some? && conf.basicAuth.value.enabled ==>
              (ok <==> conf.basicAuth.value.username == Some(username)
                       && conf.basicAuth.value.password == Some(password))
  {
    match conf.basicAuth
    case None => true
    case Some(basic) =>
      !basic.enabled || (Some(username) == basic.username && Some(password) == basic.password)
  }

  /** With basic auth enabled and a user name configured, a wrong password is refused. */
  lemma WrongPasswordRefused(conf: Conf, username: string, password: string, guess: string)
    requires conf.basicAuth == Some(BasicAuth(true, Some(username), Some(password)))
    ensures VerifyPassword(conf, username, guess) <==> guess == password
  {
  }

  /** With basic auth enabled but no user name configured, nobody gets in. */
  lemma MissingUserRefusesAll(conf: Conf, username: string, password: string)
    requires conf.basicAuth.Some? && conf.basicAuth.value.enabled && conf.basicAuth.value.username.None?
    ensures !VerifyPassword(conf, username, password)
  {
  }

  // ---------------------------------------------------------------------
  // Ignore patterns

  /** The configured ignore patterns (an absent list is empty). */
  function Patterns(conf: Conf): seq<string>
  {
    if conf.ignore.Some? then conf.ignore.value else []
  }

  /** `is_ignored`: some configured pattern is found in the name, where
      `search(pattern, name)` stands for `re.search`. */
  predicate Ignored(name: string, conf: Conf, search: (string, string) -> bool)
  {
    exists i :: 0 <= i < |Patterns(conf)| && search(Patterns(conf)[i], name)
  }

  /** `is_ignored` as written: scan the patterns, stop at the first hit. */
  method IsIgnored(name: string, conf: Conf, search: (string, string) -> bool) returns (ignored: bool)
    ensures ignored <==> Ignored(name, conf, search)
  {
    var patterns := Patterns(conf);
    var i := 0;
    while i < |patterns|
      invariant 0 <= i <= |patterns|
      invariant forall j :: 0 <= j < i ==> !search(patterns[j], name)
    {
      if search(patterns[i], name) {
        return true;
      }
      i := i + 1;
    }
    return false;
  }

  /** No patterns, nothing ignored. */
  lemma NoPatternsIgnoreNothing(name: string, conf: Conf, search: (string, string) -> bool)
    requires conf.ignore.None? || conf.ignore == Some([])
    ensures !Ignored(name, conf, search)
  {
  }

  // ---------------------------------------------------------------------
  // Functions and wrappers

  /** What calling a function does: return a value or raise an exception (by name). */
  datatype Outcome = Returns(value: int) | Raises(exception: string)

  /** One stored measurement; times and the JSON payload are not modelled. */
  datatype Record = Record(name: string, httpMethod: string, context: string)

  /** The observable effect of a call: its outcome and the measurements it
      inserted, oldest first. */
  datatype Effect = Effect(outcome: Outcome, inserted: seq<Record>)

  /** What a wrapper knows of the profiler state that created it. */
  datatype Owner = Owner(conf: Conf, enabled: bool)

  /** A Python function object: a view with a name, the given outcome and
      whether its `_flask_profiler_wrapped` attribute is set, or one of the
      three wrappers the profiler creates around a function. */
  datatype Func =
    | View(funcName: string, flagged: bool, outcome: Outcome)
    | HttpWrapper(inner: Func, owner: Owner)
    | ProfileWrapper(inner: Func)
    | MeasureWrapper(inner: Func, owner: Owner, name: string, httpMethod: string, context: string)

  /** `__name__`: `functools.wraps` copies it from the wrapped function. */
  function FuncName(f: Func): string
  {
    match f
    case View(n, _, _) => n
    case HttpWrapper(inner, _) => FuncName(inner)
    case ProfileWrapper(inner) => FuncName(inner)
    case MeasureWrapper(inner, _, _, _, _) => FuncName(inner)
  }

  /** `getattr(func, "_flask_profiler_wrapped", False)`. The HTTP and
      `profile()` wrappers set it; `functools.wraps` copies the wrapped
      function's attributes, so a `measure` wrapper inherits it. */
  predicate Flagged(f: Func)
  {
    match f
    case View(_, flagged, _) => flagged
    case HttpWrapper(_, _) => true
    case ProfileWrapper(_) => true
    case MeasureWrapper(inner, _, _, _, _) => Flagged(inner)
  }

  /** `wrap_http_endpoint`: a flagged function comes back unchanged, any
      other is wrapped in a flagged wrapper of the same name. */
  function WrapHttpEndpoint(owner: Owner, f: Func): (r: Func)
    ensures Flagged(r)
    ensures FuncName(r) == FuncName(f)
    ensures Flagged(f) <==> r == f
  {
    if Flagged(f) then f else HttpWrapper(f, owner)
  }

  /** `profile()(func)`: the same rule with a wrapper that looks the state
      up when called. */
  function Profile(f: Func): (r: Func)
    ensures Flagged(r)
    ensures FuncName(r) == FuncName(f)
    ensures Flagged(f) <==> r == f
  {
    if Flagged(f) then f else ProfileWrapper(f)
  }

  /** Wrapping is idempotent, whichever of the two wrappers is applied second. */
  lemma WrappingIsIdempotent(owner: Owner, other: Owner, f: Func)
    ensures WrapHttpEndpoint(other, WrapHttpEndpoint(owner, f)) == WrapHttpEndpoint(owner, f)
    ensures Profile(Profile(f)) == Profile(f)
    ensures Profile(WrapHttpEndpoint(owner, f)) == WrapHttpEndpoint(owner, f)
    ensures WrapHttpEndpoint(owner, Profile(f)) == Profile(f)
  {
  }

  /** `measure`: the function itself when the profiler is disabled, else a
      wrapper that records every call under the given name and method. */
  function Measure(owner: Owner, f: Func, name: string, httpMethod: string, context: string): (r: Func)
    ensures !owner.enabled <==> r == f
    ensures r != f ==> r.MeasureWrapper? && r.inner == f && r.name == name
    ensures FuncName(r) == FuncName(f) && (Flagged(r) <==> Flagged(f))
  {
    if !owner.enabled then f else MeasureWrapper(f, owner, name, httpMethod, context)
  }

  // ---------------------------------------------------------------------
  // Profiler state

  /** `_ProfilerState`: its configuration, whether it is enabled, the
      storage collection (`None` until created) and the app's view
      functions by endpoint name. */
  datatype State = State(conf: Conf, enabled: bool, collection: Option<SqliteStorage.Storage>,
                         views: map<string, Func>)

  function OwnerOf(s: State): Owner
  {
    Owner(s.conf, s.enabled)
  }

  /** `_wrap_app_endpoints`: every endpoint outside the profiler's own
      blueprint gets the HTTP wrapper. */
  function WrapAppEndpoints(owner: Owner, views: map<string, Func>): (r: map<string, Func>)
    ensures r.Keys == views.Keys
    ensures forall e :: e in views && Text.StartsWith(e, InternalPrefix) ==> r[e] == views[e]
    ensures forall e :: e in views && !Text.StartsWith(e, InternalPrefix) ==>
              r[e] == WrapHttpEndpoint(owner, views[e])
    ensures forall e :: e in views && !Text.StartsWith(e, InternalPrefix) ==> Flagged(r[e])
  {
    map e | e in views :: if Text.StartsWith(e, InternalPrefix) then views[e] else WrapHttpEndpoint(owner, views[e])
  }

  /** Wrapping the endpoints a second time (initialising again) changes nothing. */
  lemma WrapAppEndpointsIdempotent(owner: Owner, other: Owner, views: map<string, Func>)
    ensures WrapAppEndpoints(other, WrapAppEndpoints(owner, views)) == WrapAppEndpoints(owner, views)
  {
    var once := WrapAppEndpoints(owner, views);
    var twice := WrapAppEndpoints(other, once);
    forall e | e in once
      ensures twice[e] == once[e]
    {
      if !Text.StartsWith(e, InternalPrefix) {
        WrappingIsIdempotent(owner, other, views[e]);
      }
    }
  }

  /** `_ProfilerState(app)`. `storage` is what `storage.getCollection` does
      with the configured storage settings: the opened backend, or the
      exception it raises (for SQLite, `SqliteStorage.Open`). Loading the
      configuration fails first; a disabled profiler never opens storage
      and keeps its views untouched; an enabled one fails when the storage
      fails, and otherwise holds the collection and wraps every
      non-internal endpoint. */
  function NewState(appConfig: map<string, Conf>, views: map<string, Func>,
                    storage: Result<SqliteStorage.Storage>): (r: Result<State>)
    ensures LoadConfig(appConfig).Err? ==> r == Err(LoadConfig(appConfig).error)
    ensures r.Err? <==> LoadConfig(appConfig).Err? || (LoadConfig(appConfig).value.enabled && storage.Err?)
    ensures r.Err? && LoadConfig(appConfig).Ok? ==> r.error == storage.error
    ensures r.Ok? ==> r.value.conf == LoadConfig(appConfig).value && r.value.enabled == r.value.conf.enabled
    ensures r.Ok? && !r.value.enabled ==> r.value.collection.None? && r.value.views == views
    ensures r.Ok? && r.value.enabled ==> r.value.collection == Some(storage.value)
                                         && r.value.views == WrapAppEndpoints(OwnerOf(r.value), views)
  {
    match LoadConfig(appConfig)
    case Err(e) => Err(e)
    case Ok(conf) =>
      if !conf.enabled then Ok(State(conf, false, None, views))
      else match storage
        case Err(e) => Err(e)
        case Ok(collection) => Ok(State(conf, true, Some(collection), WrapAppEndpoints(Owner(conf, true), views)))
  }

  /** Which configuration entry is read does not depend on any other entry
      of the app config, and the lower-case entry wins over the upper-case
      one. */
  lemma LoadConfigReadsOnlyItsKeys(appConfig: map<string, Conf>, k: string, c: Conf, upper: Conf)
    requires k != "flask_profiler" && k != "FLASK_PROFILER"
    ensures LoadConfig(appConfig[k := c]) == LoadConfig(appConfig)
    ensures "flask_profiler" in appConfig ==> LoadConfig(appConfig["FLASK_PROFILER" := upper]) == LoadConfig(appConfig)
    ensures "flask_profiler" !in appConfig ==> LoadConfig(appConfig["FLASK_PROFILER" := upper]) == Ok(upper)
  {
  }

  /** With the corrected table-name check (see `SqliteStorage.Open`), an
      enabled profiler whose SQLite table name is not an identifier cannot be
      initialised: the `ValueError` from the backend escapes. A disabled one
      initialises whatever the storage settings say. */
  lemma BadTableNameStopsInit(appConfig: map<string, Conf>, views: map<string, Func>,
                              config: SqliteStorage.StorageConfig)
    requires LoadConfig(appConfig).Ok?
    ensures var table := SqliteStorage.OrElse(config.table, SqliteStorage.DefaultTable);
            LoadConfig(appConfig).value.enabled && !SqliteStorage.IsIdentifier(table) ==>
              NewState(appConfig, views, SqliteStorage.Open(config)) == Err("ValueError")
    ensures !LoadConfig(appConfig).value.enabled ==> NewState(appConfig, views, SqliteStorage.Open(config)).Ok?
  {
  }

  /** With the table-name check as written, an enabled profiler whose table
      name is `measurements` followed by a newline does initialise, where the
      corrected check stops it. */
  lemma AsWrittenNewlineTableInitialises(appConfig: map<string, Conf>, views: map<string, Func>,
                                         file: Option<string>)
    requires LoadConfig(appConfig).Ok?
    ensures NewState(appConfig, views,
                     SqliteStorage.OpenAsWritten(SqliteStorage.StorageConfig(file, Some("measurements\n")))).Ok?
    ensures var corrected := SqliteStorage.Open(SqliteStorage.StorageConfig(file, Some("measurements\n")));
            NewState(appConfig, views, corrected).Ok? <==> !LoadConfig(appConfig).value.enabled
  {
    SqliteStorage.AsWrittenAcceptsTrailingNewline();
  }

  /** Where states are looked up: the state registered on the current app
      (`None` outside an app context or before `init_app`) and the state
      most recently initialised in the process. */
  datatype Env = Env(current: Option<State>, last: Option<State>)

  /** `init_app`: the new state becomes both the app's and the last one. */
  function InitApp(env: Env, appConfig: map<string, Conf>, views: map<string, Func>,
                   storage: Result<SqliteStorage.Storage>): (r: Result<(Env, State)>)
    ensures r.Ok? <==> NewState(appConfig, views, storage).Ok?
    ensures r.Ok? ==> r.value.1 == NewState(appConfig, views, storage).value
                      && r.value.0 == Env(Some(r.value.1), Some(r.value.1))
  {
    match NewState(appConfig, views, storage)
    case Err(e) => Err(e)
    case Ok(s) => Ok((Env(Some(s), Some(s)), s))
  }

  /** `_resolve_state(silent)`: the current app's state, else the last
      initialised one, else `None` when silent and a `RuntimeError` otherwise. */
  function ResolveState(env: Env, silent: bool): (r: Result<Option<State>>)
    ensures env.current.Some? ==> r == Ok(env.current)
    ensures env.current.None? ==> (r == Ok(env.last) <==> env.last.Some? || silent)
    ensures r.Err? <==> env.current.None? && env.last.None? && !silent
    ensures r.Ok? && r.value.None? ==> silent
  {
    if env.current.Some? then Ok(env.current)
    else if env.last.Some? then Ok(env.last)
    else if silent then Ok(None)
    else Err("RuntimeError")
  }

  /** The module-level `measure` and `wrapHttpEndpoint`: resolve the state
      (raising when there is none) and delegate to it. */
  function MeasureIn(env: Env, f: Func, name: string, httpMethod: string, context: string): (r: Result<Func>)
    ensures r.Err? <==> env.current.None? && env.last.None?
    ensures r.Ok? ==> r.value == Measure(OwnerOf(ResolveState(env, false).value.value), f, name, httpMethod, context)
  {
    match ResolveState(env, false)
    case Err(e) => Err(e)
    case Ok(s) => if s.Some? then Ok(Measure(OwnerOf(s.value), f, name, httpMethod, context)) else Err("RuntimeError")
  }

  function WrapHttpEndpointIn(env: Env, f: Func): (r: Result<Func>)
    ensures r.Err? <==> env.current.None? && env.last.None?
    ensures r.Ok? ==> r.value == WrapHttpEndpoint(OwnerOf(ResolveState(env, false).value.value), f)
  {
    match ResolveState(env, false)
    case Err(e) => Err(e)
    case Ok(s) => if s.Some? then Ok(WrapHttpEndpoint(OwnerOf(s.value), f)) else Err("RuntimeError")
  }

  // ---------------------------------------------------------------------
  // Recording calls

  /** `_should_sample`: sample when no sampling function is configured, raise
      when it is not callable, else follow its result. */
  function ShouldSample(conf: Conf): (r: Result<bool>)
    ensures conf.sampling.NoSampler? ==> r == Ok(true)
    ensures r.Err? <==> conf.sampling.NotCallable?
    ensures conf.sampling.Sampler? ==> r == Ok(conf.sampling.sample)
  {
    match conf.sampling
    case NoSampler => Ok(true)
    case NotCallable => Err("Exception")
    case Sampler(b) => Ok(b)
  }

  /** `_record_call`: `run` is what calling the function does. An ignored
      name or an unsampled call just runs the function; a non-callable
      sampling function raises before the function runs; otherwise the
      function runs and, however it ends, one measurement is inserted after
      whatever it inserted itself. */
  function RecordCall(conf: Conf, search: (string, string) -> bool, rec: Record, run: Effect): (r: Effect)
    ensures Ignored(rec.name, conf, search) ==> r == run
    ensures !Ignored(rec.name, conf, search) && ShouldSample(conf).Err? ==> r == Effect(Raises("Exception"), [])
    ensures !Ignored(rec.name, conf, search) && ShouldSample(conf) == Ok(false) ==> r == run
    ensures !Ignored(rec.name, conf, search) && ShouldSample(conf) == Ok(true) ==>
              r.outcome == run.outcome && r.inserted == run.inserted + [rec]
  {
    if Ignored(rec.name, conf, search) then run
    else match ShouldSample(conf)
      case Err(e) => Effect(Raises(e), [])
      case Ok(false) => run
      case Ok(true) => Effect(run.outcome, run.inserted + [rec])
  }

  /** A call records exactly one measurement or none, and only a broken
      sampling setting changes its outcome. */
  lemma RecordCallAddsAtMostOne(conf: Conf, search: (string, string) -> bool, rec: Record, run: Effect)
    requires !conf.sampling.NotCallable?
    ensures var r := RecordCall(conf, search, rec, run);
            r.outcome == run.outcome
            && r.inserted[..|run.inserted|] == run.inserted
            && (|r.inserted| == |run.inserted| + 1 <==> !Ignored(rec.name, conf, search) && ShouldSample(conf) == Ok(true))
            && (|r.inserted| == |run.inserted| <==> Ignored(rec.name, conf, search) || ShouldSample(conf) == Ok(false))
  {
  }

  /** The request being served: its URL rule (if matched), HTTP method,
      context, and whether its body is valid UTF-8 (the context decodes it
      strictly). */
  datatype Request = Request(rule: Option<string>, httpMethod: string, context: string, bodyDecodes: bool)

  const DecodeError := "UnicodeDecodeError"

  /** The size of a function's wrapper tree, for termination. */
  function Depth(f: Func): nat
  {
    match f
    case View(_, _, _) => 0
    case HttpWrapper(inner, _) => 1 + Depth(inner)
    case ProfileWrapper(inner) => 1 + Depth(inner)
    case MeasureWrapper(inner, _, _, _, _) => 1 + Depth(inner)
  }

  /** The measurement `_invoke_http` prepares for an enabled state: named
      after the URL rule, or the function's name outside a matched rule.
      Building its context decodes the body, which raises for a body that is
      not UTF-8 (see `InvokeHttp`). */
  function HttpRecord(req: Request, f: Func): (rec: Record)
    ensures rec.name == (if req.rule.Some? then req.rule.value else FuncName(f))
    ensures rec.httpMethod == req.httpMethod && rec.context == req.context
  {
    Record(if req.rule.Some? then req.rule.value else FuncName(f), req.httpMethod, req.context)
  }

  /** `_invoke_http` for an enabled state, given what calling the function
      does: the context is built first, so a body that is not UTF-8 raises
      before ignore patterns or sampling are looked at and before the
      function runs; otherwise the call is recorded as `RecordCall` says. */
  function InvokeHttp(conf: Conf, search: (string, string) -> bool, req: Request, f: Func, run: Effect): (r: Effect)
    ensures !req.bodyDecodes ==> r == Effect(Raises(DecodeError), [])
    ensures req.bodyDecodes ==> r == RecordCall(conf, search, HttpRecord(req, f), run)
  {
    if !req.bodyDecodes then Effect(Raises(DecodeError), [])
    else RecordCall(conf, search, HttpRecord(req, f), run)
  }

  /** Calling a function while serving `req`: a view has its outcome; the
      HTTP wrapper is transparent when its profiler is disabled and goes
      through `_invoke_http` otherwise; the `profile()` wrapper resolves the
      state silently at call time and is transparent without an enabled one;
      a `measure` wrapper always records, and never reads the request. */
  function Invoke(f: Func, env: Env, req: Request, search: (string, string) -> bool): (r: Effect)
    ensures f.View? ==> r == Effect(f.outcome, [])
    ensures f.HttpWrapper? && !f.owner.enabled ==> r == Invoke(f.inner, env, req, search)
    ensures f.HttpWrapper? && f.owner.enabled ==>
              r == InvokeHttp(f.owner.conf, search, req, f.inner, Invoke(f.inner, env, req, search))
    ensures f.MeasureWrapper? ==>
              r == RecordCall(f.owner.conf, search, Record(f.name, f.httpMethod, f.context), Invoke(f.inner, env, req, search))
    decreases Depth(f)
  {
    match f
    case View(_, _, o) => Effect(o, [])
    case HttpWrapper(inner, owner) =>
      if !owner.enabled then Invoke(inner, env, req, search)
      else InvokeHttp(owner.conf, search, req, inner, Invoke(inner, env, req, search))
    case ProfileWrapper(inner) =>
      var s := ResolveState(env, true).value;
      if s.None? || !s.value.enabled then Invoke(inner, env, req, search)
      else InvokeHttp(s.value.conf, search, req, inner, Invoke(inner, env, req, search))
    case MeasureWrapper(inner, owner, name, m, context) =>
      RecordCall(owner.conf, search, Record(name, m, context), Invoke(inner, env, req, search))
  }

  /** Ignore patterns do not shield an endpoint from the body decode: an
      enabled HTTP wrapper called with a body that is not UTF-8 raises and
      the view never runs, whatever the ignore patterns and sampling say. */
  lemma UndecodableBodyRaisesEvenIfIgnored(owner: Owner, v: Func, env: Env, req: Request,
                                           search: (string, string) -> bool)
    requires v.View? && !v.flagged && owner.enabled && !req.bodyDecodes
    ensures Invoke(WrapHttpEndpoint(owner, v), env, req, search) == Effect(Raises(DecodeError), [])
  {
  }

  /** A wrapper made by a disabled profiler behaves exactly like the function it wraps. */
  lemma DisabledWrapperIsTransparent(owner: Owner, f: Func, env: Env, req: Request, search: (string, string) -> bool)
    requires !owner.enabled
    ensures Invoke(WrapHttpEndpoint(owner, f), env, req, search).outcome == Invoke(f, env, req, search).outcome
    ensures Invoke(Measure(owner, f, "", "", ""), env, req, search) == Invoke(f, env, req, search)
  {
  }

  /** Without any profiler state, `profile()` changes nothing about a call. */
  lemma ProfileWithoutStateIsTransparent(f: Func, req: Request, search: (string, string) -> bool)
    ensures Invoke(Profile(f), Env(None, None), req, search) == Invoke(f, Env(None, None), req, search)
  {
  }

  /** An endpoint of an enabled app, wrapped at initialisation and called
      for a matched rule that is not ignored and is sampled, inserts exactly
      one measurement named after the rule and returns or raises just as
      the view does, provided the body decodes; a body that is not UTF-8
      raises instead, with nothing recorded. Initialising twice does not
      make it record twice. */
  lemma ServedEndpointRecordsOnce(appConfig: map<string, Conf>, views: map<string, Func>,
                                  storage: Result<SqliteStorage.Storage>,
                                  endpoint: string, env: Env, req: Request, search: (string, string) -> bool)
    requires NewState(appConfig, views, storage).Ok?
    requires var s := NewState(appConfig, views, storage).value;
             s.enabled && endpoint in views && views[endpoint].View? && !views[endpoint].flagged
             && !Text.StartsWith(endpoint, InternalPrefix)
    requires req.rule.Some? && !Ignored(req.rule.value, LoadConfig(appConfig).value, search)
    requires ShouldSample(LoadConfig(appConfig).value) == Ok(true)
    ensures var s := NewState(appConfig, views, storage).value;
            var again := WrapAppEndpoints(OwnerOf(s), s.views);
            Invoke(again[endpoint], env, req, search)
              == if req.bodyDecodes
                 then Effect(views[endpoint].outcome, [Record(req.rule.value, req.httpMethod, req.context)])
                 else Effect(Raises(DecodeError), [])
  {
    var s := NewState(appConfig, views, storage).value;
    WrapAppEndpointsIdempotent(OwnerOf(s), OwnerOf(s), views);
    assert s.views[endpoint] == HttpWrapper(views[endpoint], OwnerOf(s));
  }

  /** Measuring an already-served endpoint records the call twice: once for
      the HTTP wrapper inside, then once for the `measure` wrapper. With a
      body that is not UTF-8 only the `measure` wrapper records, and the
      call raises. */
  lemma MeasureOverHttpRecordsTwice(owner: Owner, v: Func, env: Env, req: Request,
                                    search: (string, string) -> bool, name: string)
    requires v.View? && !v.flagged && owner.enabled && owner.conf.sampling.NoSampler?
    requires owner.conf.ignore.None? && req.rule.Some?
    ensures var r := Invoke(Measure(owner, WrapHttpEndpoint(owner, v), name, "GET", ""), env, req, search);
            |r.inserted| == (if req.bodyDecodes then 2 else 1)
            && r.outcome == (if req.bodyDecodes then v.outcome else Raises(DecodeError))
  {
    NoPatternsIgnoreNothing(req.rule.value, owner.conf, search);
    NoPatternsIgnoreNothing(name, owner.conf, search);
  }
}

=== FILE: results.dfy ===
/** Failure-carrying wrappers shared by every module of the model.
    `Option` stands for JavaScript `null`/absent values and Python `None`;
    `Result` stands for a call that either returns or raises. */
module Results {

  datatype Option<+T> = None | Some(value: T)

  /** `Err` carries the name of the exception the source raises or throws
      (for example "TypeError" or "ValueError"). */
  datatype Result<+T> = Ok(value: T) | Err(error: string)
}

=== FILE: sqlite_storage.dfy ===
/** The SQLite storage backend's query construction
    (flask_profiler/storage/sqlite.py): table-name validation, request
    filters with their defaults, sort sanitisation against an allow-list,
    and the WHERE / ORDER BY / LIMIT text with its parameter list. The
    database itself is replaced by an in-memory window over a row sequence. */
module SqliteStorage {
  import opened Results
  import Text

  const AllowedSortMain: set<string> := {"ID", "startedAt", "endedAt", "elapsed", "method", "name"}
  const AllowedSortSummary: set<string> := {"method", "name", "count", "minElapsed", "maxElapsed", "avgElapsed"}
  const DefaultTable := "measurements"
  const DefaultFile := "flask_profiler.sql"
  const DefaultSortArg := "endedAt,desc"
  const DefaultSkip := 0
  const DefaultLimit := 100

  // ---------------------------------------------------------------------
  // Table name

  predicate IsIdentStart(c: char)
  {
    ('a' <= c <= 'z') || ('A' <= c <= 'Z') || c == '_'
  }

  predicate IsIdentChar(c: char)
  {
    IsIdentStart(c) || Text.IsDigit(c)
  }

  /** The whole text matches `[a-zA-Z_][a-zA-Z0-9_]*`. */
  predicate IsIdentifier(s: string)
  {
    |s| >= 1 && IsIdentStart(s[0]) && forall i :: 1 <= i < |s| ==> IsIdentChar(s[i])
  }

  /** What `re.match(r'^[a-zA-Z_][a-zA-Z0-9_]*$', name)` accepts: in Python
      `$` also matches just before a final newline. */
  predicate MatchesAsWritten(s: string)
  {
    IsIdentifier(s) || (|s| >= 2 && s[|s| - 1] == '\n' && IsIdentifier(s[..|s| - 1]))
  }

  /** The check as written lets a name with a trailing newline through. */
  lemma AsWrittenAcceptsTrailingNewline()
    ensures MatchesAsWritten("measurements\n")
    ensures !IsIdentifier("measurements\n")
  {
    assert "measurements\n"[..12] == "measurements";
    assert !IsIdentChar("measurements\n"[12]);
  }

  /** The intended check written as the scan a regular-expression engine
      performs: it accepts exactly the identifiers. It is a second,
      executable formulation of `IsIdentifier`, which `Open` uses. */
  method CheckTableName(name: string) returns (ok: bool)
    ensures ok <==> IsIdentifier(name)
  {
    if |name| == 0 || !IsIdentStart(name[0]) {
      return false;
    }
    var i := 1;
    while i < |name|
      invariant 1 <= i <= |name|
      invariant forall j :: 1 <= j < i ==> IsIdentChar(name[j])
    {
      if !IsIdentChar(name[i]) {
        return false;
      }
      i := i + 1;
    }
    return true;
  }

  /** An identifier cannot close the double quotes it is interpolated into,
      and contains no placeholder. */
  lemma IdentifierIsInert(s: string)
    requires IsIdentifier(s)
    ensures '"' !in s && '?' !in s && '\n' !in s
  {
  }

  /** The backend's `FILE` and `TABLE` settings (`None` when absent). */
  datatype StorageConfig = StorageConfig(file: Option<string>, table: Option<string>)

  datatype Storage = Storage(file: string, table: string)

  function OrElse(o: Option<string>, default: string): string
  {
    if o.Some? then o.value else default
  }

  /** `Sqlite.__init__` up to opening the connection: the table name
      defaults to "measurements" and anything but an identifier is a `ValueError`. */
  function Open(config: StorageConfig): (r: Result<Storage>)
    ensures r.Ok? <==> IsIdentifier(OrElse(config.table, DefaultTable))
    ensures r.Ok? ==> r.value.table == OrElse(config.table, DefaultTable)
                      && r.value.file == OrElse(config.file, DefaultFile)
    ensures r.Err? ==> r.error == "ValueError"
  {
    var table := OrElse(config.table, DefaultTable);
    if IsIdentifier(table) then Ok(Storage(OrElse(config.file, DefaultFile), table))
    else Err("ValueError")
  }

  /** `Sqlite.__init__` with the table-name check as written. */
  function OpenAsWritten(config: StorageConfig): (r: Result<Storage>)
    ensures r.Ok? <==> MatchesAsWritten(OrElse(config.table, DefaultTable))
    ensures r.Err? ==> r.error == "ValueError"
  {
    var table := OrElse(config.table, DefaultTable);
    if MatchesAsWritten(table) then Ok(Storage(OrElse(config.file, DefaultFile), table))
    else Err("ValueError")
  }

  /** The corrected check only refuses more: wherever it opens the backend,
      the check as written opens the same one, and the names only the check
      as written lets through end in a newline. */
  lemma OpenRefinesAsWritten(config: StorageConfig)
    ensures Open(config).Ok? ==> OpenAsWritten(config) == Open(config)
    ensures OpenAsWritten(config).Ok? && Open(config).Err? ==>
              var table := OrElse(config.table, DefaultTable); table[|table| - 1] == '\n'
  {
  }

  // ---------------------------------------------------------------------
  // Request arguments and filters

  /** A request argument: text from the query string, an integer passed by
      Python callers, or `None`. */
  datatype Arg = Str(s: string) | Int(i: int) | NoneArg

  type Kwargs = map<string, Arg>

  function ArgOr(kwargs: Kwargs, key: string, default: Arg): Arg
  {
    if key in kwargs then kwargs[key] else default
  }

  /** Python truthiness of an argument. */
  predicate Truthy(a: Arg)
  {
    match a
    case Str(s) => s != ""
    case Int(i) => i != 0
    case NoneArg => false
  }

  /** Python `int(s)` for text: optional surrounding whitespace, an
      optional sign, then one or more decimal digits. */
  function ParseInt(s: string): (r: Option<int>)
  {
    var t := Text.Strip(Text.NumberBlanks, s);
    if |t| == 0 then None
    else
      var neg := t[0] == '-';
      var digits := if t[0] == '-' || t[0] == '+' then t[1..] else t;
      if |digits| == 0 || !AllDigits(digits) then None
      else
      var v: int := Text.DigitsValue(digits);
      Some(if neg then -v else v)
  }

  /** Printing an integer and parsing it back gives the integer. */
  lemma ParseIntRoundTrip(n: int)
    ensures ParseInt(Text.IntToString(n)) == Some(n)
  {
    var s := Text.IntToString(n);
    var m: nat := if n < 0 then -n else n;
    var digits := Text.NatToString(m);
    Text.DigitsOfNat(m);
    assert s == (if n < 0 then "-" + digits else digits);
    assert !Text.IsSpace(s[0]) && !Text.IsSpace(s[|s| - 1]);
    Text.StripUnchanged(Text.NumberBlanks, s);
    ParseSignedDigits(s, n < 0, digits);
  }

  /** Unblanked text made of an optional minus and digits parses to their
      value, negated after the minus. */
  lemma ParseSignedDigits(s: string, neg: bool, digits: string)
    requires |digits| > 0 && AllDigits(digits)
    requires s == (if neg then "-" + digits else digits)
    requires Text.Strip(Text.NumberBlanks, s) == s
    ensures var v: int := Text.DigitsValue(digits); ParseInt(s) == Some(if neg then -v else v)
  {
    if neg {
      assert s[0] == '-' && s[1..] == digits;
    } else {
      assert Text.IsDigit(s[0]) && s[0] != '-' && s[0] != '+';
    }
  }

  /** Python `int(a)`. */
  function ToInt(a: Arg): (r: Result<int>)
    ensures a.Int? ==> r == Ok(a.i)
    ensures a.NoneArg? ==> r == Err("TypeError")
    ensures a.Str? ==> (r.Ok? <==> ParseInt(a.s).Some?)
  {
    match a
    case Int(i) => Ok(i)
    case NoneArg => Err("TypeError")
    case Str(s) => if ParseInt(s).Some? then Ok(ParseInt(s).value) else Err("ValueError")
  }

  predicate AllDigits(s: string)
  {
    forall i :: 0 <= i < |s| ==> Text.IsDigit(s[i])
  }

  function DropSign(s: string): string
  {
    if |s| > 0 && (s[0] == '+' || s[0] == '-') then s[1..] else s
  }

  /** Digits with at most one decimal point and at least one digit. */
  predicate IsMantissa(m: string)
  {
    if '.' in m then
      var k := Text.IndexOf(m, '.');
      |m| >= 2 && AllDigits(m[..k]) && AllDigits(m[k + 1..])
    else
      |m| >= 1 && AllDigits(m)
  }

  /** The texts Python's `float()` accepts: surrounding whitespace, an
      optional sign, then "inf", "infinity" or "nan" in any case, or a
      decimal mantissa with an optional signed exponent. */
  predicate IsFloatLiteral(s: string)
  {
    var t := DropSign(Text.Strip(Text.NumberBlanks, s));
    var lower := Text.Lower(t);
    if lower in {"inf", "infinity", "nan"} then true
    else if 'e' in lower then
      var k := Text.IndexOf(lower, 'e');
      var exponent := DropSign(t[k + 1..]);
      IsMantissa(t[..k]) && |exponent| >= 1 && AllDigits(exponent)
    else
      IsMantissa(t)
  }

  /** `float(a)` succeeds: numbers always, text when it is a float literal, `None` never. */
  predicate FloatAccepts(a: Arg)
  {
    match a
    case Int(_) => true
    case Str(s) => IsFloatLiteral(s)
    case NoneArg => false
  }

  /** The exception `float(a)` raises when it does not accept `a`. */
  function FloatError(a: Arg): string
  {
    if a.NoneArg? then "TypeError" else "ValueError"
  }

  /** Every printed integer is a float literal. */
  lemma IntegerTextIsFloat(n: int)
    ensures FloatAccepts(Str(Text.IntToString(n)))
  {
    var m: nat := if n < 0 then -n else n;
    var digits := Text.NatToString(m);
    SignedDigits(n);
    DigitsAreMantissa(digits);
  }

  /** The printed integer is unchanged by `strip` and is its digits after
      the sign. */
  lemma SignedDigits(n: int)
    ensures var s := Text.IntToString(n);
            Text.Strip(Text.NumberBlanks, s) == s && DropSign(s) == Text.NatToString(if n < 0 then -n else n)
  {
    var s := Text.IntToString(n);
    var digits := Text.NatToString(if n < 0 then -n else n);
    var last := digits[|digits| - 1];
    assert Text.IsDigit(last) && Text.IsDigit(digits[0]);
    if n < 0 {
      assert s == ['-'] + digits;
      assert s[0] == '-' && s[|s| - 1] == last;
      assert s[1..] == digits;
    } else {
      assert s == digits;
    }
    assert !Text.IsSpace(s[0]) && !Text.IsSpace(s[|s| - 1]);
    Text.StripUnchanged(Text.NumberBlanks, s);
  }

  lemma DigitsAreMantissa(digits: string)
    requires |digits| >= 1 && AllDigits(digits)
    ensures var lower := Text.Lower(digits);
            lower == digits && lower !in {"inf", "infinity", "nan"} && 'e' !in lower && IsMantissa(digits)
  {
    Text.LowerUnchanged(digits);
    assert Text.IsDigit(digits[0]);
    assert "inf"[0] == 'i' && "infinity"[0] == 'i' && "nan"[0] == 'n';
    assert forall i :: 0 <= i < |digits| ==> digits[i] != 'e' && digits[i] != '.';
  }

  /** A word is not a number. */
  lemma WordIsNotFloat()
    ensures !FloatAccepts(Str("abc"))
  {
    PlainWordIsNotFloat("abc");
  }

  lemma PlainWordIsNotFloat(w: string)
    requires w == "abc"
    ensures !FloatAccepts(Str(w))
  {
    StripAbc();
    var t := DropSign(Text.Strip(Text.NumberBlanks, w));
    assert t == w;
    LowerAbc();
    AbcIsPlainWord();
    assert !IsMantissa(t) by {
      assert !Text.IsDigit(t[0]);
    }
  }

  lemma LowerAbc()
    ensures Text.Lower("abc") == "abc"
  {
    var l := Text.Lower("abc");
    assert l[0] == 'a' && l[1] == 'b' && l[2] == 'c';
  }

  lemma AbcIsPlainWord()
    ensures "abc" !in {"inf", "infinity", "nan"} && 'e' !in "abc" && '.' !in "abc"
  {
    assert "abc"[0] == 'a';
  }

  lemma StripAbc()
    ensures Text.Strip(Text.NumberBlanks, "abc") == "abc"
  {
    assert !Text.IsSpace("abc"[0]) && !Text.IsSpace("abc"[2]);
    Text.StripUnchanged(Text.NumberBlanks, "abc");
  }

  /** `list(a)` succeeds only for text (an iterable); a number or `None` is a `TypeError`. */
  predicate ListAccepts(a: Arg)
  {
    a.Str?
  }

  /** A time bound: the argument given, or the clock-derived default
      (now + 0.5 s for `endedAt`, now minus one week for `startedAt`). */
  datatype Bound = Given(arg: Arg) | ClockDefault

  datatype Filters = Filters(sort: seq<string>, endedAt: Bound, startedAt: Bound,
                             elapsed: Arg, httpMethod: Arg, name: Arg, skip: int, limit: int)

  function BoundOf(kwargs: Kwargs, key: string): Bound
  {
    if key in kwargs then Given(kwargs[key]) else ClockDefault
  }

  predicate BoundAccepted(b: Bound)
  {
    b.ClockDefault? || FloatAccepts(b.arg)
  }

  /** `Sqlite.getFilters(kwargs)`. Missing keys take their defaults: sort
      "endedAt,desc", skip 0, limit 100, and `None` for elapsed, method and
      name. In order: the sort text is split on commas, both time bounds
      go through `float()`, `args` through `list()`, and skip and limit
      through `int()`; the first that fails raises. */
  function GetFilters(kwargs: Kwargs): (r: Result<Filters>)
    ensures r.Ok? ==> r.value.elapsed == ArgOr(kwargs, "elapsed", NoneArg)
                      && r.value.httpMethod == ArgOr(kwargs, "method", NoneArg)
                      && r.value.name == ArgOr(kwargs, "name", NoneArg)
                      && r.value.endedAt == BoundOf(kwargs, "endedAt")
                      && r.value.startedAt == BoundOf(kwargs, "startedAt")
    ensures r.Ok? ==> ToInt(ArgOr(kwargs, "skip", Int(DefaultSkip))) == Ok(r.value.skip)
                      && ToInt(ArgOr(kwargs, "limit", Int(DefaultLimit))) == Ok(r.value.limit)
    ensures r.Ok? ==> var sortArg := ArgOr(kwargs, "sort", Str(DefaultSortArg));
                      sortArg.Str? && Text.Join(r.value.sort, ',') == sortArg.s
                      && |r.value.sort| >= 1 && forall i :: 0 <= i < |r.value.sort| ==> ',' !in r.value.sort[i]
    ensures r.Ok? <==> ArgOr(kwargs, "sort", Str(DefaultSortArg)).Str?
                       && BoundAccepted(BoundOf(kwargs, "endedAt"))
                       && BoundAccepted(BoundOf(kwargs, "startedAt"))
                       && ("args" in kwargs ==> ListAccepts(kwargs["args"]))
                       && ToInt(ArgOr(kwargs, "skip", Int(DefaultSkip))).Ok?
                       && ToInt(ArgOr(kwargs, "limit", Int(DefaultLimit))).Ok?
    ensures !ArgOr(kwargs, "sort", Str(DefaultSortArg)).Str? ==> r == Err("AttributeError")
  {
    var sortArg := ArgOr(kwargs, "sort", Str(DefaultSortArg));
    var endedAt := BoundOf(kwargs, "endedAt");
    var startedAt := BoundOf(kwargs, "startedAt");
    if !sortArg.Str? then Err("AttributeError")
    else if !BoundAccepted(endedAt) then Err(FloatError(endedAt.arg))
    else if !BoundAccepted(startedAt) then Err(FloatError(startedAt.arg))
    else if "args" in kwargs && !ListAccepts(kwargs["args"]) then Err("TypeError")
    else
      var sort := Text.Split(sortArg.s, ',');
      Text.JoinSplit(sortArg.s, ',');
      match ToInt(ArgOr(kwargs, "skip", Int(DefaultSkip)))
      case Err(e) => Err(e)
      case Ok(skip) =>
        match ToInt(ArgOr(kwargs, "limit", Int(DefaultLimit)))
        case Err(e) => Err(e)
        case Ok(limit) =>
          Ok(Filters(sort, endedAt, startedAt, ArgOr(kwargs, "elapsed", NoneArg),
                     ArgOr(kwargs, "method", NoneArg), ArgOr(kwargs, "name", NoneArg), skip, limit))
  }

  /** With no arguments at all every default applies. */
  lemma GetFiltersDefaults()
    ensures GetFilters(map[]) == Ok(Filters(["endedAt", "desc"], ClockDefault, ClockDefault,
                                            NoneArg, NoneArg, NoneArg, 0, 100))
  {
    SplitDefaultSort();
  }

  lemma SplitDefaultSort()
    ensures Text.Split(DefaultSortArg, ',') == ["endedAt", "desc"]
  {
    assert ',' !in "endedAt" && ',' !in "desc";
    Text.SplitPair("endedAt", "desc", ',');
    assert "endedAt" + [','] + "desc" == DefaultSortArg;
  }

  // ---------------------------------------------------------------------
  // Sorting

  /** `_sanitize_sort`: the requested field when it is allowed, else the
      default; the upper-cased requested direction when it is ASC or DESC,
      else the default direction. Without a requested direction the default
      direction is upper-cased and checked the same way. */
  function SanitizeSort(requested: seq<string>, allowed: set<string>,
                        defaultField: string, defaultDir: string): (r: (string, string))
    ensures r.0 in allowed || r.0 == defaultField
    ensures r.1 == "ASC" || r.1 == "DESC" || r.1 == defaultDir
    ensures |requested| > 0 && Text.Strip(Text.StrBlanks, requested[0]) in allowed ==> r.0 == Text.Strip(Text.StrBlanks, requested[0])
    ensures |requested| > 0 && Text.Strip(Text.StrBlanks, requested[0]) !in allowed ==> r.0 == defaultField
    ensures |requested| > 1 && Text.Upper(Text.Strip(Text.StrBlanks, requested[1])) in {"ASC", "DESC"} ==>
              r.1 == Text.Upper(Text.Strip(Text.StrBlanks, requested[1]))
    ensures |requested| > 1 && Text.Upper(Text.Strip(Text.StrBlanks, requested[1])) !in {"ASC", "DESC"} ==>
              r.1 == defaultDir
    ensures |requested| == 0 ==> r.0 == defaultField
    ensures |requested| <= 1 && Text.Upper(defaultDir) in {"ASC", "DESC"} ==> r.1 == Text.Upper(defaultDir)
    ensures |requested| <= 1 && Text.Upper(defaultDir) !in {"ASC", "DESC"} ==> r.1 == defaultDir
  {
    var field := if |requested| > 0 then Text.Strip(Text.StrBlanks, requested[0]) else defaultField;
    var direction := Text.Upper(if |requested| > 1 then Text.Strip(Text.StrBlanks, requested[1]) else defaultDir);
    (if field in allowed then field else defaultField,
     if direction in {"ASC", "DESC"} then direction else defaultDir)
  }

  /** A request asking for "elapsed, asc" sorts by elapsed ascending. */
  lemma SanitizeAcceptsSpacedLowerCase()
    ensures SanitizeSort(Text.Split("elapsed, asc", ','), AllowedSortMain, "endedAt", "DESC")
            == ("elapsed", "ASC")
  {
    SplitElapsedAsc();
    StripElapsedAsc();
    UpperAsc();
    assert "elapsed" in AllowedSortMain;
  }

  lemma SplitElapsedAsc()
    ensures Text.Split("elapsed, asc", ',') == ["elapsed", " asc"]
  {
    assert "elapsed, asc" == "elapsed" + [','] + " asc";
    Text.SplitPair("elapsed", " asc", ',');
  }

  lemma StripElapsedAsc()
    ensures Text.Strip(Text.StrBlanks, "elapsed") == "elapsed" && Text.Strip(Text.StrBlanks, " asc") == "asc"
  {
    StripPlain("elapsed");
    StripSpaceAsc();
  }

  lemma StripSpaceAsc()
    ensures Text.Strip(Text.StrBlanks, " asc") == "asc"
  {
    var w := [' '];
    var a := ['a', 's', 'c'];
    assert Text.IsSpace(w[0]);
    assert w + a == " asc";
    Text.StripLeading(Text.StrBlanks, w, a);
    StripPlain(a);
  }

  lemma StripPlain(w: string)
    requires w == "elapsed" || w == "asc"
    ensures Text.Strip(Text.StrBlanks, w) == w
  {
    assert !Text.IsBlank(Text.StrBlanks, w[0]) && !Text.IsBlank(Text.StrBlanks, w[|w| - 1]);
    Text.StripUnchanged(Text.StrBlanks, w);
  }

  /** `str.strip()` also removes the ASCII separators U+001C to U+001F, so a
      field and direction followed by separators are still honoured. */
  lemma SanitizeStripsSeparators(w: string)
    requires forall i :: 0 <= i < |w| ==> '\U{001C}' <= w[i] <= '\U{001F}'
    ensures SanitizeSort(["elapsed" + w, "asc" + w], AllowedSortMain, "endedAt", "DESC")
            == ("elapsed", "ASC")
  {
    StripSeparators("elapsed", w);
    StripSeparators("asc", w);
    UpperAsc();
    assert "elapsed" in AllowedSortMain;
  }

  lemma StripSeparators(word: string, w: string)
    requires word == "elapsed" || word == "asc"
    requires forall i :: 0 <= i < |w| ==> '\U{001C}' <= w[i] <= '\U{001F}'
    ensures Text.Strip(Text.StrBlanks, word + w) == word
  {
    StripPlain(word);
    assert forall i :: 0 <= i < |w| ==> Text.IsBlank(Text.StrBlanks, w[i]);
    Text.StripTrailing(Text.StrBlanks, word, w);
  }

  /** `int()` does not strip those separators: digits followed by one are
      no integer. */
  lemma IntRefusesSeparator(digits: string, c: char)
    requires |digits| > 0 && AllDigits(digits)
    requires '\U{001C}' <= c <= '\U{001F}'
    ensures ParseInt(digits + [c]) == None
  {
    var s := digits + [c];
    assert Text.IsDigit(s[0]) && s[|s| - 1] == c;
    Text.StripUnchanged(Text.NumberBlanks, s);
    NonDigitIsNoInt(s, |s| - 1);
  }

  lemma NonDigitIsNoInt(s: string, i: nat)
    requires Text.Strip(Text.NumberBlanks, s) == s && |s| > 0 && s[0] != '-' && s[0] != '+'
    requires i < |s| && !Text.IsDigit(s[i])
    ensures ParseInt(s) == None
  {
    assert !AllDigits(s);
  }

  lemma UpperAsc()
    ensures Text.Upper("asc") == "ASC"
  {
    assert Text.UpperChar('a') == 'A' && Text.UpperChar('s') == 'S' && Text.UpperChar('c') == 'C';
  }

  // ---------------------------------------------------------------------
  // Query construction

  /** A bound parameter: `float(...)` of a bound or an argument (the float
      conversion itself is not modelled), an argument as given, or an `int`. */
  datatype SqlParam = Real(bound: Bound) | Raw(arg: Arg) | Integer(i: int)

  /** A WHERE condition; each carries one `?` placeholder. */
  datatype Cond = EndedAtUpTo | StartedAtFrom | ElapsedAtLeast | MethodIs | NameIs

  function CondSql(c: Cond): string
  {
    match c
    case EndedAtUpTo => "endedAt <= ?"
    case StartedAtFrom => "startedAt >= ?"
    case ElapsedAtLeast => "elapsed >= ?"
    case MethodIs => "method = ?"
    case NameIs => "name = ?"
  }

  /** The value a condition's placeholder is bound to. */
  function ParamFor(c: Cond, f: Filters): SqlParam
  {
    match c
    case EndedAtUpTo => Real(f.endedAt)
    case StartedAtFrom => Real(f.startedAt)
    case ElapsedAtLeast => Real(Given(f.elapsed))
    case MethodIs => Raw(f.httpMethod)
    case NameIs => Raw(f.name)
  }

  function Bind(conds: seq<Cond>, f: Filters): (ps: seq<SqlParam>)
    ensures |ps| == |conds|
    ensures forall i :: 0 <= i < |conds| ==> ps[i] == ParamFor(conds[i], f)
  {
    seq(|conds|, i requires 0 <= i < |conds| => ParamFor(conds[i], f))
  }

  /** A SELECT statement: its WHERE conditions (joined by AND), its
      ORDER BY field and direction, whether it is the grouped summary, whether
      it ends in LIMIT ? OFFSET ?, and its parameters in placeholder order. */
  datatype Select = Select(columns: string, table: string, conditions: seq<Cond>,
                           grouped: bool, orderField: string, orderDir: string,
                           paged: bool, params: seq<SqlParam>)

  const MainColumns := "ID, startedAt, endedAt, elapsed, args, kwargs, method, context, name"
  const SummaryColumns := "method, name, count(id) as count, min(elapsed) as minElapsed, max(elapsed) as maxElapsed, avg(elapsed) as avgElapsed"

  /** `x not in (None, "")`. */
  predicate Present(a: Arg)
  {
    a != NoneArg && a != Str("")
  }

  /** A lexical piece of a statement: fixed SQL text, a column name spliced
      in bare, a table name spliced in between double quotes, or a `?`. */
  datatype Token = Keyword(text: string) | Ident(name: string) | QuotedIdent(name: string) | Placeholder

  function CondTokens(c: Cond): seq<Token>
  {
    match c
    case EndedAtUpTo => [Keyword("endedAt <="), Placeholder]
    case StartedAtFrom => [Keyword("startedAt >="), Placeholder]
    case ElapsedAtLeast => [Keyword("elapsed >="), Placeholder]
    case MethodIs => [Keyword("method ="), Placeholder]
    case NameIs => [Keyword("name ="), Placeholder]
  }

  /** The conditions joined by AND. */
  function JoinConds(conds: seq<Cond>): seq<Token>
  {
    if |conds| == 0 then []
    else if |conds| == 1 then CondTokens(conds[0])
    else CondTokens(conds[0]) + [Keyword("AND")] + JoinConds(conds[1..])
  }

  /** `WHERE` and the joined conditions, when there are any. */
  function WhereTokens(conds: seq<Cond>): seq<Token>
  {
    if |conds| > 0 then [Keyword("WHERE")] + JoinConds(conds) else []
  }

  /** `LIMIT ? OFFSET ?` of a paged query. */
  function PagingTokens(paged: bool): seq<Token>
  {
    if paged then [Keyword("LIMIT"), Placeholder, Keyword("OFFSET"), Placeholder] else []
  }

  /** The statement as the sequence of its tokens. */
  function Sql(q: Select): seq<Token>
  {
    [Keyword("SELECT"), Keyword(q.columns), Keyword("FROM"), QuotedIdent(q.table)]
    + WhereTokens(q.conditions)
    + (if q.grouped then [Keyword("GROUP BY method, name")] else [])
    + [Keyword("ORDER BY"), Ident(q.orderField), Keyword(q.orderDir)]
    + PagingTokens(q.paged)
  }

  function Placeholders(ts: seq<Token>): nat
  {
    if |ts| == 0 then 0 else (if ts[0].Placeholder? then 1 else 0) + Placeholders(ts[1..])
  }

  lemma {:induction false} PlaceholdersConcat(a: seq<Token>, b: seq<Token>)
    ensures Placeholders(a + b) == Placeholders(a) + Placeholders(b)
    decreases |a|
  {
    if |a| > 0 {
      assert (a + b)[1..] == a[1..] + b;
      PlaceholdersConcat(a[1..], b);
    } else {
      assert a + b == b;
    }
  }

  /** The conditions of `filter`: both time bounds always, the elapsed
      bound when elapsed is neither None nor "", method and name when truthy. */
  function MainConditions(f: Filters): (cs: seq<Cond>)
    ensures |cs| >= 2 && cs[0] == EndedAtUpTo && cs[1] == StartedAtFrom
    ensures ElapsedAtLeast in cs <==> Present(f.elapsed)
    ensures MethodIs in cs <==> Truthy(f.httpMethod)
    ensures NameIs in cs <==> Truthy(f.name)
  {
    [EndedAtUpTo, StartedAtFrom]
    + (if Present(f.elapsed) then [ElapsedAtLeast] else [])
    + (if Truthy(f.httpMethod) then [MethodIs] else [])
    + (if Truthy(f.name) then [NameIs] else [])
  }

  /** The conditions of `getSummary`: the time bounds (startedAt first) and
      the elapsed bound; method and name never filter the summary. */
  function SummaryConditions(f: Filters): (cs: seq<Cond>)
    ensures |cs| >= 2 && cs[0] == StartedAtFrom && cs[1] == EndedAtUpTo
    ensures ElapsedAtLeast in cs <==> Present(f.elapsed)
    ensures MethodIs !in cs && NameIs !in cs
  {
    [StartedAtFrom, EndedAtUpTo] + (if Present(f.elapsed) then [ElapsedAtLeast] else [])
  }

  /** The elapsed bound, when present, goes through `float()`. */
  predicate ElapsedAccepted(f: Filters)
  {
    Present(f.elapsed) ==> FloatAccepts(f.elapsed)
  }

  /** `filter(kwds)`: the main conditions, sorted over the main allow-list
      (default endedAt DESC), with limit then skip bound last. */
  function FilterQuery(st: Storage, kwargs: Kwargs): (r: Result<Select>)
    ensures r.Ok? <==> GetFilters(kwargs).Ok? && ElapsedAccepted(GetFilters(kwargs).value)
    ensures GetFilters(kwargs).Err? ==> r == Err(GetFilters(kwargs).error)
    ensures r.Ok? ==> var f := GetFilters(kwargs).value; var q := r.value;
              && q.paged && !q.grouped && q.table == st.table && q.columns == MainColumns
              && q.conditions == MainConditions(f)
              && (q.orderField, q.orderDir) == SanitizeSort(f.sort, AllowedSortMain, "endedAt", "DESC")
              && q.params == Bind(q.conditions, f) + [Integer(f.limit), Integer(f.skip)]
  {
    match GetFilters(kwargs)
    case Err(e) => Err(e)
    case Ok(f) =>
      if !ElapsedAccepted(f) then Err(FloatError(f.elapsed)) else
      var conds := MainConditions(f);
      var order := SanitizeSort(f.sort, AllowedSortMain, "endedAt", "DESC");
      Ok(Select(MainColumns, st.table, conds, false, order.0, order.1, true,
                Bind(conds, f) + [Integer(f.limit), Integer(f.skip)]))
  }

  /** `getSummary(kwds)`: grouped by method and name, sorted over the
      summary allow-list (default count DESC), never paged. */
  function SummaryQuery(st: Storage, kwargs: Kwargs): (r: Result<Select>)
    ensures r.Ok? <==> GetFilters(kwargs).Ok? && ElapsedAccepted(GetFilters(kwargs).value)
    ensures GetFilters(kwargs).Err? ==> r == Err(GetFilters(kwargs).error)
    ensures r.Ok? ==> var f := GetFilters(kwargs).value; var q := r.value;
              && !q.paged && q.grouped && q.table == st.table && q.columns == SummaryColumns
              && q.conditions == SummaryConditions(f)
              && (q.orderField, q.orderDir) == SanitizeSort(f.sort, AllowedSortSummary, "count", "DESC")
              && q.params == Bind(q.conditions, f)
  {
    match GetFilters(kwargs)
    case Err(e) => Err(e)
    case Ok(f) =>
      if !ElapsedAccepted(f) then Err(FloatError(f.elapsed)) else
      var conds := SummaryConditions(f);
      var order := SanitizeSort(f.sort, AllowedSortSummary, "count", "DESC");
      Ok(Select(SummaryColumns, st.table, conds, true, order.0, order.1, false, Bind(conds, f)))
  }

  lemma {:induction false} NoPlaceholders(ts: seq<Token>)
    requires forall i :: 0 <= i < |ts| ==> !ts[i].Placeholder?
    ensures Placeholders(ts) == 0
    decreases |ts|
  {
    if |ts| > 0 {
      NoPlaceholders(ts[1..]);
    }
  }

  lemma CondHasOnePlaceholder(c: Cond)
    ensures Placeholders(CondTokens(c)) == 1
  {
    var ts := CondTokens(c);
    assert ts == [ts[0]] + [Placeholder];
    PlaceholdersConcat([ts[0]], [Placeholder]);
  }

  lemma {:induction false} JoinCount(conds: seq<Cond>)
    ensures Placeholders(JoinConds(conds)) == |conds|
    decreases |conds|
  {
    if |conds| == 1 {
      CondHasOnePlaceholder(conds[0]);
    } else if |conds| > 1 {
      JoinCount(conds[1..]);
      assert Placeholders(CondTokens(conds[0]) + [Keyword("AND")]) == 1 by {
        CondHasOnePlaceholder(conds[0]);
        PlaceholdersConcat(CondTokens(conds[0]), [Keyword("AND")]);
      }
      PlaceholdersConcat(CondTokens(conds[0]) + [Keyword("AND")], JoinConds(conds[1..]));
    }
  }

  /** The statement has exactly as many `?` placeholders as parameters. */
  lemma {:induction false} SqlPlaceholders(q: Select)
    requires |q.params| == |q.conditions| + (if q.paged then 2 else 0)
    ensures Placeholders(Sql(q)) == |q.params|
  {
    var head := [Keyword("SELECT"), Keyword(q.columns), Keyword("FROM"), QuotedIdent(q.table)];
    var where := WhereTokens(q.conditions);
    var group := if q.grouped then [Keyword("GROUP BY method, name")] else [];
    var order := [Keyword("ORDER BY"), Ident(q.orderField), Keyword(q.orderDir)];
    var tail := PagingTokens(q.paged);
    assert Sql(q) == head + where + group + order + tail;
    PlaceholdersConcat(head + where + group + order, tail);
    PlaceholdersConcat(head + where + group, order);
    PlaceholdersConcat(head + where, group);
    PlaceholdersConcat(head, where);
    WherePlaceholders(q.conditions);
    PagingPlaceholders(q.paged);
    NoPlaceholders(head);
    NoPlaceholders(group);
    NoPlaceholders(order);
  }

  lemma WherePlaceholders(conds: seq<Cond>)
    ensures Placeholders(WhereTokens(conds)) == |conds|
  {
    JoinCount(conds);
    if |conds| > 0 {
      PlaceholdersConcat([Keyword("WHERE")], JoinConds(conds));
    }
  }

  lemma PagingPlaceholders(paged: bool)
    ensures Placeholders(PagingTokens(paged)) == if paged then 2 else 0
  {
    if paged {
      var limit := [Keyword("LIMIT"), Placeholder];
      var offset := [Keyword("OFFSET"), Placeholder];
      assert PagingTokens(paged) == limit + offset;
      PlaceholdersConcat(limit, offset);
      assert limit == [Keyword("LIMIT")] + [Placeholder];
      assert offset == [Keyword("OFFSET")] + [Placeholder];
      PlaceholdersConcat([Keyword("LIMIT")], [Placeholder]);
      PlaceholdersConcat([Keyword("OFFSET")], [Placeholder]);
    }
  }

  /** Everything spliced into a statement's text other than fixed SQL is
      an allow-listed column (bare) or an identifier (in double quotes). */
  predicate SplicesSafely(ts: seq<Token>, allowed: set<string>)
  {
    forall i :: 0 <= i < |ts| ==>
      (ts[i].Ident? ==> ts[i].name in allowed) && (ts[i].QuotedIdent? ==> IsIdentifier(ts[i].name))
  }

  /** For any request, both queries splice only the validated table name and
      an allow-listed sort column into their text, name an allowed direction,
      and carry exactly as many parameters as placeholders. */
  lemma QueriesAreSafe(st: Storage, kwargs: Kwargs)
    requires IsIdentifier(st.table)
    requires GetFilters(kwargs).Ok? && ElapsedAccepted(GetFilters(kwargs).value)
    ensures var q := FilterQuery(st, kwargs).value;
            SplicesSafely(Sql(q), AllowedSortMain) && q.orderDir in {"ASC", "DESC"}
            && Placeholders(Sql(q)) == |q.params|
    ensures var q := SummaryQuery(st, kwargs).value;
            SplicesSafely(Sql(q), AllowedSortSummary) && q.orderDir in {"ASC", "DESC"}
            && Placeholders(Sql(q)) == |q.params|
  {
    var main := FilterQuery(st, kwargs).value;
    var summary := SummaryQuery(st, kwargs).value;
    SqlPlaceholders(main);
    SqlPlaceholders(summary);
    SplicedTokens(main, AllowedSortMain);
    SplicedTokens(summary, AllowedSortSummary);
  }

  lemma {:induction false} JoinCondsHasNoSplice(conds: seq<Cond>)
    ensures forall i :: 0 <= i < |JoinConds(conds)| ==>
              !JoinConds(conds)[i].Ident? && !JoinConds(conds)[i].QuotedIdent?
    decreases |conds|
  {
    if |conds| > 1 {
      JoinCondsHasNoSplice(conds[1..]);
    }
  }

  lemma SplicedTokens(q: Select, allowed: set<string>)
    requires q.orderField in allowed && IsIdentifier(q.table)
    ensures SplicesSafely(Sql(q), allowed)
  {
    var head := [Keyword("SELECT"), Keyword(q.columns), Keyword("FROM"), QuotedIdent(q.table)];
    var where := WhereTokens(q.conditions);
    var group := if q.grouped then [Keyword("GROUP BY method, name")] else [];
    var order := [Keyword("ORDER BY"), Ident(q.orderField), Keyword(q.orderDir)];
    var paging := PagingTokens(q.paged);
    assert Sql(q) == head + where + group + order + paging;
    JoinCondsHasNoSplice(q.conditions);
    assert SplicesSafely(where, allowed);
    SplicesSafelyConcat(head, where, allowed);
    SplicesSafelyConcat(head + where, group, allowed);
    SplicesSafelyConcat(head + where + group, order, allowed);
    SplicesSafelyConcat(head + where + group + order, paging, allowed);
  }

  lemma SplicesSafelyConcat(a: seq<Token>, b: seq<Token>, allowed: set<string>)
    requires SplicesSafely(a, allowed) && SplicesSafely(b, allowed)
    ensures SplicesSafely(a + b, allowed)
  {
    forall i | 0 <= i < |a + b|
      ensures ((a + b)[i].Ident? ==> (a + b)[i].name in allowed)
              && ((a + b)[i].QuotedIdent? ==> IsIdentifier((a + b)[i].name))
    {
      if i < |a| { assert (a + b)[i] == a[i]; } else { assert (a + b)[i] == b[i - |a|]; }
    }
  }

  // ---------------------------------------------------------------------
  // Paging and rows

  /** `LIMIT limit OFFSET skip` over the rows that satisfy WHERE, in ORDER BY
      order: a negative offset counts as 0 and a negative limit as no limit. */
  function Window<T>(rows: seq<T>, limit: int, skip: int): (r: seq<T>)
    ensures var from := if skip < 0 then 0 else skip;
            && |r| == (if from >= |rows| then 0 else if limit < 0 || |rows| - from < limit then |rows| - from else limit)
            && forall i :: 0 <= i < |r| ==> r[i] == rows[from + i]
  {
    var from := if skip < 0 then 0 else if skip > |rows| then |rows| else skip;
    var rest := rows[from..];
    if limit < 0 || limit >= |rest| then rest else rest[..limit]
  }

  /** With seven stored rows, `limit=5` returns five and `skip=5` (default limit 100) returns two. */
  lemma SevenRows<T>(rows: seq<T>)
    requires |rows| == 7
    ensures |Window(rows, 5, DefaultSkip)| == 5
    ensures |Window(rows, DefaultLimit, 5)| == 2
  {
  }

  /** Consecutive windows of one size partition the rows. */
  lemma WindowsTile<T>(rows: seq<T>, size: nat, skip: nat)
    ensures Window(rows, size, skip) + Window(rows, size, skip + size) == Window(rows, 2 * size, skip)
  {
    var a := Window(rows, size, skip);
    var b := Window(rows, size, skip + size);
    var c := Window(rows, 2 * size, skip);
    assert |a + b| == |c|;
    forall i | 0 <= i < |c|
      ensures (a + b)[i] == c[i]
    {
      if i >= |a| {
        assert |a| == size;
        assert (a + b)[i] == b[i - size];
      }
    }
  }

  /** A stored column value. */
  datatype SqlValue = SqlNull | SqlInt(i: int) | SqlReal(text: string) | SqlText(s: string)

  /** A field of the JSON row: the column value, or the value decoded by
      `json.loads` from a TEXT column (the decoding itself is not modelled). */
  datatype JsonField = Plain(v: SqlValue) | Decoded(source: SqlValue)

  const RowKeys: seq<string> := ["id", "startedAt", "endedAt", "elapsed", "args", "kwargs", "method", "context", "name"]

  /** Columns that hold JSON text. */
  const JsonColumns: set<int> := {4, 5, 7}

  /** `jsonify_row(row)`: the nine positional columns become named fields in
      the order id, startedAt, endedAt, elapsed, args, kwargs, method,
      context, name. A shorter row is an `IndexError`. */
  function JsonifyRow(row: seq<SqlValue>): (r: Result<seq<(string, JsonField)>>)
    ensures r.Ok? <==> |row| >= 9
    ensures r.Ok? ==> |r.value| == 9 && forall i :: 0 <= i < 9 ==> r.value[i].0 == RowKeys[i]
  {
    if |row| < 9 then Err("IndexError")
    else Ok(seq(9, i requires 0 <= i < 9 =>
                (RowKeys[i], if i in JsonColumns then Decoded(row[i]) else Plain(row[i]))))
  }

  function FieldSource(f: JsonField): SqlValue
  {
    match f
    case Plain(v) => v
    case Decoded(v) => v
  }

  /** Each named field comes from the column at its position: reading the
      fields back in order gives the nine columns. */
  lemma JsonifyRowKeepsColumns(row: seq<SqlValue>)
    requires |row| >= 9
    ensures var fields := JsonifyRow(row).value;
            seq(9, i requires 0 <= i < 9 => FieldSource(fields[i].1)) == row[..9]
  {
  }
}

=== FILE: table.dfy ===
/** `ServerSideTable` (flask_profiler/static/src/js/table.js) as a state
    machine. The backend reports no total count, so every load asks for one
    row more than the page size and uses the extra row only to decide
    whether a next page exists.

    Each user action (sort, paginate, change page size, filter) is a pure
    transition that also says whether it starts a reload; each reload is
    one atomic request/response step (`Load`). The column descriptors are
    fixed for the table's lifetime and are passed to `Load` as a `Layout`
    instead of being stored in the state. */
module Table {
  import opened Results
  import opened Js
  import Text
  import opened TableView

  /** The constructor's `options`. `pageSize` is `None` when absent. */
  datatype Options = Options(pageSize: Option<int>, pageSizeOptions: Option<seq<int>>,
                             defaultSort: Value, initialFilters: seq<Entry>)

  datatype Table = Table(
    params: Object,            // the query parameters sent with every load
    pageSize: int,
    pageSizeOptions: seq<int>, // the choices offered by the rows-per-page select
    currentPage: int,
    sortField: Value,          // currentSortField
    sortDir: Value,            // currentSortDir
    hasNextPage: bool,
    displayCount: Value,       // currentDisplayCount
    body: Body,
    pager: Pager)

  const DefaultPageSize := 25
  const DefaultPageSizeOptions: seq<int> := [10, 25, 50, 100]
  const DefaultSort := "endedAt,desc"

  predicate Ascending(s: seq<int>)
  {
    forall i, j :: 0 <= i < j < |s| ==> s[i] <= s[j]
  }

  function Insert(x: int, s: seq<int>): (r: seq<int>)
    requires Ascending(s)
    ensures Ascending(r)
    ensures multiset(r) == multiset(s) + multiset{x}
    ensures |r| == |s| + 1
    ensures r[0] == x || (|s| > 0 && r[0] == s[0])
    ensures |s| > 0 ==> r[0] <= s[0]
  {
    if |s| == 0 || x <= s[0] then
      AscendingCons(x, s);
      [x] + s
    else
      var rest := Insert(x, s[1..]);
      AscendingCons(s[0], rest);
      ConsMultiset(s, rest, x);
      [s[0]] + rest
  }

  lemma AscendingCons(h: int, s: seq<int>)
    requires Ascending(s) && (|s| > 0 ==> h <= s[0])
    ensures Ascending([h] + s)
  {
    assert forall i :: 0 <= i < |s| ==> s[0] <= s[i];
  }

  lemma ConsMultiset(s: seq<int>, rest: seq<int>, x: int)
    requires |s| > 0 && multiset(rest) == multiset(s[1..]) + multiset{x}
    ensures multiset([s[0]] + rest) == multiset(s) + multiset{x}
  {
    assert s == [s[0]] + s[1..];
  }

  /** `sort((a, b) => a - b)` on numbers. */
  function SortAscending(s: seq<int>): (r: seq<int>)
    ensures Ascending(r)
    ensures multiset(r) == multiset(s)
  {
    if |s| == 0 then []
    else
      assert s == [s[0]] + s[1..];
      Insert(s[0], SortAscending(s[1..]))
  }

  function ConfiguredPageSize(given: Option<int>): int
  {
    if given.Some? && given.value != 0 then given.value else DefaultPageSize
  }

  function BaseSizes(given: Option<seq<int>>): seq<int>
  {
    if given.Some? && |given.value| > 0 then given.value else DefaultPageSizeOptions
  }

  /** The rows-per-page choices: the caller's non-empty list (or the
      defaults) plus the page size when missing, in ascending order. */
  function PageSizeOptions(pageSize: int, given: Option<seq<int>>): (opts: seq<int>)
    ensures Ascending(opts)
    ensures pageSize in opts
    ensures forall x :: x in opts <==> x in BaseSizes(given) || x == pageSize
    ensures multiset(opts) == multiset(BaseSizes(given))
                              + (if pageSize in BaseSizes(given) then multiset{} else multiset{pageSize})
  {
    var base := BaseSizes(given);
    var all := if pageSize in base then base else base + [pageSize];
    var r := SortAscending(all);
    assert forall x :: x in r <==> x in multiset(all);
    r
  }

  /** The parameter object before `initialFilters` is applied. */
  function BaseParams(pageSize: int, sort: Value): Object
  {
    [Entry("skip", Num(0)), Entry("limit", Num(pageSize)), Entry("sort", sort),
     Entry("startedAt", Null), Entry("endedAt", Null), Entry("method", Null),
     Entry("name", Null), Entry("elapsed", Null)]
  }

  lemma BaseParamsDistinct(pageSize: int, sort: Value)
    ensures DistinctKeys(BaseParams(pageSize, sort))
  {
    var b := BaseParams(pageSize, sort);
    assert b[0].key[1] == 'k' && b[2].key[1] == 'o';
    assert b[3].key[|b[3].key| - 1] == 't' && b[6].key[|b[6].key| - 1] == 'e';
    assert forall i, j :: 0 <= i < j < |b| && b[i].key[0] != b[j].key[0] ==> b[i].key != b[j].key;
  }

  /** The constructor's reading of `params.sort`: nothing when falsy, the
      first two comma-separated pieces of a string (the second `undefined`
      when there is no comma), and a `TypeError` from `.split` otherwise. */
  function ParseSort(sort: Value): (r: Result<(Value, Value)>)
    ensures r.Err? <==> Truthy(sort) && !sort.Str?
    ensures !Truthy(sort) ==> r == Ok((Null, Null))
    ensures sort.Str? && sort.s != "" ==> r.Ok? && r.value.0.Str? && ',' !in r.value.0.s
    ensures sort.Str? && sort.s != "" ==> (r.value.1 == Undefined <==> ',' !in sort.s)
  {
    if !Truthy(sort) then Ok((Null, Null))
    else if sort.Str? then
      var parts := Text.Split(sort.s, ',');
      assert ',' !in sort.s ==> parts == [sort.s];
      Ok((Str(parts[0]), if |parts| > 1 then Str(parts[1]) else Undefined))
    else Err("TypeError")
  }

  /** Writing "field,dir" and reading it back gives the same pair. */
  lemma ParseSortPair(field: string, dir: string)
    requires ',' !in field && ',' !in dir && dir != ""
    ensures ParseSort(Str(field + "," + dir)) == Ok((Str(field), Str(dir)))
  {
    Text.SplitPair(field, dir, ',');
    assert field + "," + dir == field + [','] + dir;
  }

  /** The `sort` parameter before `initialFilters` is applied. */
  function InitialSort(defaultSort: Value): Value
  {
    if Truthy(defaultSort) then defaultSort else Str(DefaultSort)
  }

  function InitialParams(options: Options): (p: Object)
    ensures DistinctKeys(p)
  {
    var base := BaseParams(ConfiguredPageSize(options.pageSize), InitialSort(options.defaultSort));
    BaseParamsDistinct(ConfiguredPageSize(options.pageSize), InitialSort(options.defaultSort));
    PutAllKeepsDistinct(base, options.initialFilters);
    PutAll(base, options.initialFilters)
  }

  /** `new ServerSideTable(container, endpoint, options)` up to the first
      load; `Err` when the constructor throws. */
  function New(options: Options): (r: Result<Table>)
    ensures r.Err? <==> ParseSort(Get(InitialParams(options), "sort")).Err?
    ensures r.Ok? ==> r.value.params == InitialParams(options)
                      && r.value.currentPage == 0 && !r.value.hasNextPage
                      && r.value.body == Blank && r.value.pager == NoPager
    ensures r.Ok? ==> r.value.pageSize == ConfiguredPageSize(options.pageSize)
                      && r.value.pageSize in r.value.pageSizeOptions
    ensures r.Ok? ==> Ok((r.value.sortField, r.value.sortDir)) == ParseSort(Get(r.value.params, "sort"))
  {
    var pageSize := ConfiguredPageSize(options.pageSize);
    var params := InitialParams(options);
    match ParseSort(Get(params, "sort"))
    case Err(e) => Err(e)
    case Ok(parsed) =>
      Ok(Table(params, pageSize, PageSizeOptions(pageSize, options.pageSizeOptions), 0,
               parsed.0, parsed.1, false, Num(0), Blank, NoPager))
  }

  /** Without a `sort` among the initial filters, the constructor throws only
      for a truthy non-string default sort, and with none it parses "endedAt,desc". */
  lemma NewSort(options: Options)
    requires !Mentions(options.initialFilters, "sort")
    ensures New(options).Err? <==> Truthy(options.defaultSort) && !options.defaultSort.Str?
    ensures !Truthy(options.defaultSort) ==>
              New(options).Ok? && New(options).value.sortField == Str("endedAt")
              && New(options).value.sortDir == Str("desc")
  {
    var base := BaseParams(ConfiguredPageSize(options.pageSize), InitialSort(options.defaultSort));
    assert Get(base, "sort") == InitialSort(options.defaultSort) by {
      assert base[0].key != "sort" && base[1].key != "sort" && base[2].key == "sort";
      assert base[1..][1..] == base[2..];
    }
    PutAllOther(base, options.initialFilters, "sort");
    if !Truthy(options.defaultSort) {
      DefaultSortParses();
    }
  }

  lemma DefaultSortParses()
    ensures ParseSort(Str(DefaultSort)) == Ok((Str("endedAt"), Str("desc")))
  {
    assert ',' !in "endedAt" && ',' !in "desc";
    ParseSortPair("endedAt", "desc");
    assert "endedAt" + "," + "desc" == DefaultSort;
  }

  /** The outcome of one user action: the new state and whether it calls `loadData`. */
  datatype Step = Step(table: Table, reload: bool)

  /** The rendered rows, pager and count and the page-size choices: the
      sorting, paging and filtering actions leave these alone, and only the
      reload they request replaces them. */
  predicate SameView(a: Table, b: Table)
  {
    a.hasNextPage == b.hasNextPage && a.body == b.body && a.pager == b.pager
    && a.displayCount == b.displayCount && a.pageSizeOptions == b.pageSizeOptions
  }

  /** `sort(field)`. Clicking the current field while it is ascending flips it
      to descending; anything else sorts ascending. Filters are untouched. */
  function Sort(t: Table, field: string): (s: Step)
    ensures s.reload
    ensures s.table.sortField == Str(field)
    ensures s.table.sortDir == Str("asc") || s.table.sortDir == Str("desc")
    ensures s.table.sortDir == Str("desc") <==> t.sortField == Str(field) && t.sortDir == Str("asc")
    ensures Get(s.table.params, "sort") == Str(field + "," + s.table.sortDir.s)
    ensures Get(s.table.params, "skip") == Num(0) && s.table.currentPage == 0
    ensures forall k :: k != "sort" && k != "skip" ==> Get(s.table.params, k) == Get(t.params, k)
    ensures s.table.pageSize == t.pageSize && SameView(s.table, t)
  {
    var dir := if t.sortField == Str(field) && t.sortDir == Str("asc") then "desc" else "asc";
    var p1 := Put(t.params, "sort", Str(field + "," + dir));
    var p2 := Put(p1, "skip", Num(0));
    GetPut(p1, "skip", Num(0), "sort");
    GetPut(t.params, "sort", Str(field + "," + dir), "sort");
    GetPut(p1, "skip", Num(0), "skip");
    assert forall k :: k != "sort" && k != "skip" ==> Get(p2, k) == Get(t.params, k) by {
      forall k | k != "sort" && k != "skip"
        ensures Get(p2, k) == Get(t.params, k)
      {
        GetPut(p1, "skip", Num(0), k);
        GetPut(t.params, "sort", Str(field + "," + dir), k);
      }
    }
    Step(t.(params := p2, currentPage := 0, sortField := Str(field), sortDir := Str(dir)), true)
  }

  /** `paginate(page)`: only the page and the offset change. */
  function Paginate(t: Table, page: int): (s: Step)
    ensures s.reload
    ensures s.table.currentPage == page
    ensures Get(s.table.params, "skip") == Num(page * t.pageSize)
    ensures forall k :: k != "skip" ==> Get(s.table.params, k) == Get(t.params, k)
    ensures s.table.pageSize == t.pageSize && s.table.sortField == t.sortField && s.table.sortDir == t.sortDir
    ensures SameView(s.table, t)
  {
    var p := Put(t.params, "skip", Num(page * t.pageSize));
    GetPut(t.params, "skip", Num(page * t.pageSize), "skip");
    assert forall k :: k != "skip" ==> Get(p, k) == Get(t.params, k) by {
      forall k | k != "skip"
        ensures Get(p, k) == Get(t.params, k)
      {
        GetPut(t.params, "skip", Num(page * t.pageSize), k);
      }
    }
    Step(t.(params := p, currentPage := page), true)
  }

  /** `changePageSize(size)`: nothing at all (no reload) when the size is
      unchanged; otherwise a new size and limit, back on the first page. */
  function ChangePageSize(t: Table, size: int): (s: Step)
    ensures size == t.pageSize <==> s == Step(t, false)
    ensures size != t.pageSize ==>
              s.reload && s.table.pageSize == size && s.table.currentPage == 0
              && Get(s.table.params, "limit") == Num(size) && Get(s.table.params, "skip") == Num(0)
              && (forall k :: k != "limit" && k != "skip" ==> Get(s.table.params, k) == Get(t.params, k))
              && s.table.sortField == t.sortField && s.table.sortDir == t.sortDir
              && SameView(s.table, t)
  {
    if size == t.pageSize then Step(t, false)
    else
      var p1 := Put(t.params, "limit", Num(size));
      var p2 := Put(p1, "skip", Num(0));
      GetPut(p1, "skip", Num(0), "limit");
      GetPut(t.params, "limit", Num(size), "limit");
      GetPut(p1, "skip", Num(0), "skip");
      assert forall k :: k != "limit" && k != "skip" ==> Get(p2, k) == Get(t.params, k) by {
        forall k | k != "limit" && k != "skip"
          ensures Get(p2, k) == Get(t.params, k)
        {
          GetPut(p1, "skip", Num(0), k);
          GetPut(t.params, "limit", Num(size), k);
        }
      }
      Step(t.(params := p2, pageSize := size, currentPage := 0), true)
  }

  /** `undefined` becomes `null` when a filter value is merged. */
  function NullForUndefined(e: Entry): Entry
  {
    if e.value == Undefined then Entry(e.key, Null) else e
  }

  function Normalized(filters: seq<Entry>): (r: seq<Entry>)
    ensures |r| == |filters|
    ensures forall i :: 0 <= i < |filters| ==> r[i] == NullForUndefined(filters[i])
  {
    seq(|filters|, i requires 0 <= i < |filters| => NullForUndefined(filters[i]))
  }

  /** `i` is the last entry of `filters` for its key. */
  predicate LastFor(filters: seq<Entry>, i: int)
    requires 0 <= i < |filters|
  {
    forall j :: i < j < |filters| ==> filters[j].key != filters[i].key
  }

  predicate Mentions(filters: seq<Entry>, k: string)
  {
    exists i :: 0 <= i < |filters| && filters[i].key == k
  }

  /** The merge `filter` performs, with every merged key's final value. */
  lemma MergeValues(params: Object, filters: seq<Entry>)
    ensures forall i :: 0 <= i < |filters| && LastFor(filters, i) ==>
              Get(PutAll(params, Normalized(filters)), filters[i].key) == NullForUndefined(filters[i]).value
    ensures forall k :: !Mentions(filters, k) ==> Get(PutAll(params, Normalized(filters)), k) == Get(params, k)
  {
    var n := Normalized(filters);
    forall i | 0 <= i < |filters| && LastFor(filters, i)
      ensures Get(PutAll(params, n), filters[i].key) == NullForUndefined(filters[i]).value
    {
      PutAllLast(params, n, i);
    }
    forall k | !Mentions(filters, k)
      ensures Get(PutAll(params, n), k) == Get(params, k)
    {
      PutAllOther(params, n, k);
    }
  }

  /** `filter(filters)`: merges the given keys (`undefined` as `null`),
      keeps every other key, and goes back to the first page. */
  function Filter(t: Table, filters: seq<Entry>): (s: Step)
    ensures s.reload && s.table.currentPage == 0
    ensures Get(s.table.params, "skip") == Num(0)
    ensures forall i :: 0 <= i < |filters| && LastFor(filters, i) && filters[i].key != "skip" ==>
              Get(s.table.params, filters[i].key) == NullForUndefined(filters[i]).value
    ensures forall k :: !Mentions(filters, k) && k != "skip" ==> Get(s.table.params, k) == Get(t.params, k)
    ensures s.table.pageSize == t.pageSize && s.table.sortField == t.sortField && s.table.sortDir == t.sortDir
    ensures SameView(s.table, t)
  {
    var merged := PutAll(t.params, Normalized(filters));
    var p := Put(merged, "skip", Num(0));
    MergeValues(t.params, filters);
    GetPut(merged, "skip", Num(0), "skip");
    assert forall k :: k != "skip" ==> Get(p, k) == Get(merged, k) by {
      forall k | k != "skip"
        ensures Get(p, k) == Get(merged, k)
      {
        GetPut(merged, "skip", Num(0), k);
      }
    }
    Step(t.(params := p, currentPage := 0), true)
  }

  /** A click on header `j`: only sortable columns are wired to `sort`. */
  function HeaderClick(t: Table, layout: Layout, j: int): (s: Step)
    requires 0 <= j < |layout.columns|
    ensures IsSortable(layout.columns[j]) ==> s == Sort(t, layout.columns[j].field)
    ensures !IsSortable(layout.columns[j]) ==> s == Step(t, false)
  {
    if IsSortable(layout.columns[j]) then Sort(t, layout.columns[j].field) else Step(t, false)
  }

  /** The query string of a load: `limit` is raised by one, then every
      parameter that is neither `null` nor `undefined`, in property order. */
  function Request(t: Table): (q: seq<Entry>)
    ensures forall e :: e in q ==> !Nullish(e.value)
    ensures Entry("limit", PlusOne(Get(t.params, "limit"))) in q
    ensures forall e: Entry :: e.key != "limit" ==> (e in q <==> e in t.params && !Nullish(e.value))
    ensures DistinctKeys(t.params) ==>
              forall e :: e in q && e.key == "limit" ==> e.value == PlusOne(Get(t.params, "limit"))
  {
    var o := Put(t.params, "limit", PlusOne(Get(t.params, "limit")));
    PutEntries(t.params, "limit", PlusOne(Get(t.params, "limit")));
    assert !Nullish(PlusOne(Get(t.params, "limit")));
    SearchParams(o)
  }

  /** The parsed response body, as far as `data.measurements || data` can
      tell: `{measurements: [...]}`, a bare list, JSON `null` (reading
      `.measurements` from it throws), a string (which has a `length` and
      `slice` but no `forEach`; a non-string `measurements` falls back to the
      body itself, so this is a bare string), or any other JSON value (one
      without a `length`). */
  datatype Payload = Envelope(measurements: seq<Row>) | BareList(rows: seq<Row>) | NullBody
                   | JsonString(text: string) | NotAList

  /** `fetch` failing, `response.json()` failing, or a response of any
      status with a parsed body. The status is never examined. */
  datatype Response = NetworkError | InvalidJson | Http(status: int, payload: Payload)

  /** `data.measurements || data`, when that is a list. */
  function Measurements(p: Payload): Option<seq<Row>>
  {
    match p
    case Envelope(ms) => Some(ms)
    case BareList(rows) => Some(rows)
    case NullBody => None
    case JsonString(_) => None
    case NotAList => None
  }

  /** What `loadData` keeps out of what the server returned (rows, or the
      characters of a string body). */
  function Shown<T>(rows: seq<T>, pageSize: int): seq<T>
  {
    if |rows| > pageSize then Slice(rows, pageSize) else rows
  }

  function Min(a: int, b: int): int
  {
    if a < b then a else b
  }

  /** One completed `loadData()`. A failed request, and a `null` body, change
      nothing. A body without a `length` clears the rows (the table body is
      emptied before the rendering loop throws) and leaves the pager as it
      was. A string body is measured and cut like a list: an empty cut shows
      the "No data available" row and clears the pager, any other cut clears
      the rows before the loop throws. */
  function Load(t: Table, layout: Layout, resp: Response): (t': Table)
    ensures t'.params == t.params && t'.pageSize == t.pageSize && t'.currentPage == t.currentPage
            && t'.sortField == t.sortField && t'.sortDir == t.sortDir
            && t'.pageSizeOptions == t.pageSizeOptions
    ensures resp.NetworkError? || resp.InvalidJson? ==> t' == t
    ensures resp.Http? && resp.payload.NullBody? ==> t' == t
    ensures resp.Http? && resp.payload.NotAList? ==>
              !t'.hasNextPage && t'.displayCount == Undefined && t'.body == Blank && t'.pager == t.pager
    ensures resp.Http? && resp.payload.JsonString? ==>
              var text := resp.payload.text;
              t'.hasNextPage == (|text| > t.pageSize)
              && (t.pageSize >= 0 ==> t'.displayCount == Num(Min(|text|, t.pageSize)))
              && (t'.displayCount == Num(0) ==> t'.body == NoData(|layout.columns|) && t'.pager == NoPager)
              && (t'.displayCount != Num(0) ==> t'.body == Blank && t'.pager == t.pager)
    ensures resp.Http? && Measurements(resp.payload).Some? ==>
              t'.hasNextPage == (|Measurements(resp.payload).value| > t.pageSize)
    ensures resp.Http? && Measurements(resp.payload).Some? && t.pageSize >= 0 ==>
              var rows := Measurements(resp.payload).value;
              var n := Min(|rows|, t.pageSize);
              t'.displayCount == Num(n)
              && t'.body == RenderBody(layout, rows[..n])
              && t'.pager == PagerFor(t.currentPage, t.pageSize, n, t'.hasNextPage)
  {
    match resp
    case NetworkError => t
    case InvalidJson => t
    case Http(_, NullBody) => t
    case Http(_, JsonString(text)) =>
      var hasNext := |text| > t.pageSize;
      var shown := Shown(text, t.pageSize);
      if |shown| == 0 then
        t.(hasNextPage := hasNext, displayCount := Num(0), body := NoData(|layout.columns|), pager := NoPager)
      else
        t.(hasNextPage := hasNext, displayCount := Num(|shown|), body := Blank)
    case Http(_, NotAList) => t.(hasNextPage := false, displayCount := Undefined, body := Blank)
    case Http(_, Envelope(rows)) => LoadRows(t, layout, rows)
    case Http(_, BareList(rows)) => LoadRows(t, layout, rows)
  }

  /** A load that received a list of rows. */
  function LoadRows(t: Table, layout: Layout, rows: seq<Row>): Table
  {
    var hasNext := |rows| > t.pageSize;
    var shown := Shown(rows, t.pageSize);
    t.(hasNextPage := hasNext, displayCount := Num(|shown|),
       body := RenderBody(layout, shown),
       pager := PagerFor(t.currentPage, t.pageSize, |shown|, hasNext))
  }

  /** After a load that received rows, the table body, the count and the
      pager agree: as many body rows as the count says, each the rendering
      of the received row at that position; the "No data available" row
      exactly when the count is zero, with no pager; otherwise a range that
      spans exactly the rendered rows. */
  lemma LoadedRowsMatchCount(t: Table, layout: Layout, status: int, p: Payload)
    requires t.pageSize >= 0 && Measurements(p).Some?
    ensures var t' := Load(t, layout, Http(status, p));
            var rows := Measurements(p).value;
            t'.displayCount.Num?
            && (t'.body.NoData? <==> t'.displayCount.n == 0)
            && (t'.body.NoData? ==> t'.pager == NoPager && t'.body.colSpan == |layout.columns|)
            && (t'.body.Rows? ==>
                  |t'.body.rows| == t'.displayCount.n
                  && t'.pager.end - t'.pager.start + 1 == |t'.body.rows|
                  && forall i :: 0 <= i < |t'.body.rows| ==> t'.body.rows[i] == RenderRow(layout.columns, rows[i]))
  {
    var t' := Load(t, layout, Http(status, p));
    var rows := Measurements(p).value;
    var n := Min(|rows|, t.pageSize);
    if t'.body.Rows? {
      forall i | 0 <= i < |t'.body.rows|
        ensures t'.body.rows[i] == RenderRow(layout.columns, rows[i])
      {
        assert rows[..n][i] == rows[i];
      }
    }
  }

  /** After a successful load the number of rows on screen never exceeds the page size. */
  lemma LoadShowsAtMostPageSize(t: Table, layout: Layout, status: int, p: Payload)
    requires t.pageSize >= 0 && Measurements(p).Some?
    ensures var t' := Load(t, layout, Http(status, p));
            t'.displayCount.Num? && 0 <= t'.displayCount.n <= t.pageSize
            && (t'.hasNextPage <==> t'.displayCount.n < |Measurements(p).value|)
  {
  }

  /** Receiving `pageSize + 1` rows means a next page and exactly `pageSize`
      rows shown; receiving `pageSize` rows means no next page. */
  lemma OverFetchRoundTrip(t: Table, layout: Layout, status: int, rows: seq<Row>)
    requires t.pageSize >= 0
    ensures |rows| == t.pageSize + 1 ==>
              var t' := Load(t, layout, Http(status, BareList(rows)));
              t'.hasNextPage && t'.displayCount == Num(t.pageSize)
    ensures |rows| == t.pageSize ==>
              var t' := Load(t, layout, Http(status, Envelope(rows)));
              !t'.hasNextPage && t'.displayCount == Num(t.pageSize)
  {
  }

  /** The status code plays no part: an error status with a list body loads like a success. */
  lemma LoadIgnoresStatus(t: Table, layout: Layout, s1: int, s2: int, p: Payload)
    ensures Load(t, layout, Http(s1, p)) == Load(t, layout, Http(s2, p))
  {
  }

  /** The offset always corresponds to the current page. */
  predicate SkipInSync(t: Table)
  {
    Get(t.params, "skip") == Num(t.currentPage * t.pageSize)
  }

  /** The limit sent (before over-fetching) is the page size. */
  predicate LimitInSync(t: Table)
  {
    Get(t.params, "limit") == Num(t.pageSize)
  }

  /** A freshly built table is in sync unless `initialFilters` overrides `skip` or `limit`. */
  lemma NewInSync(options: Options)
    requires New(options).Ok?
    ensures !Mentions(options.initialFilters, "skip") ==> SkipInSync(New(options).value)
    ensures !Mentions(options.initialFilters, "limit") ==> LimitInSync(New(options).value)
  {
    var pageSize := ConfiguredPageSize(options.pageSize);
    var sort := if Truthy(options.defaultSort) then options.defaultSort else Str(DefaultSort);
    var base := BaseParams(pageSize, sort);
    if !Mentions(options.initialFilters, "skip") {
      PutAllOther(base, options.initialFilters, "skip");
    }
    if !Mentions(options.initialFilters, "limit") {
      PutAllOther(base, options.initialFilters, "limit");
    }
  }

  datatype Action = SortBy(field: string) | GoToPage(page: int)
                  | SetPageSize(size: int) | ApplyFilters(filters: seq<Entry>)

  function Act(t: Table, a: Action): Step
  {
    match a
    case SortBy(f) => Sort(t, f)
    case GoToPage(p) => Paginate(t, p)
    case SetPageSize(n) => ChangePageSize(t, n)
    case ApplyFilters(fs) => Filter(t, fs)
  }

  /** One action followed, when it reloads, by the load it triggers. */
  function Apply(t: Table, layout: Layout, a: Action, resp: Response): Table
  {
    var s := Act(t, a);
    if s.reload then Load(s.table, layout, resp) else s.table
  }

  /** A session: actions, each paired with the response its load receives. */
  function Run(t: Table, layout: Layout, events: seq<(Action, Response)>): Table
    decreases |events|
  {
    if |events| == 0 then t
    else Run(Apply(t, layout, events[0].0, events[0].1), layout, events[1..])
  }

  predicate SetsLimit(a: Action)
  {
    a.ApplyFilters? && Mentions(a.filters, "limit")
  }

  lemma ActKeepsSync(t: Table, a: Action)
    requires SkipInSync(t)
    ensures SkipInSync(Act(t, a).table)
    ensures LimitInSync(t) && !SetsLimit(a) ==> LimitInSync(Act(t, a).table)
  {
    ActKeepsSkip(t, a);
    if LimitInSync(t) && !SetsLimit(a) {
      ActKeepsLimit(t, a);
    }
  }

  lemma ActKeepsSkip(t: Table, a: Action)
    requires SkipInSync(t)
    ensures SkipInSync(Act(t, a).table)
  {
    match a
    case SortBy(f) => FirstPageInSync(Sort(t, f).table);
    case GoToPage(p) =>
    case SetPageSize(n) =>
      if n != t.pageSize {
        FirstPageInSync(ChangePageSize(t, n).table);
      }
    case ApplyFilters(fs) => FirstPageInSync(Filter(t, fs).table);
  }

  lemma ActKeepsLimit(t: Table, a: Action)
    requires LimitInSync(t) && !SetsLimit(a)
    ensures LimitInSync(Act(t, a).table)
  {
    LimitIsNotSortOrSkip();
  }

  /** The first page with `skip` 0 is in sync, whatever the page size. */
  lemma FirstPageInSync(t: Table)
    requires t.currentPage == 0 && Get(t.params, "skip") == Num(0)
    ensures SkipInSync(t)
  {
    assert t.currentPage * t.pageSize == 0;
  }

  lemma LimitIsNotSortOrSkip()
    ensures "limit" != "sort" && "limit" != "skip"
  {
    assert "limit"[0] != "sort"[0] && "limit"[0] != "skip"[0];
  }

  lemma {:induction false} ApplyKeepsSync(t: Table, layout: Layout, a: Action, resp: Response)
    requires SkipInSync(t)
    ensures SkipInSync(Apply(t, layout, a, resp))
    ensures LimitInSync(t) && !SetsLimit(a) ==> LimitInSync(Apply(t, layout, a, resp))
  {
    ActKeepsSync(t, a);
    var s := Act(t, a);
    if s.reload {
      var t' := Load(s.table, layout, resp);
      assert t'.params == s.table.params && t'.currentPage == s.table.currentPage
             && t'.pageSize == s.table.pageSize;
    }
  }

  /** Whatever the user does and whatever the server answers, `skip` stays
      `currentPage * pageSize`; `limit` stays the page size as long as no
      filter sets it. */
  lemma {:induction false} RunKeepsSync(t: Table, layout: Layout, events: seq<(Action, Response)>)
    requires SkipInSync(t)
    ensures SkipInSync(Run(t, layout, events))
    ensures LimitInSync(t) && (forall i :: 0 <= i < |events| ==> !SetsLimit(events[i].0))
            ==> LimitInSync(Run(t, layout, events))
    decreases |events|
  {
    if |events| > 0 {
      ApplyKeepsSync(t, layout, events[0].0, events[0].1);
      RunKeepsSync(Apply(t, layout, events[0].0, events[0].1), layout, events[1..]);
    }
  }

  /** Choosing the same page size twice reloads once. */
  lemma ChangePageSizeTwice(t: Table, size: int)
    requires size != t.pageSize
    ensures ChangePageSize(t, size).reload
    ensures ChangePageSize(ChangePageSize(t, size).table, size) == Step(ChangePageSize(t, size).table, false)
  {
  }

  /** Sorting twice by the same field reverses the direction; a third time restores it. */
  lemma SortToggles(t: Table, field: string)
    ensures var once := Sort(t, field).table;
            var twice := Sort(once, field).table;
            twice.sortDir != once.sortDir && Sort(twice, field).table.sortDir == once.sortDir
  {
  }

  /** The "field,dir" that `sort` writes parses back to the field and direction it records. */
  lemma SortParamParses(t: Table, field: string)
    requires ',' !in field
    ensures var s := Sort(t, field).table;
            ParseSort(Get(s.params, "sort")) == Ok((s.sortField, s.sortDir))
  {
    var s := Sort(t, field).table;
    var dir := s.sortDir.s;
    DirIsPlain(dir);
    ParseSortPair(field, dir);
  }

  lemma DirIsPlain(dir: string)
    requires dir == "asc" || dir == "desc"
    ensures ',' !in dir && dir != ""
  {
  }

  /** Page size 25 and a server answer of 26 rows: rows 1-25, "Next" but no
      "Previous"; then `paginate(1)` asks for `skip=25` (and `limit=26`). */
  lemma ScenarioFirstPageOfTwo(t: Table, layout: Layout, rows: seq<Row>)
    requires t.pageSize == 25 && t.currentPage == 0 && LimitInSync(t)
    requires |rows| == 26
    ensures var t1 := Load(t, layout, Http(200, Envelope(rows)));
            t1.pager == Pager(1, 25, Some(Controls(None, Some(1))))
            && t1.body == RenderBody(layout, rows[..25])
            && Entry("skip", Num(25)) in Request(Paginate(t1, 1).table)
            && Entry("limit", Num(26)) in Request(Paginate(t1, 1).table)
  {
    var t1 := Load(t, layout, Http(200, Envelope(rows)));
    assert t1.pager == Pager(1, 25, Some(Controls(None, Some(1))));
    assert t1.body == RenderBody(layout, rows[..25]);
    NextPageRequest(t1);
  }

  /** From any state with page size 25, going to page 1 requests rows 26-51. */
  lemma NextPageRequest(t: Table)
    requires t.pageSize == 25 && LimitInSync(t)
    ensures Entry("skip", Num(25)) in Request(Paginate(t, 1).table)
    ensures Entry("limit", Num(26)) in Request(Paginate(t, 1).table)
  {
    var t2 := Paginate(t, 1).table;
    LimitIsNotSortOrSkip();
    assert Get(t2.params, "skip") == Num(25);
    assert Get(t2.params, "limit") == Num(25);
    RequestCarries(t2, "skip");
  }

  /** A parameter other than `limit` that is neither `null` nor `undefined`
      is sent as it is. */
  lemma RequestCarries(t: Table, k: string)
    requires k != "limit" && !Nullish(Get(t.params, k))
    ensures Entry(k, Get(t.params, k)) in Request(t)
  {
    var e := Entry(k, Get(t.params, k));
    assert HasKey(t.params, k);
    var i :| 0 <= i < |t.params| && t.params[i] == e;
    assert e in t.params;
  }

  /** A method filter applied after sorting by elapsed keeps the sort in the request. */
  lemma ScenarioFilterKeepsSort(t: Table)
    requires t.sortField == Str("elapsed") && t.sortDir == Str("asc")
    ensures var sorted := Sort(t, "elapsed").table;
            var filtered := Filter(sorted, [Entry("method", Str("GET"))]).table;
            Get(filtered.params, "sort") == Str("elapsed,desc")
            && Get(filtered.params, "method") == Str("GET")
  {
    var sorted := Sort(t, "elapsed").table;
    assert sorted.sortDir == Str("desc");
    ElapsedDesc();
    FilterByMethod(sorted, "GET");
  }

  lemma ElapsedDesc()
    ensures "elapsed" + "," + "desc" == "elapsed,desc"
  {
  }

  lemma FilterByMethod(t: Table, m: string)
    ensures var filtered := Filter(t, [Entry("method", Str(m))]).table;
            Get(filtered.params, "sort") == Get(t.params, "sort")
            && Get(filtered.params, "method") == Str(m)
  {
    var fs := [Entry("method", Str(m))];
    assert !Mentions(fs, "sort");
    assert LastFor(fs, 0) && fs[0].key != "skip";
  }
}

=== FILE: table_view.dfy ===
/** What `ServerSideTable` puts on screen (flask_profiler/static/src/js/table.js):
    the body rows built by `updateTable`, the header cells built by
    `renderHeaders` and re-marked by `sort`, and the range and
    previous/next controls computed by `updatePagination`. */
module TableView {
  import opened Results
  import opened Js

  /** One measurement as the browser receives it. */
  type Row = map<string, Value>

  /** What a column's `render` callback returns: a DOM node, or anything
      else, which is shown through `String(...)`. */
  datatype Rendered = Node(handle: nat) | Scalar(value: Value)

  /** A column descriptor. `sortable` is whatever the caller wrote; only
      the literal `false` switches sorting off. */
  datatype Column = Column(field: string, labelText: string, sortable: Value,
                           render: Option<(Value, Row) -> Rendered>)

  /** The column list and whether an `onRowClick` handler was supplied. */
  datatype Layout = Layout(columns: seq<Column>, clickableRows: bool)

  /** A body cell: plain text, or an attached node. Text is never parsed as markup. */
  datatype Cell = TextCell(text: string) | NodeCell(handle: nat)

  /** The contents of `<tbody>`. */
  datatype Body =
    | Blank                                    // nothing rendered (yet)
    | NoData(colSpan: nat)                     // one "No data available" cell spanning every column
    | Rows(rows: seq<seq<Cell>>, clickable: bool)

  const NoDataText := "No data available"

  /** `row[field]`: `undefined` when the row lacks the field. */
  function FieldOf(row: Row, field: string): Value
  {
    if field in row then row[field] else Undefined
  }

  function RenderCell(col: Column, row: Row): (c: Cell)
    ensures c.NodeCell? <==> col.render.Some? && col.render.value(FieldOf(row, col.field), row).Node?
    ensures col.render.None? && Nullish(FieldOf(row, col.field)) ==> c == TextCell("")
    ensures col.render.None? && !Nullish(FieldOf(row, col.field)) ==> c == TextCell(ToString(FieldOf(row, col.field)))
  {
    var v := FieldOf(row, col.field);
    match col.render
    case Some(render) =>
      (match render(v, row)
       case Node(h) => NodeCell(h)
       case Scalar(x) => TextCell(ToString(x)))
    case None => TextCell(if Nullish(v) then "" else ToString(v))
  }

  function RenderRow(columns: seq<Column>, row: Row): (cells: seq<Cell>)
    ensures |cells| == |columns|
    ensures forall j :: 0 <= j < |columns| ==> cells[j] == RenderCell(columns[j], row)
  {
    seq(|columns|, j requires 0 <= j < |columns| => RenderCell(columns[j], row))
  }

  /** `updateTable(data)`. */
  function RenderBody(layout: Layout, data: seq<Row>): (b: Body)
    ensures |data| == 0 <==> b.NoData?
    ensures b.NoData? ==> b.colSpan == |layout.columns|
    ensures b.Rows? ==> |b.rows| == |data| && b.clickable == layout.clickableRows
    ensures b.Rows? ==> forall i, j :: 0 <= i < |data| && 0 <= j < |layout.columns| ==>
              |b.rows[i]| == |layout.columns| && b.rows[i][j] == RenderCell(layout.columns[j], data[i])
  {
    if |data| == 0 then NoData(|layout.columns|)
    else Rows(seq(|data|, i requires 0 <= i < |data| => RenderRow(layout.columns, data[i])),
              layout.clickableRows)
  }

  /** A header cell. `field` is the `data-field` a sortable header carries. */
  datatype Header = Header(labelText: string, field: Option<string>, classes: set<string>)

  predicate IsSortable(col: Column)
  {
    col.sortable != Bool(false)
  }

  function IndicatorClass(dir: Value): string
  {
    "sort-" + ToString(dir)
  }

  function RenderHeader(col: Column, sortField: Value, sortDir: Value): Header
  {
    if IsSortable(col) then
      Header(col.labelText, Some(col.field),
             {"sortable"} + (if Str(col.field) == sortField then {IndicatorClass(sortDir)} else {}))
    else
      Header(col.labelText, None, {})
  }

  /** `renderHeaders()`: one cell per column; only a sortable column whose
      field is the current sort field carries an indicator. */
  function RenderHeaders(columns: seq<Column>, sortField: Value, sortDir: Value): (hs: seq<Header>)
    ensures |hs| == |columns|
    ensures forall j :: 0 <= j < |columns| ==> hs[j].labelText == columns[j].labelText
    ensures forall j :: 0 <= j < |columns| ==>
              ("sortable" in hs[j].classes <==> IsSortable(columns[j]))
    ensures forall j :: 0 <= j < |columns| ==>
              (IndicatorClass(sortDir) in hs[j].classes <==>
                 IsSortable(columns[j]) && Str(columns[j].field) == sortField)
  {
    assert IndicatorClass(sortDir)[4] == '-' && "sortable"[4] == 'a';
    seq(|columns|, j requires 0 <= j < |columns| => RenderHeader(columns[j], sortField, sortDir))
  }

  /** The indicator update `sort(field)` performs on the existing header
      cells: it removes `sort-asc` and `sort-desc` from every sortable
      header and adds `sort-<dir>` to the ones whose field was clicked. */
  function RemarkHeaders(hs: seq<Header>, field: string, dir: string): (hs': seq<Header>)
    ensures |hs'| == |hs|
  {
    seq(|hs|, j requires 0 <= j < |hs| => Remark(hs[j], field, dir))
  }

  /** The update of one header cell. */
  function Remark(h: Header, field: string, dir: string): Header
  {
    if "sortable" in h.classes then
      h.(classes := h.classes - {"sort-asc", "sort-desc"}
                    + (if h.field == Some(field) then {"sort-" + dir} else {}))
    else h
  }

  /** When the indicator on screen is `sort-asc` or `sort-desc`, re-marking the
      headers after a sort gives exactly the headers a fresh render would. */
  lemma RemarkMatchesRender(columns: seq<Column>, sortField: Value, sortDir: Value, field: string, dir: string)
    requires sortDir == Str("asc") || sortDir == Str("desc")
    requires dir == "asc" || dir == "desc"
    ensures RemarkHeaders(RenderHeaders(columns, sortField, sortDir), field, dir)
            == RenderHeaders(columns, Str(field), Str(dir))
  {
    var before := RenderHeaders(columns, sortField, sortDir);
    var after := RemarkHeaders(before, field, dir);
    var rerendered := RenderHeaders(columns, Str(field), Str(dir));
    forall j | 0 <= j < |columns|
      ensures after[j] == rerendered[j]
    {
      RemarkOne(columns[j], sortField, sortDir, field, dir);
    }
  }

  lemma RemarkOne(col: Column, sortField: Value, sortDir: Value, field: string, dir: string)
    requires sortDir == Str("asc") || sortDir == Str("desc")
    requires dir == "asc" || dir == "desc"
    ensures Remark(RenderHeader(col, sortField, sortDir), field, dir) == RenderHeader(col, Str(field), Str(dir))
  {
    if IsSortable(col) {
      var before := RenderHeader(col, sortField, sortDir).classes;
      assert IndicatorClass(sortDir) == "sort-asc" || IndicatorClass(sortDir) == "sort-desc";
      assert "sortable"[5] != "sort-asc"[5] && "sortable"[5] != "sort-desc"[5];
      assert before - {"sort-asc", "sort-desc"} == {"sortable"};
      assert IndicatorClass(Str(dir)) == "sort-" + dir;
    }
  }

  /** Any other indicator (from a default sort such as "name,DESC") is never
      removed: after sorting by another field the old header keeps it. */
  lemma StaleIndicatorSurvives()
    ensures var cols := [Column("name", "Endpoint", Bool(true), None),
                         Column("elapsed", "Duration", Bool(true), None)];
            var hs := RemarkHeaders(RenderHeaders(cols, Str("name"), Str("DESC")), "elapsed", "asc");
            "sort-DESC" in hs[0].classes
            && hs != RenderHeaders(cols, Str("elapsed"), Str("asc"))
  {
    var cols := [Column("name", "Endpoint", Bool(true), None),
                 Column("elapsed", "Duration", Bool(true), None)];
    var before := RenderHeaders(cols, Str("name"), Str("DESC"));
    assert IndicatorClass(Str("DESC")) == "sort-DESC";
    assert "sort-DESC" in before[0].classes;
    var hs := RemarkHeaders(before, "elapsed", "asc");
    assert "sort-DESC" in hs[0].classes;
    var rerendered := RenderHeaders(cols, Str("elapsed"), Str("asc"));
    assert rerendered[0].classes == {"sortable"};
  }

  /** The previous/next buttons and the page each one requests. */
  datatype Controls = Controls(previous: Option<int>, next: Option<int>)

  /** `updatePagination()`: the "Showing start-end" range (0-0 when nothing
      is shown, which renders as empty text) and the controls, if any. */
  datatype Pager = Pager(start: int, end: int, controls: Option<Controls>)

  const NoPager := Pager(0, 0, None)

  function PagerFor(currentPage: int, pageSize: int, count: nat, hasNext: bool): (p: Pager)
    ensures count == 0 ==> p == NoPager
    ensures count > 0 ==> p.start == currentPage * pageSize + 1 && p.end - p.start + 1 == count
    ensures p.controls.Some? <==> count > 0 && (currentPage != 0 || hasNext)
    ensures p.controls.Some? ==>
              (p.controls.value.previous.Some? <==> currentPage > 0)
              && (p.controls.value.next.Some? <==> hasNext)
    ensures p.controls.Some? && p.controls.value.previous.Some? ==> p.controls.value.previous.value == currentPage - 1
    ensures p.controls.Some? && p.controls.value.next.Some? ==> p.controls.value.next.value == currentPage + 1
  {
    if count == 0 then NoPager
    else
      var start := currentPage * pageSize + 1;
      var end := start + count - 1;
      if currentPage == 0 && !hasNext then Pager(start, end, None)
      else
        Pager(start, end, Some(Controls(if currentPage > 0 then Some(currentPage - 1) else None,
                                        if hasNext then Some(currentPage + 1) else None)))
  }

  /** A full page followed by its successor shows consecutive record numbers. */
  lemma PagesTile(page: int, pageSize: int, nextCount: nat, hasNext: bool, nextHasNext: bool)
    requires pageSize > 0 && nextCount > 0
    ensures PagerFor(page + 1, pageSize, nextCount, nextHasNext).start
            == PagerFor(page, pageSize, pageSize, hasNext).end + 1
  {
    assert (page + 1) * pageSize == page * pageSize + pageSize;
  }
}

=== FILE: tabs.dfy ===
/** The single-page tab manager (flask_profiler/static/src/js/main.js):
    link targets, the location hash, lazily imported tab modules shared
    between prefetching and switching, cleanup of the tab being left, and
    the guard that skips initialising a tab the user has already left.
    Each `await` splits an operation into steps; a step runs atomically. */
module Tabs {
  import opened Results
  import Text

  const Dashboard := "tab-dashboard"
  const Filtering := "tab-filtering"
  const Settings := "tab-settings"
  const TabIds: set<string> := {Dashboard, Filtering, Settings}

  /** The properties every plain object inherits from `Object.prototype`.
      `this.tabs` is a plain object, so `this.tabs[id]` is truthy for these
      names too: they pass the "is there such a tab" guards, but hold no
      loader, no module and no cleanup. */
  const InheritedNames: set<string> := {
    "constructor", "hasOwnProperty", "isPrototypeOf", "propertyIsEnumerable", "toString",
    "toLocaleString", "valueOf", "__proto__", "__defineGetter__", "__defineSetter__",
    "__lookupGetter__", "__lookupSetter__"}

  /** `this.tabs[id]` is truthy. */
  predicate Known(id: string)
  {
    id in TabIds || id in InheritedNames
  }

  /** A loaded tab module: whether it exports a function under the tab's
      initializer name and under its cleanup name. */
  datatype Module = Module(hasInit: bool, hasCleanup: bool)

  /** One tab's loading state: the module once imported, whether a load
      promise is held, and whether its initializer has completed. */
  datatype Tab = Tab(code: Option<Module>, promise: bool, loaded: bool)

  /** Observable effects, oldest first. */
  datatype Event = ImportStarted(tab: string) | CleanedUp(tab: string) | Activated(tab: string) | Initialised(tab: string)

  /** The manager: its tabs, the current tab, the location hash, the
      `href` of every tab link and the id of every tab content element with
      their `active` classes, and the events so far. */
  datatype Manager = Manager(tabs: map<string, Tab>, current: Option<string>, hash: string,
                             links: seq<string>, linkActive: seq<bool>,
                             contents: seq<string>, contentActive: seq<bool>,
                             log: seq<Event>)

  predicate WellFormed(m: Manager)
  {
    |m.linkActive| == |m.links| && |m.contentActive| == |m.contents|
    && m.tabs.Keys == TabIds
    && (m.current.Some? ==> Known(m.current.value))
  }

  /** `getTabIdFromLink`: the link's `href` without its leading `#`, or
      `None` when there is no `href`, it is empty, or it is not a fragment. */
  function TabIdFromLink(href: Option<string>): (r: Option<string>)
    ensures r.Some? <==> href.Some? && |href.value| > 0 && href.value[0] == '#'
    ensures r.Some? ==> href.value == "#" + r.value
  {
    if href.None? || |href.value| == 0 || href.value[0] != '#' then None
    else Some(href.value[1..])
  }

  /** `location.hash.substring(1) || 'tab-dashboard'`. */
  function TabFromHash(hash: string): (id: string)
    ensures |hash| <= 1 ==> id == Dashboard
    ensures |hash| > 1 ==> id == hash[1..]
  {
    var rest := if |hash| >= 1 then hash[1..] else "";
    if rest == "" then Dashboard else rest
  }

  /** Marks the elements whose key equals `id`. */
  function Mark(keys: seq<string>, id: string): (r: seq<bool>)
    ensures |r| == |keys|
    ensures forall i :: 0 <= i < |keys| ==> (r[i] <==> keys[i] == id)
  {
    seq(|keys|, i requires 0 <= i < |keys| => keys[i] == id)
  }

  // ---------------------------------------------------------------------
  // Loading modules

  /** What `prefetchTab` hands back: `null` for an unknown tab, the cached
      module, or the (possibly just created) shared load promise. */
  datatype Prefetched = NoTab | Cached(code: Module) | Awaiting

  /** `prefetchTab(id)`: an unknown id gives `NoTab` (for an inherited name
      the call throws instead, which the hover and focus handlers swallow,
      so the state is the same); a loaded module is
      returned as is; otherwise the held promise is shared, and only when
      there is none is an import started. */
  function Prefetch(m: Manager, id: string): (r: (Manager, Prefetched))
    requires WellFormed(m)
    ensures WellFormed(r.0)
    ensures id !in m.tabs ==> r == (m, NoTab)
    ensures id in m.tabs && m.tabs[id].code.Some? ==> r == (m, Cached(m.tabs[id].code.value))
    ensures id in m.tabs && m.tabs[id].code.None? && m.tabs[id].promise ==> r == (m, Awaiting)
    ensures id in m.tabs && m.tabs[id].code.None? && !m.tabs[id].promise ==>
              r.1 == Awaiting && r.0 == m.(tabs := m.tabs[id := m.tabs[id].(promise := true)],
                                           log := m.log + [ImportStarted(id)])
  {
    if id !in m.tabs then (m, NoTab)
    else
      var tab := m.tabs[id];
      if tab.code.Some? then (m, Cached(tab.code.value))
      else if tab.promise then (m, Awaiting)
      else (m.(tabs := m.tabs[id := tab.(promise := true)], log := m.log + [ImportStarted(id)]), Awaiting)
  }

  /** Number of imports started for a tab. */
  function Imports(log: seq<Event>, id: string): nat
  {
    if |log| == 0 then 0
    else Imports(log[..|log| - 1], id) + (if log[|log| - 1] == ImportStarted(id) then 1 else 0)
  }

  /** Two prefetches in a row share one load: at most one import starts. */
  lemma PrefetchShared(m: Manager, id: string)
    requires WellFormed(m)
    ensures var once := Prefetch(m, id).0;
            Prefetch(once, id).0 == once
            && Imports(once.log, id) <= Imports(m.log, id) + 1
  {
  }

  /** The import settles: success stores the module (the promise stays
      held); failure drops the promise so that a later prefetch retries. */
  function Settle(m: Manager, id: string, result: Option<Module>): (r: Manager)
    requires WellFormed(m)
    ensures WellFormed(r)
    ensures id in m.tabs && m.tabs[id].promise && m.tabs[id].code.None? && result.Some? ==>
              r.tabs[id].code == result && r.tabs[id].promise
    ensures id in m.tabs && m.tabs[id].promise && m.tabs[id].code.None? && result.None? ==>
              r.tabs[id].code.None? && !r.tabs[id].promise
    ensures !(id in m.tabs && m.tabs[id].promise && m.tabs[id].code.None?) ==> r == m
    ensures r.current == m.current && r.log == m.log
  {
    if id in m.tabs && m.tabs[id].promise && m.tabs[id].code.None? then
      var tab := m.tabs[id];
      if result.Some? then m.(tabs := m.tabs[id := tab.(code := result)])
      else m.(tabs := m.tabs[id := tab.(promise := false)])
    else m
  }

  /** After a failed load the next prefetch starts a new import. */
  lemma FailedLoadRetries(m: Manager, id: string)
    requires WellFormed(m) && id in TabIds && m.tabs[id].code.None?
    ensures var pending := Prefetch(m, id).0;
            var failed := Settle(pending, id, None);
            var retried := Prefetch(failed, id).0;
            retried.log == failed.log + [ImportStarted(id)]
  {
  }

  // ---------------------------------------------------------------------
  // Switching

  /** The first part of `switchTab(id, pushState)`, up to the `await` of the
      module load. Ids `this.tabs` does not hold and the current tab are
      ignored. Otherwise the tab being left gets its cleanup called when
      its module (or the module its pending load settles to,
      `pendingPrevious`) exports one; then the hash is updated when
      `pushState`, exactly the link and the content for `id` become active,
      and `id` becomes current. For a real tab its module load is then
      requested; for an inherited name the load throws (there is no
      loader), the error is caught, and nothing more happens. */
  function BeginSwitch(m: Manager, id: string, pushState: bool, pendingPrevious: Option<Module>): (r: Manager)
    requires WellFormed(m)
    ensures WellFormed(r)
    ensures !Known(id) || m.current == Some(id) ==> r == m
    ensures Known(id) && m.current != Some(id) ==>
              && r.current == Some(id)
              && r.hash == (if pushState then "#" + id else m.hash)
              && r.linkActive == Mark(m.links, "#" + id)
              && r.contentActive == Mark(m.contents, id)
    ensures id in TabIds && m.current != Some(id) ==>
              && r.log == m.log + CleanupEvents(m, pendingPrevious) + [Activated(id)] + ImportEvents(m, id)
              && (r.tabs[id].promise || r.tabs[id].code.Some?)
    ensures id !in TabIds && Known(id) && m.current != Some(id) ==>
              r.log == m.log + CleanupEvents(m, pendingPrevious) + [Activated(id)] && r.tabs == m.tabs
    ensures forall t :: t in m.tabs ==> r.tabs[t].code == m.tabs[t].code && r.tabs[t].loaded == m.tabs[t].loaded
  {
    if !Known(id) || m.current == Some(id) then m
    else
      var cleaned := m.(log := m.log + CleanupEvents(m, pendingPrevious));
      var moved := cleaned.(hash := if pushState then "#" + id else m.hash,
                            linkActive := Mark(m.links, "#" + id),
                            contentActive := Mark(m.contents, id),
                            current := Some(id),
                            log := cleaned.log + [Activated(id)]);
      if id in m.tabs then
        var r := Prefetch(moved, id).0;
        assert r.log == m.log + CleanupEvents(m, pendingPrevious) + [Activated(id)] + ImportEvents(m, id);
        r
      else moved
  }

  /** Switching to an inherited name such as `#constructor` when every tab
      content carries a real tab id leaves no content shown and no tab
      link marked, and loads nothing. */
  lemma InheritedNameHidesEveryTab(m: Manager, id: string, pushState: bool, p: Option<Module>)
    requires WellFormed(m) && id in InheritedNames && m.current != Some(id)
    requires forall i :: 0 <= i < |m.contents| ==> m.contents[i] in TabIds
    requires forall i :: 0 <= i < |m.links| ==> m.links[i] != "#" + id
    ensures var r := BeginSwitch(m, id, pushState, p);
            r.current == Some(id)
            && (forall i :: 0 <= i < |r.contentActive| ==> !r.contentActive[i])
            && (forall i :: 0 <= i < |r.linkActive| ==> !r.linkActive[i])
            && r.tabs == m.tabs
  {
    assert !(id in TabIds) by {
      assert "tab-"[0] == 't';
    }
  }

  /** The cleanup of the tab being left, if its module exports one (an
      inherited name has no cleanup entry). */
  function CleanupEvents(m: Manager, pendingPrevious: Option<Module>): (r: seq<Event>)
    requires WellFormed(m)
    ensures |r| <= 1
    ensures r != [] ==> m.current.Some? && m.current.value in TabIds && r == [CleanedUp(m.current.value)]
  {
    if m.current.None? || m.current.value !in m.tabs then []
    else
      var prev := m.tabs[m.current.value];
      var code := if prev.code.Some? then prev.code else if prev.promise then pendingPrevious else None;
      if code.Some? && code.value.hasCleanup then [CleanedUp(m.current.value)] else []
  }

  /** The import a switch starts, if the module is neither loaded nor loading. */
  function ImportEvents(m: Manager, id: string): seq<Event>
    requires WellFormed(m) && id in TabIds
  {
    if m.tabs[id].code.None? && !m.tabs[id].promise then [ImportStarted(id)] else []
  }

  /** The rest of `switchTab(id)`, once the module load has settled: nothing
      if the load failed or another tab became current meanwhile; otherwise
      the initializer runs (if the module exports one) and only then is the
      tab marked loaded. */
  function FinishSwitch(m: Manager, id: string): (r: Manager)
    requires WellFormed(m)
    ensures WellFormed(r)
    ensures m.current != Some(id) || id !in TabIds ==> r == m
    ensures r.current == m.current
    ensures m.current == Some(id) && id in TabIds && m.tabs[id].code.Some? && m.tabs[id].code.value.hasInit ==>
              r == m.(tabs := m.tabs[id := m.tabs[id].(loaded := true)], log := m.log + [Initialised(id)])
    ensures !(m.current == Some(id) && id in TabIds && m.tabs[id].code.Some? && m.tabs[id].code.value.hasInit) ==> r == m
  {
    if m.current != Some(id) || id !in m.tabs then m
    else
      var tab := m.tabs[id];
      if tab.code.Some? && tab.code.value.hasInit then
        m.(tabs := m.tabs[id := tab.(loaded := true)], log := m.log + [Initialised(id)])
      else m
  }

  /** `loadTabFromHash`: switch (without touching the hash) to the tab the
      hash names, the dashboard for an empty hash; ids `this.tabs` does not
      hold are ignored, while inherited names get through. */
  function LoadTabFromHash(m: Manager, pendingPrevious: Option<Module>): (r: Manager)
    requires WellFormed(m)
    ensures WellFormed(r)
    ensures !Known(TabFromHash(m.hash)) ==> r == m
    ensures r == BeginSwitch(m, TabFromHash(m.hash), false, pendingPrevious)
    ensures r.hash == m.hash
  {
    var id := TabFromHash(m.hash);
    if Known(id) then BeginSwitch(m, id, false, pendingPrevious) else m
  }

  /** Following a link that pushed its id into the hash, the resulting
      `hashchange` finds that tab current and does nothing. */
  lemma HashChangeAfterSwitchIsNoOp(m: Manager, id: string, p: Option<Module>, q: Option<Module>)
    requires WellFormed(m) && id in TabIds && m.current != Some(id)
    ensures var switched := BeginSwitch(m, id, true, p);
            LoadTabFromHash(switched, q) == switched
  {
    var switched := BeginSwitch(m, id, true, p);
    assert TabFromHash("#" + id) == id by {
      assert ("#" + id)[1..] == id;
    }
  }

  /** A fresh manager: every tab unloaded, no current tab, no active
      element. */
  function NewManager(hash: string, links: seq<string>, contents: seq<string>): (r: Manager)
    ensures WellFormed(r) && r.current.None? && r.log == []
  {
    var blank := Tab(None, false, false);
    Manager(map[Dashboard := blank, Filtering := blank, Settings := blank], None, hash,
            links, seq(|links|, _ => false), contents, seq(|contents|, _ => false), [])
  }

  // ---------------------------------------------------------------------
  // Runs of steps

  /** What can happen next: a link is hovered or focused, a link is
      clicked, the hash changes, a pending import settles, or a switch's
      load finishes. `pending` is what a pending load of the tab being left
      settles to, as seen by the cleanup. */
  datatype Step =
    | Hover(href: Option<string>)
    | Click(href: Option<string>, pending: Option<Module>)
    | HashChange(newHash: string, pending: Option<Module>)
    | Settled(tab: string, result: Option<Module>)
    | Resume(tab: string)

  function Next(m: Manager, s: Step): (r: Manager)
    requires WellFormed(m)
    ensures WellFormed(r)
    ensures m.log <= r.log
  {
    match s
    case Hover(href) =>
      var id := TabIdFromLink(href);
      if id.Some? then Prefetch(m, id.value).0 else m
    case Click(href, p) =>
      var id := TabIdFromLink(href);
      if id.Some? then BeginSwitch(m, id.value, true, p) else m
    case HashChange(h, p) => LoadTabFromHash(m.(hash := h), p)
    case Settled(id, result) => Settle(m, id, result)
    case Resume(id) => FinishSwitch(m, id)
  }

  function Run(m: Manager, steps: seq<Step>): (r: Manager)
    requires WellFormed(m)
    ensures WellFormed(r)
    decreases |steps|
  {
    if |steps| == 0 then m else Run(Next(m, steps[0]), steps[1..])
  }

  /** A tab is marked loaded only after its initializer has run, and the
      events only ever grow. */
  predicate LoadedAfterInit(m: Manager)
    requires WellFormed(m)
  {
    forall id :: id in m.tabs && m.tabs[id].loaded ==> Initialised(id) in m.log
  }

  lemma NextKeepsLoadedAfterInit(m: Manager, s: Step)
    requires WellFormed(m) && LoadedAfterInit(m)
    ensures LoadedAfterInit(Next(m, s))
  {
    var r := Next(m, s);
    forall id | id in r.tabs && r.tabs[id].loaded
      ensures Initialised(id) in r.log
    {
      assert Initialised(id) in m.log ==> Initialised(id) in r.log by {
        if Initialised(id) in m.log {
          var k :| 0 <= k < |m.log| && m.log[k] == Initialised(id);
          assert r.log[k] == m.log[k];
        }
      }
    }
  }

  lemma {:induction false} RunKeepsLoadedAfterInit(m: Manager, steps: seq<Step>)
    requires WellFormed(m) && LoadedAfterInit(m)
    ensures LoadedAfterInit(Run(m, steps))
    decreases |steps|
  {
    if |steps| > 0 {
      NextKeepsLoadedAfterInit(m, steps[0]);
      RunKeepsLoadedAfterInit(Next(m, steps[0]), steps[1..]);
    }
  }

  /** Leaving a tab before its module arrives means it is never initialised
      by that switch: the stale continuation changes nothing. */
  lemma StaleSwitchSkipsInit(m: Manager, a: string, b: string, result: Module, p: Option<Module>)
    requires WellFormed(m) && a in TabIds && b in TabIds && a != b && m.current != Some(a)
    requires m.tabs[a].code.None? && !m.tabs[a].promise && !m.tabs[a].loaded
    ensures var toA := BeginSwitch(m, a, true, p);
            var toB := BeginSwitch(toA, b, true, Some(result));
            var settled := Settle(toB, a, Some(result));
            FinishSwitch(settled, a) == settled && !settled.tabs[a].loaded
  {
  }
}

=== FILE: text.dfy ===
/** String helpers used by both halves of the system: splitting on a
    separator (JavaScript `String.prototype.split` and Python `str.split`
    agree for a one-character separator), ASCII case mapping, whitespace
    stripping and decimal rendering of integers. */
module Text {

  /** Position of the first occurrence of `c` in `s`. */
  function IndexOf(s: string, c: char): (k: nat)
    requires c in s
    ensures k < |s| && s[k] == c
    ensures c !in s[..k]
    ensures forall j :: 0 <= j < k ==> s[j] != c
  {
    if s[0] == c then 0
    else
      var k := 1 + IndexOf(s[1..], c);
      assert s[..k] == [s[0]] + s[1..][..k - 1];
      k
  }

  /** `s.split(sep)`: the pieces between separators, always at least one. */
  function Split(s: string, sep: char): (parts: seq<string>)
    ensures |parts| >= 1
    ensures forall i :: 0 <= i < |parts| ==> sep !in parts[i]
    decreases |s|
  {
    if sep in s then
      var k := IndexOf(s, sep);
      [s[..k]] + Split(s[k + 1..], sep)
    else
      [s]
  }

  /** `sep.join(parts)`. */
  function Join(parts: seq<string>, sep: char): string
    decreases |parts|
  {
    if |parts| == 0 then ""
    else if |parts| == 1 then parts[0]
    else parts[0] + [sep] + Join(parts[1..], sep)
  }

  /** Splitting and re-joining gives the original text back. */
  lemma {:induction false} JoinSplit(s: string, sep: char)
    ensures Join(Split(s, sep), sep) == s
    decreases |s|
  {
    if sep in s {
      var k := IndexOf(s, sep);
      var rest := s[k + 1..];
      JoinSplit(rest, sep);
      var tail := Split(rest, sep);
      assert Split(s, sep) == [s[..k]] + tail;
      assert Join([s[..k]] + tail, sep) == s[..k] + [sep] + Join(tail, sep) by {
        assert ([s[..k]] + tail)[1..] == tail;
      }
      assert s == s[..k] + [sep] + rest;
    }
  }

  /** Joining separator-free pieces and splitting again gives the pieces back. */
  lemma {:induction false} SplitJoin(parts: seq<string>, sep: char)
    requires |parts| >= 1
    requires forall i :: 0 <= i < |parts| ==> sep !in parts[i]
    ensures Split(Join(parts, sep), sep) == parts
    decreases |parts|
  {
    if |parts| > 1 {
      var s := Join(parts, sep);
      var rest := Join(parts[1..], sep);
      assert s == parts[0] + [sep] + rest;
      SplitFirst(parts[0], sep, rest);
      SplitJoin(parts[1..], sep);
    }
  }

  /** Splitting a separator-free head, the separator and a rest gives the
      head followed by the split of the rest. */
  lemma SplitFirst(head: string, sep: char, rest: string)
    requires sep !in head
    ensures Split(head + [sep] + rest, sep) == [head] + Split(rest, sep)
  {
    var s := head + [sep] + rest;
    assert s[|head|] == sep;
    var k := IndexOf(s, sep);
    assert forall j :: 0 <= j < |head| ==> s[j] == head[j];
    assert k == |head|;
    assert s[..k] == head;
    assert s[k + 1..] == rest;
  }

  /** Two fields joined by a separator split back into exactly those fields. */
  lemma SplitPair(a: string, b: string, sep: char)
    requires sep !in a && sep !in b
    ensures Split(a + [sep] + b, sep) == [a, b]
  {
    SplitJoin([a, b], sep);
    assert Join([a, b], sep) == a + [sep] + Join([b], sep);
  }

  function UpperChar(c: char): char
  {
    if 'a' <= c <= 'z' then (c as int - 32) as char else c
  }

  /** Upper-casing restricted to ASCII letters. Python's `str.upper()` and
      JavaScript's `toUpperCase` also map other letters (`ß` becomes `SS`,
      `ſ` becomes `S`); this model takes the text it upper-cases to be
      ASCII. */
  function Upper(s: string): (r: string)
    ensures |r| == |s|
    ensures forall i :: 0 <= i < |s| ==> r[i] == UpperChar(s[i])
  {
    if |s| == 0 then "" else [UpperChar(s[0])] + Upper(s[1..])
  }

  function LowerChar(c: char): char
  {
    if 'A' <= c <= 'Z' then (c as int + 32) as char else c
  }

  /** Lower-casing restricted to ASCII letters (Python's `str.lower()` on
      ASCII text). */
  function Lower(s: string): (r: string)
    ensures |r| == |s|
    ensures forall i :: 0 <= i < |s| ==> r[i] == LowerChar(s[i])
  {
    if |s| == 0 then "" else [LowerChar(s[0])] + Lower(s[1..])
  }

  /** Upper-casing twice changes nothing more than upper-casing once. */
  lemma UpperIdempotent(s: string)
    ensures Upper(Upper(s)) == Upper(s)
  {
  }

  /** Text without upper-case letters is its own lower case. */
  lemma LowerUnchanged(s: string)
    requires forall i :: 0 <= i < |s| ==> !('A' <= s[i] <= 'Z')
    ensures Lower(s) == s
  {
    assert forall i :: 0 <= i < |s| ==> Lower(s)[i] == s[i];
  }

  /** Text without lower-case letters is its own upper case. */
  lemma UpperUnchanged(s: string)
    requires forall i :: 0 <= i < |s| ==> !('a' <= s[i] <= 'z')
    ensures Upper(s) == s
  {
    assert forall i :: 0 <= i < |s| ==> Upper(s)[i] == s[i];
  }

  /** The six ASCII whitespace characters, which Python's `int()` and
      `float()` strip from ASCII text. Python and JavaScript also treat
      Unicode spaces such as U+00A0 as whitespace; this model takes the
      text it reads to be ASCII. */
  predicate IsSpace(c: char)
  {
    c == ' ' || c == '\t' || c == '\n' || c == '\r' || c == '\U{000B}' || c == '\U{000C}'
  }

  /** Which characters a strip removes: the number parsers' whitespace, or
      everything `str.isspace()` accepts in ASCII, which adds the four
      separators U+001C to U+001F. */
  datatype Blanks = NumberBlanks | StrBlanks

  predicate IsBlank(blanks: Blanks, c: char)
  {
    IsSpace(c) || (blanks == StrBlanks && '\U{001C}' <= c <= '\U{001F}')
  }

  function TrimLeft(blanks: Blanks, s: string): (r: string)
    ensures |r| <= |s| && r == s[|s| - |r|..]
    ensures |r| > 0 ==> !IsBlank(blanks, r[0])
    ensures forall i :: 0 <= i < |s| - |r| ==> IsBlank(blanks, s[i])
  {
    if |s| > 0 && IsBlank(blanks, s[0]) then TrimLeft(blanks, s[1..]) else s
  }

  function TrimRight(blanks: Blanks, s: string): (r: string)
    ensures |r| <= |s| && r == s[..|r|]
    ensures |r| > 0 ==> !IsBlank(blanks, r[|r| - 1])
    ensures forall i :: |r| <= i < |s| ==> IsBlank(blanks, s[i])
  {
    if |s| > 0 && IsBlank(blanks, s[|s| - 1]) then TrimRight(blanks, s[..|s| - 1]) else s
  }

  /** `part` is the piece of `s` that starts at index `i`. */
  predicate OccursAt(s: string, i: int, part: string)
  {
    0 <= i <= |s| - |part| && part == s[i..i + |part|]
  }

  /** Stripping ASCII text: leading and trailing blanks removed. With
      `StrBlanks` this is `str.strip()`; with `NumberBlanks` it is what
      `int()` and `float()` ignore around a number. */
  function Strip(blanks: Blanks, s: string): (r: string)
    ensures |r| > 0 ==> !IsBlank(blanks, r[0]) && !IsBlank(blanks, r[|r| - 1])
    ensures exists i :: OccursAt(s, i, r)
  {
    var l := TrimLeft(blanks, s);
    var r := TrimRight(blanks, l);
    var i := |s| - |l|;
    assert OccursAt(s, i, r);
    r
  }

  /** Stripping a text that neither starts nor ends with a blank leaves it unchanged. */
  lemma StripUnchanged(blanks: Blanks, s: string)
    requires |s| > 0 ==> !IsBlank(blanks, s[0]) && !IsBlank(blanks, s[|s| - 1])
    ensures Strip(blanks, s) == s
  {
  }

  lemma {:induction false} TrimLeftLeading(blanks: Blanks, w: string, s: string)
    requires forall i :: 0 <= i < |w| ==> IsBlank(blanks, w[i])
    ensures TrimLeft(blanks, w + s) == TrimLeft(blanks, s)
    decreases |w|
  {
    if |w| > 0 {
      assert (w + s)[1..] == w[1..] + s;
      TrimLeftLeading(blanks, w[1..], s);
    } else {
      assert w + s == s;
    }
  }

  /** Leading blanks do not change what a strip returns. */
  lemma StripLeading(blanks: Blanks, w: string, s: string)
    requires forall i :: 0 <= i < |w| ==> IsBlank(blanks, w[i])
    ensures Strip(blanks, w + s) == Strip(blanks, s)
  {
    TrimLeftLeading(blanks, w, s);
  }

  lemma {:induction false} TrimRightTrailing(blanks: Blanks, s: string, w: string)
    requires forall i :: 0 <= i < |w| ==> IsBlank(blanks, w[i])
    ensures TrimRight(blanks, s + w) == TrimRight(blanks, s)
    decreases |w|
  {
    if |w| > 0 {
      assert (s + w)[..|s + w| - 1] == s + w[..|w| - 1];
      TrimRightTrailing(blanks, s, w[..|w| - 1]);
    } else {
      assert s + w == s;
    }
  }

  /** Trailing blanks do not change what a strip returns. */
  lemma StripTrailing(blanks: Blanks, s: string, w: string)
    requires forall i :: 0 <= i < |w| ==> IsBlank(blanks, w[i])
    requires |s| > 0 ==> !IsBlank(blanks, s[0])
    ensures Strip(blanks, s + w) == Strip(blanks, s)
  {
    TrimRightTrailing(blanks, s, w);
  }

  predicate IsDigit(c: char)
  {
    '0' <= c <= '9'
  }

  function DigitValue(c: char): nat
    requires IsDigit(c)
  {
    c as int - '0' as int
  }

  /** Decimal digits of a natural number, most significant first. */
  function NatToString(n: nat): (s: string)
    ensures |s| >= 1
    ensures forall i :: 0 <= i < |s| ==> IsDigit(s[i])
    decreases n
  {
    if n < 10 then [('0' as int + n) as char]
    else NatToString(n / 10) + [('0' as int + n % 10) as char]
  }

  /** `String(n)` for an integer value. */
  function IntToString(n: int): string
  {
    if n < 0 then "-" + NatToString(-n) else NatToString(n)
  }

  /** Value of a non-empty run of decimal digits. */
  function DigitsValue(s: string): nat
    requires forall i :: 0 <= i < |s| ==> IsDigit(s[i])
    decreases |s|
  {
    if |s| == 0 then 0 else 10 * DigitsValue(s[..|s| - 1]) + DigitValue(s[|s| - 1])
  }

  /** Reading back the digits of `n` gives `n`. */
  lemma {:induction false} DigitsOfNat(n: nat)
    ensures DigitsValue(NatToString(n)) == n
    decreases n
  {
    if n >= 10 {
      var s := NatToString(n);
      DigitsOfNat(n / 10);
      assert s[..|s| - 1] == NatToString(n / 10);
    }
  }

  /** Different integers print differently. */
  lemma IntToStringInjective(a: int, b: int)
    requires IntToString(a) == IntToString(b)
    ensures a == b
  {
    var ma: nat := if a < 0 then -a else a;
    var mb: nat := if b < 0 then -b else b;
    DigitsOfNat(ma);
    DigitsOfNat(mb);
    var sa := NatToString(ma);
    var sb := NatToString(mb);
    assert IsDigit(sa[0]) && IsDigit(sb[0]);
    if a < 0 && b < 0 {
      assert ("-" + sa)[1..] == sa && ("-" + sb)[1..] == sb;
    }
  }

  predicate StartsWith(s: string, prefix: string)
  {
    |prefix| <= |s| && s[..|prefix|] == prefix
  }

  /** Number of occurrences of `c` in `s`. */
  function Count(s: string, c: char): nat
  {
    if |s| == 0 then 0 else (if s[0] == c then 1 else 0) + Count(s[1..], c)
  }

  lemma {:induction false} CountConcat(a: string, b: string, c: char)
    ensures Count(a + b, c) == Count(a, c) + Count(b, c)
    decreases |a|
  {
    if |a| > 0 {
      assert (a + b)[1..] == a[1..] + b;
      CountConcat(a[1..], b, c);
    } else {
      assert a + b == b;
    }
  }

  lemma {:induction false} CountAbsent(s: string, c: char)
    requires c !in s
    ensures Count(s, c) == 0
    decreases |s|
  {
    if |s| > 0 {
      assert c !in s[1..];
      CountAbsent(s[1..], c);
    }
  }
}

=== FILE: utils.dfy ===
/** Shared front-end helpers (flask_profiler/static/src/js/utils.js): the
    method colour palette and badge label, the HTML-safe JSON escaping, and
    how `APIService` builds a query and treats the response status. */
module Utils {
  import opened Results
  import opened Js
  import Text

  const MethodColors: map<string, string> := map[
    "GET" := "#28a745", "POST" := "#007bff", "PUT" := "#ffc107", "DELETE" := "#dc3545",
    "PATCH" := "#17a2b8", "HEAD" := "#6610f2", "OPTIONS" := "#e83e8c"]
  const DefaultColor := "#6c757d"

  /** `getMethodColor(method)`: the palette colour of the upper-cased method
      text, or the default colour for a falsy or unknown method. */
  function MethodColor(m: Value): (c: string)
    ensures c == DefaultColor || c in MethodColors.Values
    ensures Truthy(m) && Text.Upper(ToString(m)) in MethodColors ==> c == MethodColors[Text.Upper(ToString(m))]
    ensures c == DefaultColor <==> !Truthy(m) || Text.Upper(ToString(m)) !in MethodColors
  {
    if !Truthy(m) then DefaultColor
    else
      var key := Text.Upper(ToString(m));
      if key in MethodColors then MethodColors[key] else DefaultColor
  }

  /** No palette colour is the default one. */
  lemma PaletteAvoidsDefault()
    ensures DefaultColor !in MethodColors.Values
  {
  }

  /** The colour does not depend on the method's letter case. */
  lemma MethodColorIgnoresCase(s: string)
    ensures MethodColor(Str(s)) == MethodColor(Str(Text.Upper(s)))
  {
    Text.UpperIdempotent(s);
  }

  /** "get" and "GET" are both green. */
  lemma LowerCaseGetIsGreen()
    ensures MethodColor(Str("get")) == "#28a745"
  {
    assert Text.Upper("get") == "GET" by {
      assert Text.UpperChar('g') == 'G' && Text.UpperChar('e') == 'E' && Text.UpperChar('t') == 'T';
    }
  }

  const Unknown := "UNKNOWN"

  /** The text of `createMethodBadge(method)`: the upper-cased method, or
      "UNKNOWN" for a falsy one. */
  function BadgeLabel(m: Value): (text: string)
    ensures !Truthy(m) ==> text == Unknown
    ensures Truthy(m) ==> |text| == |ToString(m)| && forall i :: 0 <= i < |text| ==> text[i] == Text.UpperChar(ToString(m)[i])
  {
    if Truthy(m) then Text.Upper(ToString(m)) else Unknown
  }

  /** The badge is coloured from its own label, which gives the same colour
      as the method it shows. */
  lemma BadgeColorMatchesMethod(m: Value)
    ensures MethodColor(Str(BadgeLabel(m))) == MethodColor(m)
  {
    if Truthy(m) {
      LabelKeepsColor(m);
    } else {
      UnknownIsGrey();
    }
  }

  lemma LabelKeepsColor(m: Value)
    requires Truthy(m)
    ensures MethodColor(Str(BadgeLabel(m))) == MethodColor(m)
  {
    var shown := Text.Upper(ToString(m));
    Text.UpperIdempotent(ToString(m));
    TruthyText(m);
    assert |shown| > 0 && Truthy(Str(shown));
    assert Text.Upper(ToString(Str(shown))) == shown;
  }

  lemma UnknownIsGrey()
    ensures MethodColor(Str(Unknown)) == DefaultColor
  {
    UnknownIsNoMethod();
    UpperUnknown();
    assert ToString(Str(Unknown)) == Unknown;
  }

  lemma UnknownIsNoMethod()
    ensures Unknown !in MethodColors
  {
  }

  lemma UpperUnknown()
    ensures Text.Upper(Unknown) == Unknown
  {
    Text.UpperUnchanged(Unknown);
  }

  /** A truthy value never prints as the empty string. */
  lemma TruthyText(m: Value)
    requires Truthy(m)
    ensures ToString(m) != ""
  {
    if m.Num? {
      assert |Text.NatToString(if m.n < 0 then -m.n else m.n)| >= 1;
    }
  }

  // ---------------------------------------------------------------------
  // Escaping

  /** `text.replace(/c/g, rep)`. */
  function ReplaceAll(s: string, c: char, rep: string): (r: string)
    decreases |s|
  {
    if |s| == 0 then ""
    else (if s[0] == c then rep else [s[0]]) + ReplaceAll(s[1..], c, rep)
  }

  lemma {:induction false} ReplaceAllConcat(a: string, b: string, c: char, rep: string)
    ensures ReplaceAll(a + b, c, rep) == ReplaceAll(a, c, rep) + ReplaceAll(b, c, rep)
    decreases |a|
  {
    if |a| == 0 {
      assert a + b == b;
    } else {
      assert (a + b)[1..] == a[1..] + b;
      ReplaceAllConcat(a[1..], b, c, rep);
    }
  }

  lemma {:induction false} ReplaceAllAbsent(s: string, c: char, rep: string)
    requires c !in s
    ensures ReplaceAll(s, c, rep) == s
    decreases |s|
  {
    if |s| > 0 {
      ReplaceAllAbsent(s[1..], c, rep);
    }
  }

  const LessThan := "\\u003c"
  const GreaterThan := "\\u003e"
  const Ampersand := "\\u0026"

  /** `escapeJSON`, given the text `JSON.stringify(obj, null, 2)` produced:
      `<`, `>` and `&` are replaced, in that order, by their `\u` escapes.
      None of the three is left, and every other character survives. */
  function EscapeJson(json: string): (r: string)
    ensures '<' !in r && '>' !in r && '&' !in r
    ensures forall c :: c in json && c !in {'<', '>', '&'} ==> c in r
  {
    var a := ReplaceAll(json, '<', LessThan);
    var b := ReplaceAll(a, '>', GreaterThan);
    ReplaceAllRemoves(json, '<', LessThan);
    ReplaceAllRemoves(a, '>', GreaterThan);
    ReplaceAllRemoves(b, '&', Ampersand);
    ReplaceAllKeeps(a, '>', GreaterThan, '<');
    ReplaceAllKeeps(b, '&', Ampersand, '<');
    ReplaceAllKeeps(b, '&', Ampersand, '>');
    forall c | c in json && c !in {'<', '>', '&'}
      ensures c in ReplaceAll(b, '&', Ampersand)
    {
      ReplaceAllSurvives(json, '<', LessThan, c);
      ReplaceAllSurvives(a, '>', GreaterThan, c);
      ReplaceAllSurvives(b, '&', Ampersand, c);
    }
    ReplaceAll(b, '&', Ampersand)
  }

  /** After replacing `c` by text without it, `c` is gone. */
  lemma {:induction false} ReplaceAllRemoves(s: string, c: char, rep: string)
    requires c !in rep
    ensures c !in ReplaceAll(s, c, rep)
    decreases |s|
  {
    if |s| > 0 {
      ReplaceAllRemoves(s[1..], c, rep);
    }
  }

  /** A character absent from both the text and the replacement stays absent. */
  lemma {:induction false} ReplaceAllKeeps(s: string, c: char, rep: string, d: char)
    requires d !in rep
    ensures d !in s ==> d !in ReplaceAll(s, c, rep)
    decreases |s|
  {
    if |s| > 0 {
      ReplaceAllKeeps(s[1..], c, rep, d);
    }
  }

  /** A character other than the replaced one survives the replacement. */
  lemma {:induction false} ReplaceAllSurvives(s: string, c: char, rep: string, d: char)
    requires d != c && d in s
    ensures d in ReplaceAll(s, c, rep)
    decreases |s|
  {
    if s[0] != d {
      ReplaceAllSurvives(s[1..], c, rep, d);
    }
  }

  /** How one character comes out of the escaping. */
  function EscapeChar(c: char): (r: string)
    ensures '<' !in r && '>' !in r && '&' !in r
    ensures c !in {'<', '>', '&'} ==> r == [c]
  {
    if c == '<' then LessThan else if c == '>' then GreaterThan else if c == '&' then Ampersand else [c]
  }

  /** The escaping done in one pass, character by character. */
  function EscapeEach(s: string): (r: string)
    ensures '<' !in r && '>' !in r && '&' !in r
    decreases |s|
  {
    if |s| == 0 then "" else EscapeChar(s[0]) + EscapeEach(s[1..])
  }

  lemma ReplaceAllOne(c: char, x: char, rep: string)
    ensures ReplaceAll([c], x, rep) == if c == x then rep else [c]
  {
    assert [c][1..] == "";
  }

  lemma EscapeCharChain(c: char)
    ensures ReplaceAll(ReplaceAll(ReplaceAll([c], '<', LessThan), '>', GreaterThan), '&', Ampersand) == EscapeChar(c)
  {
    ReplaceAllOne(c, '<', LessThan);
    if c == '<' {
      assert '>' !in LessThan && '&' !in LessThan;
      ReplaceAllAbsent(LessThan, '>', GreaterThan);
      ReplaceAllAbsent(LessThan, '&', Ampersand);
    } else {
      ReplaceAllOne(c, '>', GreaterThan);
      if c == '>' {
        assert '&' !in GreaterThan;
        ReplaceAllAbsent(GreaterThan, '&', Ampersand);
      } else {
        ReplaceAllOne(c, '&', Ampersand);
      }
    }
  }

  /** The chain of three replacements is the one-pass escaping: no later
      replacement touches the output of an earlier one. */
  lemma {:induction false} EscapeJsonIsOnePass(s: string)
    ensures EscapeJson(s) == EscapeEach(s)
    decreases |s|
  {
    if |s| > 0 {
      var head := [s[0]];
      var rest := s[1..];
      assert s == head + rest;
      ReplaceAllConcat(head, rest, '<', LessThan);
      ReplaceAllConcat(ReplaceAll(head, '<', LessThan), ReplaceAll(rest, '<', LessThan), '>', GreaterThan);
      ReplaceAllConcat(ReplaceAll(ReplaceAll(head, '<', LessThan), '>', GreaterThan),
                       ReplaceAll(ReplaceAll(rest, '<', LessThan), '>', GreaterThan), '&', Ampersand);
      EscapeCharChain(s[0]);
      EscapeJsonIsOnePass(rest);
    }
  }

  /** The escaped text holds no `<`, `>` or `&`, and text without them is
      left exactly as it was. */
  lemma EscapeJsonIsSafe(s: string)
    ensures '<' !in EscapeJson(s) && '>' !in EscapeJson(s) && '&' !in EscapeJson(s)
    ensures '<' !in s && '>' !in s && '&' !in s ==> EscapeJson(s) == s
  {
    EscapeJsonIsOnePass(s);
    if '<' !in s && '>' !in s && '&' !in s {
      ReplaceAllAbsent(s, '<', LessThan);
      ReplaceAllAbsent(s, '>', GreaterThan);
      ReplaceAllAbsent(s, '&', Ampersand);
    }
  }

  // ---------------------------------------------------------------------
  // API requests

  /** The four list endpoints `APIService` queries. */
  datatype Endpoint = MeasurementList | Summary | Timeseries | MethodDistribution

  function EndpointPath(e: Endpoint): string
  {
    match e
    case MeasurementList => "/measurements/"
    case Summary => "/measurements/grouped"
    case Timeseries => "/measurements/timeseries/"
    case MethodDistribution => "/measurements/methodDistribution/"
  }

  /** A request: the path under the API base and the query parameters. */
  datatype ApiRequest = ApiRequest(path: string, query: seq<Entry>)

  /** The request a `fetch*` method sends: every parameter that is neither
      `null` nor `undefined`, in order. */
  function FetchRequest(baseUrl: string, e: Endpoint, params: Object): (r: ApiRequest)
    ensures r.path == baseUrl + EndpointPath(e)
    ensures forall x :: x in r.query <==> x in params && !Nullish(x.value)
  {
    ApiRequest(baseUrl + EndpointPath(e), SearchParams(params))
  }

  /** A response: its status and its body text. */
  datatype HttpResponse = HttpResponse(status: int, body: string)

  /** `response.ok`: a status in the range 200 to 299. */
  predicate Ok2xx(status: int)
  {
    200 <= status <= 299
  }

  /** After the response arrives: a status outside 200..299 throws
      "HTTP <status>", anything else yields the body for JSON parsing. */
  function FetchResult(resp: HttpResponse): (r: Result<string>)
    ensures r.Ok? <==> Ok2xx(resp.status)
    ensures r.Ok? ==> r.value == resp.body
    ensures r.Err? ==> r.error == "HTTP " + Text.IntToString(resp.status)
  {
    if Ok2xx(resp.status) then Ok(resp.body) else Err("HTTP " + Text.IntToString(resp.status))
  }

  /** The outcome tells responses apart as far as the caller can see them:
      two failures with the same message had the same status, and two
      successes with the same text had the same body. */
  lemma FetchResultReportsStatus(a: HttpResponse, b: HttpResponse)
    requires FetchResult(a) == FetchResult(b)
    ensures Ok2xx(a.status) <==> Ok2xx(b.status)
    ensures Ok2xx(a.status) ==> a.body == b.body
    ensures !Ok2xx(a.status) ==> a.status == b.status
  {
    if !Ok2xx(a.status) {
      var prefix := "HTTP ";
      assert (prefix + Text.IntToString(a.status))[5..] == Text.IntToString(a.status);
      assert (prefix + Text.IntToString(b.status))[5..] == Text.IntToString(b.status);
      Text.IntToStringInjective(a.status, b.status);
    }
  }

  /** Parameters set to `null` or `undefined` never reach the server, and a
      parameter left out cannot be told apart from one set to `null`. */
  lemma NullParamsDropped(baseUrl: string, e: Endpoint, params: Object, k: string)
    ensures FetchRequest(baseUrl, e, params + [Entry(k, Null)]) == FetchRequest(baseUrl, e, params)
    ensures FetchRequest(baseUrl, e, [Entry(k, Undefined)] + params) == FetchRequest(baseUrl, e, params)
  {
    SearchParamsSkipsTail(params, Entry(k, Null));
    assert ([Entry(k, Undefined)] + params)[1..] == params;
  }

  lemma {:induction false} SearchParamsSkipsTail(o: Object, e: Entry)
    requires Nullish(e.value)
    ensures SearchParams(o + [e]) == SearchParams(o)
    decreases |o|
  {
    if |o| == 0 {
      assert SearchParams([e]) == [] + SearchParams([]);
    } else {
      assert (o + [e])[1..] == o[1..] + [e];
      SearchParamsSkipsTail(o[1..], e);
    }
  }
}
